=== FILE: README.md ===
# LeiTunes core, modelled in Dafny

LeiTunes is a small music manager. A **music library** holds songs, each with immutable
metadata (title, genre, artists, album), a file name, a six-step rating and a play
counter. The library is a list with at most one selected position. It plays the
selected song and emits an event for each song added, removed or re-rated. Playlists
listen to those events:

- **manual playlists** take songs from the user;
- the **Most Liked** playlist holds the best-rated songs, at most five of them;
- the **Most Recently Added** playlist holds the newest songs, at most five of them.

A playlist list holds all the playlists. Two facade controllers drive the library and
the playlists. Metadata for a new song comes from a loader, which dispatches on the
file extension to an MP3 tag reader.

The project follows the source's structure:

| file | module | what it holds |
|---|---|---|
| `rates.dfy` | `Rates` | the rating enumeration with saturating increment and decrement |
| `metainfo.dfy` | `MetaInfos` | the metadata record and its pattern test |
| `songs.dfy` | `Songs` | `Song`, a class: ratings and play counts change in place and songs are shared; its `equals` and `hashCode` |
| `selection_list.dfy` | `SelectionLists` | the list-with-selection interface and its array-backed implementation |
| `events.dfy` | `LibraryEvents` | the three library events, as one datatype |
| `player.dfy` | `Players` | the shared player; it records commands and listeners as ghost state |
| `music_library.dfy` | `Library` | `MusicLibrary` |
| `playlist_state.dfy` | `PlaylistStates` | the add and remove rules shared by all playlists, stated on the value `PlaylistState(songs, sel)` |
| `most_liked.dfy`, `most_recent.dfy` | `MostLikedRules`, `MostRecentRules` | what each smart playlist does in response to an event, as functions, with the lemmas about them |
| `playlist.dfy` | `Playlists` | the `Playlist` class; its methods are proved to change the playlist exactly as those functions say |
| `playlist_list.dfy` | `PlaylistLists` | `PlaylistList` |
| `metainfo_loading.dfy` | `MetaInfoLoading` | the loader, the MP3 factory, and Java's `split`, `trim` and `toLowerCase` as used there |
| `controllers.dfy` | `Controllers` | the two facade controllers |

Some Java classes are abstract with subclasses: the playlist hierarchy, and the
metadata factories behind an interface. Each becomes one class or datatype with a
kind tag, and every overridden method dispatches on that tag.

## Model

| member | source | states |
|---|---|---|
| Rates.Ordinal | src/domain/core/Rate.java:11 | the ordinal of each rating is its position in the declaration, below the number of values |
| Rates.FromOrdinal | src/domain/core/Rate.java:22-24 | `values()[n]` is the rating whose ordinal is n |
| Rates.OrdinalInjective | src/domain/core/Rate.java:11 | two ratings have equal ordinals exactly when they are the same rating |
| Rates.Inc | src/domain/core/Rate.java:20-25 | `inc` moves one step up, except at VERY_GOOD, which it returns unchanged |
| Rates.Dec | src/domain/core/Rate.java:34-39 | `dec` moves one step down, except at UNRATED, which it returns unchanged |
| Rates.IncDecMonotone | src/domain/core/Rate.java:20-39 | `dec` never raises a rating and `inc` never lowers one |
| Rates.IncDecInverse | src/domain/core/Rate.java:20-39 | away from the top, `dec` undoes `inc`; away from the bottom, `inc` undoes `dec` |
| Rates.RateExamples | tests/domain/core/RateTests.java:12-31 | the rating tests' expectations: OK.inc() is GOOD, VERY_GOOD.inc() is VERY_GOOD, UNRATED.dec() is UNRATED, OK.dec() is BAD |
| MetaInfos.AnyArtistMatches | src/domain/core/SongMetaInfo.java:35 | the artists' `anyMatch` holds exactly when some artist contains the pattern |
| MetaInfos.Matches | src/domain/core/SongMetaInfo.java:25-36 | the pattern is found in the title, the genre, the album or an artist; `MatchesIff` states it field by field |
| MetaInfos.MatchesIff | src/domain/core/SongMetaInfo.java:25-36 | `matches` holds exactly when the title, the genre, the album or some artist contains the pattern |
| MetaInfos.OneArtistSuffices | src/domain/core/SongMetaInfo.java:32-35 | one matching artist makes the whole record match |
| MetaInfos.NoFieldNoMatch | src/domain/core/SongMetaInfo.java:25-36 | when no field contains the pattern, the record does not match |
| Songs.Song.constructor | src/domain/core/Song.java:30-33 | a new song has the given metadata and file name, is UNRATED and has been played 0 times |
| Songs.Song.WithState | src/domain/core/Song.java:56-63 | the test constructor starts from the given rating and play count |
| Songs.Song.IncTimesPlayed | src/domain/core/Song.java:66-68 | the play count grows by one; the rating is kept |
| Songs.Song.IncRating | src/domain/core/Song.java:81-83 | the rating becomes `inc` of the old rating; the play count is kept |
| Songs.Song.DecRating | src/domain/core/Song.java:86-88 | the rating becomes `dec` of the old rating; the play count is kept |
| Songs.SameSongIffSameData | src/domain/core/Song.java:138-148 | `equals` holds exactly when file name, rating, play count and metadata agree, so a change of rating breaks equality |
| Songs.SameSong | src/domain/core/Song.java:138-148 | `equals`: the same object, or equal file name, rating, play count and metadata; `SameSongIffSameData` and `SameSongEquivalence` state its meaning |
| Songs.Song.HashCode | src/domain/core/Song.java:151-153 | `hashCode` over the four compared fields; `EqualSongsEqualHash` states that equal songs hash equally |
| Songs.SameSongEquivalence | src/domain/core/Song.java:138-148 | `equals` is reflexive, symmetric and transitive |
| Songs.Wrap32 | src/domain/core/Song.java:151-153 | int arithmetic: the value is in the 32-bit range and congruent to the exact result modulo 2^32 |
| Songs.EqualSongsEqualHash | src/domain/core/Song.java:138-153 | equal songs have equal hash codes |
| SelectionLists.NextIndex | src/util/adts/AbsQListWithSelection.java:86-88 | `next` keeps the selection valid and otherwise moves it to the following position |
| SelectionLists.PreviousIndex | src/util/adts/AbsQListWithSelection.java:91-93 | `previous` keeps the selection valid and otherwise moves it to the preceding position |
| SelectionLists.NavigationAtTheEnds | src/util/adts/QListWithSelection.java:50-64 | from the last position `next` clears the selection, and from the first `previous` clears it; elsewhere they move by one |
| SelectionLists.NextFromNoSelection | src/util/adts/AbsQListWithSelection.java:86-93 | with nothing selected, `next` selects the first element if there is one, and `previous` leaves the selection empty |
| SelectionLists.RemoveAt | src/util/adts/AbsQListWithSelection.java:96-101 | `List.remove(k)`: one element shorter, the elements before k kept, those after shifted down, the multiset less one copy of the removed element |
| SelectionLists.SelectionList.constructor | src/util/adts/ArrayQListWithSelection.java:21 | a new list is empty with nothing selected |
| SelectionLists.SelectionList.FromSeq | src/util/adts/ArrayQListWithSelection.java:29-31 | the list starts with the given elements and nothing selected |
| SelectionLists.SelectionList.GetIndexSelected | src/util/adts/QListWithSelection.java:41-48 | with a selection, the index is a position of the list; without one it is -1 |
| SelectionLists.SelectionList.Add | src/util/adts/AbsQListWithSelection.java:55-58 | `e` is appended and selected; the earlier elements are unchanged |
| SelectionLists.SelectionList.Select | src/util/adts/QListWithSelection.java:15-22 | position i is selected; the elements are unchanged |
| SelectionLists.SelectionList.Next | src/util/adts/AbsQListWithSelection.java:86-88 | the selection becomes `NextIndex` of the old one; the elements are unchanged |
| SelectionLists.SelectionList.Previous | src/util/adts/AbsQListWithSelection.java:91-93 | the selection becomes `PreviousIndex` of the old one; the elements are unchanged |
| SelectionLists.SelectionList.Remove | src/util/adts/AbsQListWithSelection.java:96-101 | the selected element is removed and nothing stays selected; without a selection nothing changes |
| Seqs.LastN | src/domain/playlists/MostRecentlyAddedSongsPlaylist.java:41-42 | the window of the last n elements: its length, and each element at its position from the end |
| Seqs.LastNSnoc | src/domain/playlists/MostRecentlyAddedSongsPlaylist.java:40-42 | appending to a full window drops its oldest element and adds the new one |
| Seqs.InsertAt | src/domain/playlists/AbsPlaylist.java:94 | `List.add(i, x)`: x at position i, the prefix kept, the suffix shifted up, the multiset one x larger |
| Players.Without | src/domain/playlists/PlaylistList.java:94-95 | unregistering a listener: it is no longer listed, and every other listener is kept, in its order |
| Players.Player.Load | src/domain/core/MusicLibrary.java:68 | one load command for the path is logged; the listeners are unchanged |
| Players.Player.Play | src/domain/core/MusicLibrary.java:69 | one play command is logged; the listeners are unchanged |
| Players.Player.Stop | src/domain/core/MusicLibrary.java:89 | one stop command is logged; the listeners are unchanged |
| Players.Player.AddListener | src/domain/playlists/PlaylistList.java:60 | the listener is appended; the command log is unchanged |
| Players.Player.RemoveListener | src/domain/playlists/PlaylistList.java:95 | every registration of the listener is removed; the command log is unchanged |
| Library.MatchingSongs | src/domain/core/MusicLibrary.java:130-134 | `getMatches` returns a subsequence of the library in library order; every song in it matches, and every matching song is in it |
| Library.MatchingSongsCount | src/domain/core/MusicLibrary.java:126-134 | a matching song occurs in the result exactly as often as in the library; a non-matching one not at all |
| Library.MusicLibrary.constructor | src/domain/core/MusicLibrary.java:54-56 | a new library is empty, with nothing selected and nothing playing, and is registered as a listener of the player |
| Library.MusicLibrary.IsPlaying | src/domain/core/MusicLibrary.java:78-80 | a song is playing through the library exactly when `playingSong` is set; `Play` makes it true and `PropertyChange` on ENDED or STOPED makes it false |
| Library.MusicLibrary.GetMatches | src/domain/core/MusicLibrary.java:130-134 | the library's songs that match, in library order: `MatchingSongs` and `MatchingSongsCount` |
| Library.MusicLibrary.Play | src/domain/core/MusicLibrary.java:65-70 | the player receives stop, load(file of the selected song) and play; that song is now playing through the library |
| Library.MusicLibrary.Stop | src/domain/core/MusicLibrary.java:88-90 | one stop command reaches the player |
| Library.MusicLibrary.IncRateSelected | src/domain/core/MusicLibrary.java:98-104 | the selected song's rating becomes `inc` of the old one, and one Rated(song, old, new) event is emitted |
| Library.MusicLibrary.DecRateSelected | src/domain/core/MusicLibrary.java:112-118 | the selected song's rating becomes `dec` of the old one, and one Rated(song, old, new) event is emitted |
| Library.MusicLibrary.Select | src/domain/core/MusicLibrary.java:147-149 | position i is selected; the songs are unchanged |
| Library.MusicLibrary.Add | src/domain/core/MusicLibrary.java:152-155 | the song is appended and selected, and exactly one Added(song) event is emitted |
| Library.MusicLibrary.Next | src/domain/core/MusicLibrary.java:168-170 | delegates `next` to the song list |
| Library.MusicLibrary.Previous | src/domain/core/MusicLibrary.java:173-175 | delegates `previous` to the song list |
| Library.MusicLibrary.Remove | src/domain/core/MusicLibrary.java:178-184 | with a selection, the selected song is removed, the selection is cleared, and Removed(that song) is emitted; without one, nothing changes and nothing is emitted |
| Library.MusicLibrary.PropertyChange | src/domain/core/MusicLibrary.java:207-217 | while a song plays through the library, ENDED adds one play to it and STOPED does not; both end the playing; any other notice changes nothing; the playing song's rating never changes |
| Library.MusicLibrary.RegisterListener | src/domain/playlists/PlaylistList.java:59 | the playlist is appended to the library's listeners |
| Library.MusicLibrary.UnregisterListener | src/domain/playlists/PlaylistList.java:94 | every registration of the playlist is removed from the library's listeners |
| PlaylistStates.IndexOf | src/domain/playlists/AbsPlaylist.java:171 | `indexOf`: -1 exactly when no member equals the song; otherwise the first position whose member equals it |
| PlaylistStates.AddSong | src/domain/playlists/AbsPlaylist.java:67-73 | the result's members come from the playlist or are the new song |
| PlaylistStates.AddSongSpec | src/domain/playlists/AbsPlaylist.java:67-73 | after `add` the song is a member. The playlist is unchanged exactly when an equal song was there; otherwise the song was appended and selected. Distinct members stay distinct and the selection stays valid |
| PlaylistStates.RemoveAtIndex | src/domain/playlists/AbsPlaylist.java:185-194 | position k is removed. If it was selected, the selection is cleared; otherwise the song that was selected stays selected at its new position |
| PlaylistStates.RemoveAtIndexKeepsDistinct | src/domain/playlists/AbsPlaylist.java:185-194 | removing a position keeps members distinct and mutually unequal |
| PlaylistStates.SmartRemoveAtIndexAsWritten | src/domain/playlists/SmartPlaylist.java:63-66 | as written: in a smart playlist, removing the selected position changes nothing; any other position is removed as intended |
| PlaylistStates.SmartRemovedStepAsWritten | src/domain/playlists/AbsPlaylist.java:168-175 | `processEvent(Removed(s))` in a smart playlist with the as-written removal; `SelectedRemovalLostAsWritten` shows a selected s staying |
| PlaylistStates.RemovedStep | src/domain/playlists/AbsPlaylist.java:168-175 | the members after a Removed event are members from before it |
| PlaylistStates.RemovedSongIsGone | src/domain/playlists/AbsPlaylist.java:168-175 | when no two members are equal, after Removed(s) no member equals s. Exactly one song left, if one was there, and the selection stays valid |
| MostLikedRules.LowestIn | src/domain/playlists/MostLikedSongsPlaylist.java:85-94 | the scan's candidate is one of the first n positions |
| MostLikedRules.LowestInSpec | src/domain/playlists/MostLikedSongsPlaylist.java:81-96 | the scan finds the lowest rating among the first n members, and the first member that has it |
| MostLikedRules.LowestRateIndex | src/domain/playlists/MostLikedSongsPlaylist.java:81-96 | `removeLowestRate` removes a position of the playlist |
| MostLikedRules.FirstUnratedIndex | src/domain/playlists/MostLikedSongsPlaylist.java:52-61 | the scan stops at the first UNRATED member; every member before it is rated; it reaches the size when there is none |
| MostLikedRules.WithRate | src/domain/playlists/MostLikedSongsPlaylist.java:69-71 | the songs of one rating all have that rating |
| MostLikedRules.WithRateMembers | src/domain/playlists/MostLikedSongsPlaylist.java:69-71 | the songs of one rating all come from the library |
| MostLikedRules.WithRateKeepsOrder | src/domain/playlists/MostLikedSongsPlaylist.java:70 | the sort is stable: songs of one rating keep library order |
| MostLikedRules.Buckets | src/domain/playlists/MostLikedSongsPlaylist.java:69-71 | the concatenated rating groups hold only library songs |
| MostLikedRules.Ranked | src/domain/playlists/MostLikedSongsPlaylist.java:69-71 | the sorted, filtered stream holds only library songs |
| MostLikedRules.TopRated | src/domain/playlists/MostLikedSongsPlaylist.java:69-72 | `limit(AMOUNT_OF_SONGS)`: at most 5 songs, all from the library |
| MostLikedRules.BucketsRates | src/domain/playlists/MostLikedSongsPlaylist.java:69-71 | each grouped song has one of the listed ratings |
| MostLikedRules.BucketsSorted | src/domain/playlists/MostLikedSongsPlaylist.java:70 | groups taken in strictly descending rating order give a list sorted by rating, best first |
| MostLikedRules.WithRateCount | src/domain/playlists/MostLikedSongsPlaylist.java:69-71 | a song occurs in its rating's group as often as in the library, and in no other group |
| MostLikedRules.BucketsCount | src/domain/playlists/MostLikedSongsPlaylist.java:69-71 | the groups together hold each song of a listed rating as often as the library does, and no other song |
| MostLikedRules.RatedDescendingIsStrict | src/domain/playlists/MostLikedSongsPlaylist.java:70-71 | the ranking order lists every rated value once, best first, and leaves out UNRATED |
| MostLikedRules.RankedSpec | src/domain/playlists/MostLikedSongsPlaylist.java:69-71 | the refill's stream is sorted best first and holds no unrated song; it is a permutation of the library's rated songs (equal multisets) |
| MostLikedRules.TopRatedSpec | src/domain/playlists/MostLikedSongsPlaylist.java:69-72 | the top list is sorted best first, holds no unrated song and only library songs, and is min(5, number of rated songs) long |
| MostLikedRules.RefillAsWritten | src/domain/playlists/MostLikedSongsPlaylist.java:66-74 | `addAutomatic` for every top-rated song; `RefillAsWrittenTakesCandidates` and `RefillOverflowsAsWritten` state what it does |
| MostLikedRules.Refill | src/domain/playlists/MostLikedSongsPlaylist.java:66-74 | the refill, stopped at five songs; `RefillSpec`, `RefillAppendsCandidates`, `RefillTakesCandidates` and `RefillKeepsMembersApart` state what it does |
| MostLikedRules.RefillSpec | src/domain/playlists/MostLikedSongsPlaylist.java:63-74 | the corrected refill keeps the members in place and only appends; it never grows a playlist past 5; the selection stays valid |
| MostLikedRules.RefillAppendsCandidates | src/domain/playlists/MostLikedSongsPlaylist.java:68-74 | every song the refill appends comes from the top list and is equal to no earlier member |
| MostLikedRules.RefillTakesCandidates | src/domain/playlists/MostLikedSongsPlaylist.java:68-74 | unless the playlist has reached five songs, every candidate, or a song equal to it, is a member afterwards |
| MostLikedRules.RefillAsWrittenTakesCandidates | src/domain/playlists/MostLikedSongsPlaylist.java:68-74 | as written, the members stay in place and every candidate, or a song equal to it, is a member afterwards |
| MostLikedRules.RefillKeepsMembersApart | src/domain/playlists/MostLikedSongsPlaylist.java:68-74 | the refill adds no duplicate object, no song equal to a member, and no unrated song when the top list has none |
| MostLikedRules.RemoveFirstUnrated | src/domain/playlists/MostLikedSongsPlaylist.java:52-61 | the members after `removeUnrated` are members from before it |
| MostLikedRules.Rerate | src/domain/playlists/MostLikedSongsPlaylist.java:37-42 | the rating reaction before the refill leaves only earlier members and the rated song |
| MostLikedRules.TrimToCapacity | src/domain/playlists/MostLikedSongsPlaylist.java:39-40 | trimming past 5 leaves only earlier members |
| MostLikedRules.MostLikedPre | src/domain/playlists/MostLikedSongsPlaylist.java:37-42 | only Rated events change the playlist before the refill, and then only with earlier members and the rated song |
| MostLikedRules.RefillsAfter | src/domain/playlists/MostLikedSongsPlaylist.java:38-45 | the refill runs on every Rated event, and on Removed only below five songs when the library holds more songs than the playlist |
| MostLikedRules.MostLikedReact | src/domain/playlists/MostLikedSongsPlaylist.java:36-45 | the rating reaction, then the corrected refill when `RefillsAfter` holds; `MostLikedWithinCapacity` and `MostLikedKeepsRated` state its invariants |
| MostLikedRules.MostLikedStep | src/domain/playlists/MostLikedSongsPlaylist.java:34-46 | the base removal, then `MostLikedReact` |
| MostLikedRules.MostLikedStepAsWritten | src/domain/playlists/MostLikedSongsPlaylist.java:34-46 | the same step with the refill as written; `RefillOverflowsAsWritten` shows six songs |
| MostLikedRules.RerateAsWritten | src/domain/playlists/MostLikedSongsPlaylist.java:36-42 | the rating reaction with the removals as written; `UnratedSurvivesAsWritten` shows the lost removals |
| MostLikedRules.MostLikedWithinCapacity | src/domain/playlists/MostLikedSongsPlaylist.java:34-46 | with the corrected refill, every event keeps the playlist at 5 songs or fewer |
| MostLikedRules.RemoveAtKeepsRated | src/domain/playlists/MostLikedSongsPlaylist.java:95 | removing a position keeps a playlist free of unrated songs |
| MostLikedRules.RemoveOnlyUnrated | src/domain/playlists/MostLikedSongsPlaylist.java:52-61 | removing the only unrated member leaves none |
| MostLikedRules.AddUnrated | src/domain/playlists/MostLikedSongsPlaylist.java:38 | after `addAutomatic` of an unrated song, it is still the only unrated member, and it is a member |
| MostLikedRules.TrimThenRemoveUnrated | src/domain/playlists/MostLikedSongsPlaylist.java:39-42 | `removeLowestRate` then `removeUnrated` take out the one unrated member |
| MostLikedRules.RerateKeepsRated | src/domain/playlists/MostLikedSongsPlaylist.java:37-42 | after the rating reaction, no unrated member is left |
| MostLikedRules.MostLikedKeepsRated | src/domain/playlists/MostLikedSongsPlaylist.java:34-46 | invariant: when only the rated song may be unrated before an event, no member is unrated after it, and members stay distinct |
| MostLikedRules.WithRateCons | src/domain/playlists/MostLikedSongsPlaylist.java:71 | the filter on a list with a first song: that song, if it has the rating, then the filter on the rest |
| MostLikedRules.WithRateAppend | src/domain/playlists/MostLikedSongsPlaylist.java:69-71 | grouping by rating distributes over joining two song lists |
| MostLikedRules.WithRateAll | src/domain/playlists/MostLikedSongsPlaylist.java:69-71 | a list whose songs all have the rating is its own group |
| MostLikedRules.WithRateNone | src/domain/playlists/MostLikedSongsPlaylist.java:69-71 | a list with no song of the rating has an empty group |
| MostLikedRules.WithRateExample | src/domain/playlists/MostLikedSongsPlaylist.java:69-71 | the rating groups of the library [y, a, b, c, d, x] when a..d are VERY_GOOD and x, y are OK |
| MostLikedRules.LowerBucketsExample | src/domain/playlists/MostLikedSongsPlaylist.java:69-71 | in that library, below VERY_GOOD the stream ranks y before x |
| MostLikedRules.TopRatedExample | src/domain/playlists/MostLikedSongsPlaylist.java:69-72 | the top list of that library is [a, b, c, d, y] |
| MostLikedRules.RefillAsWrittenExample | src/domain/playlists/MostLikedSongsPlaylist.java:68-74 | as written, refilling [a, b, c, d, x] from that top list appends y |
| MostLikedRules.RefillOverflowsAsWritten | src/domain/playlists/MostLikedSongsPlaylist.java:63-74 | counterexample: re-rating x from GOOD to OK leaves the as-written playlist with 6 songs and the corrected one with 5 |
| MostLikedRules.UnratedJoinsFull | src/domain/playlists/MostLikedSongsPlaylist.java:37-40 | an unrated song offered to a full VERY_GOOD playlist is appended and selected, and it is both the lowest rated and the first unrated member |
| MostLikedRules.UnratedSurvivesAsWritten | src/domain/playlists/MostLikedSongsPlaylist.java:37-42 | as written the unrated song stays as a sixth member; with the intended removal it leaves |
| MostRecentRules.Backfill | src/domain/playlists/MostRecentlyAddedSongsPlaylist.java:44-51 | the backfill adds only library songs |
| MostRecentRules.LastNonMember | src/domain/playlists/MostRecentlyAddedSongsPlaylist.java:47-50 | the latest library position whose song is not a member, and every later song is one; -1 when all are members |
| MostRecentRules.BackfillAddsLastNonMember | src/domain/playlists/MostRecentlyAddedSongsPlaylist.java:44-51 | the backfill loop appends exactly the latest library song that is not a member, or nothing when every song is one |
| MostRecentRules.KeepNewest | src/domain/playlists/MostRecentlyAddedSongsPlaylist.java:41-42 | dropping the oldest member leaves only earlier members |
| MostRecentRules.MostRecentReact | src/domain/playlists/MostRecentlyAddedSongsPlaylist.java:38-51 | every song afterwards was a member, is the event's song or is a library song |
| MostRecentRules.MostRecentStep | src/domain/playlists/MostRecentlyAddedSongsPlaylist.java:36-52 | the base removal, then `MostRecentReact`; every song afterwards was a member, is the event's song or is a library song |
| MostRecentRules.MostRecentWithinCapacity | src/domain/playlists/MostRecentlyAddedSongsPlaylist.java:36-52 | every event keeps the playlist at 5 songs or fewer |
| MostRecentRules.AddedSongIsNewestAndSelected | src/domain/playlists/MostRecentlyAddedSongsPlaylist.java:38-43 | a newly added song becomes the last member and is selected, after the oldest member is dropped when the playlist was full |
| MostRecentRules.AfterAdds | src/domain/playlists/MostRecentlyAddedSongsPlaylist.java:38-43 | the playlist after a run of Added events holds only added songs |
| MostRecentRules.NewSongNotInWindow | src/domain/playlists/MostRecentlyAddedSongsPlaylist.java:40 | a song equal to no earlier song is not in the window of the earlier ones |
| MostRecentRules.MostRecentWindow | src/domain/playlists/MostRecentlyAddedSongsPlaylist.java:36-52 | after mutually unequal songs are added, the playlist holds the last 5 of them in order of addition, with the newest selected |
| MostRecentRules.SelectedRemovalLostAsWritten | src/domain/playlists/AbsPlaylist.java:185-187 | counterexample: a song added then removed from the library stays in the playlist as written and leaves it once the removal is corrected |
| Playlists.Step | src/domain/playlists/AbsPlaylist.java:168-175 | a manual playlist does only the base removal, the smart kinds `MostLikedStep` and `MostRecentStep` |
| Playlists.Playlist.Manual | src/domain/playlists/ManualPlaylist.java:24-26 | a new manual playlist has the given name and is empty, with nothing selected and nothing playing |
| Playlists.Playlist.MostLikedSongs | src/domain/playlists/MostLikedSongsPlaylist.java:29-31 | the Most Liked playlist starts empty under the name "Most Liked" |
| Playlists.Playlist.MostRecentlyAddedSongs | src/domain/playlists/MostRecentlyAddedSongsPlaylist.java:31-33 | the Most Recently Added playlist starts empty under the name "Most Recently Added" |
| Playlists.Playlist.Size | src/domain/playlists/AbsPlaylist.java:52-54 | the number of songs |
| Playlists.Playlist.SomeSelected | src/domain/playlists/AbsPlaylist.java:62-64 | some position is selected exactly when the index is not -1 |
| Playlists.Playlist.GetIndexSelected | src/domain/playlists/AbsPlaylist.java:100-102 | a position of the playlist, or -1 exactly when nothing is selected |
| Playlists.Playlist.GetSelected | src/domain/playlists/AbsPlaylist.java:57-59 | the member at the selected position |
| Playlists.Playlist.IsPlaying | src/domain/playlists/AbsPlaylist.java:120-122 | a song started through this playlist is still playing |
| Playlists.Playlist.AddBase | src/domain/playlists/AbsPlaylist.java:67-73 | the playlist becomes `AddSong` of the old one; the result is true exactly when no equal song was a member |
| Playlists.Playlist.Add | src/domain/playlists/SmartPlaylist.java:58-61 | a smart playlist turns every song down and stays unchanged; a manual one behaves as the base add |
| Playlists.Playlist.AddAutomatic | src/domain/playlists/SmartPlaylist.java:29-39 | the base add, for smart playlists; the size does not shrink |
| Playlists.Playlist.RemoveBase | src/domain/playlists/AbsPlaylist.java:76-83 | with a selection, the selected song is removed, the selection cleared, and the result is true; otherwise nothing changes and the result is false |
| Playlists.Playlist.Remove | src/domain/playlists/SmartPlaylist.java:63-66 | a smart playlist refuses and stays unchanged; a manual one behaves as the base remove |
| Playlists.Playlist.Select | src/domain/playlists/AbsPlaylist.java:86-88 | position i is selected; the songs are unchanged |
| Playlists.Playlist.MoveUpSelected | src/domain/playlists/AbsPlaylist.java:91-97 | a manual playlist moves the selected song to position i and selects it there (a permutation); a smart playlist refuses and stays unchanged (SmartPlaylist.java:54-56) |
| Playlists.Playlist.Next | src/domain/playlists/AbsPlaylist.java:105-107 | the selection becomes `NextIndex` of the old one |
| Playlists.Playlist.Previous | src/domain/playlists/AbsPlaylist.java:110-112 | the selection becomes `PreviousIndex` of the old one |
| Playlists.Playlist.RemoveAtIndex | src/domain/playlists/AbsPlaylist.java:185-194 | the playlist becomes `RemoveAtIndex` of the old one, the corrected removal |
| Playlists.Playlist.RemoveAutomatic | src/domain/playlists/SmartPlaylist.java:41-51 | removes position k; the size goes down by one |
| Playlists.Playlist.Play | src/domain/playlists/AbsPlaylist.java:125-130 | the player receives stop, load(file of the selected song) and play; that song plays through this playlist |
| Playlists.Playlist.Stop | src/domain/playlists/AbsPlaylist.java:133-135 | one stop command reaches the player |
| Playlists.Playlist.SearchPlayingSong | src/domain/playlists/AbsPlaylist.java:153-165 | when the first member equal to the ended song has a successor, the successor is selected and played; otherwise nothing plays any more |
| Playlists.Playlist.PropertyChange | src/domain/playlists/AbsPlaylist.java:138-148 | while a song plays: STOPED forgets it; ENDED adds one play and moves on as `searchPlayingSong`; any other notice changes nothing; the playing song's rating never changes |
| Playlists.Playlist.RemoveMatching | src/domain/playlists/AbsPlaylist.java:168-175 | the playlist becomes `RemovedStep` of the old one |
| Playlists.Playlist.RemoveLowestRate | src/domain/playlists/MostLikedSongsPlaylist.java:76-96 | the loop removes the position `LowestRateIndex` names; the size goes down by one |
| Playlists.Playlist.RemoveUnrated | src/domain/playlists/MostLikedSongsPlaylist.java:52-61 | the loop removes the first unrated member, if any |
| Playlists.Playlist.RefillPlaylist | src/domain/playlists/MostLikedSongsPlaylist.java:68-74 | the loop leaves the playlist as `Refill` of the top-rated library songs says |
| Playlists.Playlist.BackfillFromLibrary | src/domain/playlists/MostRecentlyAddedSongsPlaylist.java:46-50 | the loop leaves the playlist as `Backfill` says: at most one library song added |
| Playlists.Playlist.AddRated | src/domain/playlists/MostLikedSongsPlaylist.java:38-40 | `addAutomatic`, then `removeLowestRate` past 5 songs |
| Playlists.Playlist.Rerate | src/domain/playlists/MostLikedSongsPlaylist.java:37-42 | the playlist becomes `Rerate` of the old one |
| Playlists.Playlist.ReactMostLiked | src/domain/playlists/MostLikedSongsPlaylist.java:36-45 | the Most Liked reaction after the base removal: the playlist becomes `MostLikedReact` of the old one: the rating reaction, then the refill when `RefillsAfter` holds |
| Playlists.Playlist.ReactMostRecent | src/domain/playlists/MostRecentlyAddedSongsPlaylist.java:38-51 | the playlist becomes `MostRecentReact` of the old one, the reaction after the base removal |
| Playlists.Playlist.ProcessMostLiked | src/domain/playlists/MostLikedSongsPlaylist.java:34-46 | the playlist becomes `MostLikedStep` of the old one |
| Playlists.Playlist.ProcessMostRecent | src/domain/playlists/MostRecentlyAddedSongsPlaylist.java:36-52 | the playlist becomes `MostRecentStep` of the old one |
| Playlists.Playlist.ProcessEvent | src/domain/playlists/AbsPlaylist.java:168-175 | each kind of playlist follows its own step; a manual playlist follows only the base removal |
| PlaylistLists.PlayingCount | src/domain/playlists/PlaylistList.java:121-127 | 0 exactly when no playlist plays a song |
| PlaylistLists.Stops | src/domain/playlists/PlaylistList.java:135-140 | n stop commands |
| PlaylistLists.PlaylistList.Size | src/domain/playlists/PlaylistList.java:160-162 | the number of playlists |
| PlaylistLists.PlaylistList.SomeSelected | src/domain/playlists/PlaylistList.java:64-66 | some playlist is selected exactly when the index is not -1 |
| PlaylistLists.PlaylistList.GetIndexSelected | src/domain/playlists/PlaylistList.java:70-72 | a position of the list, or -1 exactly when nothing is selected |
| PlaylistLists.PlaylistList.GetSelected | src/domain/playlists/PlaylistList.java:102-104 | the selected playlist, which shares the player |
| PlaylistLists.PlaylistList.constructor | src/domain/playlists/PlaylistList.java:27-40 | two empty playlists, Most Liked then Most Recently Added, with the second selected; both registered with the library and the player |
| PlaylistLists.PlaylistList.Add | src/domain/playlists/PlaylistList.java:48-61 | the playlist is appended and selected, and registered once with the library and once with the player |
| PlaylistLists.PlaylistList.Remove | src/domain/playlists/PlaylistList.java:84-98 | with a selection, the selected playlist is removed and unregistered from both; nothing is selected afterwards |
| PlaylistLists.PlaylistList.Select | src/domain/playlists/PlaylistList.java:44-46 | position i is selected |
| PlaylistLists.PlaylistList.Next | src/domain/playlists/PlaylistList.java:75-77 | delegates `next` |
| PlaylistLists.PlaylistList.Previous | src/domain/playlists/PlaylistList.java:80-82 | delegates `previous` |
| PlaylistLists.PlaylistList.Play | src/domain/playlists/PlaylistList.java:106-114 | the selected playlist plays its selected song |
| PlaylistLists.PlaylistList.IsPlaying | src/domain/playlists/PlaylistList.java:116-127 | the loop returns true exactly when some playlist plays a song |
| PlaylistLists.PlaylistList.Stop | src/domain/playlists/PlaylistList.java:129-140 | the loop sends one stop command for each playlist that plays a song |
| MetaInfoLoading.Pieces | src/servicos/MP3MetaInfoFactory.java:38 | splitting gives one piece more than there are separators |
| MetaInfoLoading.PiecesJoin | src/servicos/MP3MetaInfoFactory.java:38 | joining the pieces with the separator gives back the string, and no piece holds the separator |
| MetaInfoLoading.PiecesSnoc | src/servicos/MP3MetaInfoFactory.java:38 | appending a separator and a separator-free word appends one piece |
| MetaInfoLoading.PiecesOfSeparators | src/servicos/MP3MetaInfoFactory.java:52 | a string of n separators splits into n + 1 empty pieces |
| MetaInfoLoading.DropTrailingEmpty | src/servicos/MP3MetaInfoFactory.java:38 | `split` drops the trailing empty strings and keeps the rest in order |
| MetaInfoLoading.JavaSplit | src/servicos/MP3MetaInfoFactory.java:38 | `String.split`: the string alone without a separator, otherwise the pieces without trailing empties; `SplitIgnoresTrailingSeparator`, `SplitLastPiece` and `OnlySeparatorsSplitToNothing` state it |
| MetaInfoLoading.OnlySeparatorsSplitToNothing | src/servicos/MP3MetaInfoFactory.java:52-53 | a path of dots only splits into no pieces |
| MetaInfoLoading.SplitIgnoresTrailingSeparator | src/servicos/MP3MetaInfoFactory.java:52 | a trailing separator after a non-empty string changes nothing |
| MetaInfoLoading.PiecesWithoutSeparator | src/servicos/MP3MetaInfoFactory.java:38 | a string without the separator splits into itself alone |
| MetaInfoLoading.SplitLastPiece | src/servicos/MP3MetaInfoFactory.java:52-53 | the word after the last separator is the last piece |
| MetaInfoLoading.ToLower | src/servicos/MP3MetaInfoFactory.java:53 | lowering works character by character and keeps the length |
| MetaInfoLoading.LowerIsMp3 | src/servicos/MP3MetaInfoFactory.java:53-54 | a string lowers to "mp3" exactly when it spells mp3 in some letter case |
| MetaInfoLoading.TrimLeft | src/servicos/MP3MetaInfoFactory.java:40 | removes exactly the leading characters up to U+0020 |
| MetaInfoLoading.TrimRight | src/servicos/MP3MetaInfoFactory.java:40 | removes exactly the trailing characters up to U+0020 |
| MetaInfoLoading.Trim | src/servicos/MP3MetaInfoFactory.java:40 | the trimmed string neither starts nor ends with a character up to U+0020 |
| MetaInfoLoading.TrimSlice | src/servicos/MP3MetaInfoFactory.java:40 | the trimmed string is the slice of the original between two runs of removable characters |
| MetaInfoLoading.TrimKeeps | src/servicos/MP3MetaInfoFactory.java:40 | a string that neither starts nor ends with a character up to U+0020 is its own trim |
| MetaInfoLoading.TrimIdempotent | src/servicos/MP3MetaInfoFactory.java:40 | trimming twice is trimming once |
| MetaInfoLoading.CanLoad | src/servicos/MP3MetaInfoFactory.java:51-55 | the last '.'-piece, lowered, is "mp3"; `CanLoadExtension` and `CanLoadWithoutDot` state it |
| MetaInfoLoading.CanLoadExtension | src/servicos/MP3MetaInfoFactory.java:51-55 | a path with a dot-free extension is accepted exactly when the extension is mp3 in some letter case |
| MetaInfoLoading.CanLoadWithoutDot | src/servicos/MP3MetaInfoFactory.java:51-55 | a path without a dot is compared whole |
| MetaInfoLoading.CanLoadIgnoresTrailingDot | src/servicos/MP3MetaInfoFactory.java:52 | a trailing dot does not change the answer |
| MetaInfoLoading.DotsOnlyHaveNoLastPiece | src/servicos/MP3MetaInfoFactory.java:52-53 | a path of dots only has no last piece, so Java's index fails there |
| MetaInfoLoading.AcceptsLowerCaseMp3 | src/servicos/MP3MetaInfoFactory.java:51-55 | "song.mp3" is accepted |
| MetaInfoLoading.AcceptsUpperCaseMp3 | src/servicos/MP3MetaInfoFactory.java:51-55 | "x.MP3" is accepted |
| MetaInfoLoading.RejectsWav | src/servicos/MP3MetaInfoFactory.java:51-55 | "song.wav" is rejected |
| MetaInfoLoading.OrUnknown | src/servicos/MP3MetaInfoFactory.java:23-41 | a missing field becomes "unknown"; a present one is kept |
| MetaInfoLoading.UnknownArtistIsItself | src/servicos/MP3MetaInfoFactory.java:37-40 | the placeholder "unknown" splits into itself alone and trims to itself, so a missing artist gives the one artist "unknown" |
| MetaInfoLoading.TrimAll | src/servicos/MP3MetaInfoFactory.java:39-40 | every piece trimmed, in order |
| MetaInfoLoading.Mp3Meta | src/servicos/MP3MetaInfoFactory.java:26-48 | nothing for an unreadable file or one without a tag, otherwise the metadata of the chosen tag; `Mp3MetaSources` states it |
| MetaInfoLoading.Mp3MetaSources | src/servicos/MP3MetaInfoFactory.java:26-48 | the ID3v2 tag wins over the ID3v1 tag; an unreadable file, or one without a tag, gives nothing |
| MetaInfoLoading.MetaFromTagFields | src/servicos/MP3MetaInfoFactory.java:35-42 | missing title, genre or album become "unknown"; the artists are the trimmed ';'-pieces of the artist field (or of "unknown") |
| MetaInfoLoading.TrimPieces | src/servicos/MP3MetaInfoFactory.java:38-40 | the in-place array loop leaves every piece trimmed |
| MetaInfoLoading.Mp3Load | src/servicos/MP3MetaInfoFactory.java:26-48 | `load` returns what `Mp3Meta` specifies |
| MetaInfoLoading.FactoryLoad | src/servicos/MP3MetaInfoFactory.java:26-48 | each factory's `load` returns its specified result |
| MetaInfoLoading.FirstLoader | src/servicos/MetaInfoLoader.java:34-37 | the first factory that can load the path: every earlier factory cannot |
| MetaInfoLoading.Dispatch | src/servicos/MetaInfoLoader.java:33-39 | the result of the first factory that can load the path, or nothing |
| MetaInfoLoading.Mp3OnlyDispatch | src/servicos/MetaInfoLoader.java:21-39 | with the MP3 factory alone, a path whose extension is not mp3 gives nothing, and any other path gives the MP3 result |
| MetaInfoLoading.MetaInfoLoader.constructor | src/servicos/MetaInfoLoader.java:21-23 | the loader installs the MP3 factory only |
| MetaInfoLoading.MetaInfoLoader.Load | src/servicos/MetaInfoLoader.java:33-39 | the loop returns the first capable factory's result, even when that is nothing; nothing when no factory is capable |
| Controllers.MusicLibraryController.constructor | src/domain/facade/MusicLibraryController.java:22-32 | the controller drives the given library with a loader holding the MP3 factory |
| Controllers.MusicLibraryController.NumberOfSongs | src/domain/facade/MusicLibraryController.java:40-42 | the number of library songs |
| Controllers.MusicLibraryController.AddSong | src/domain/facade/MusicLibraryController.java:51-59 | without metadata nothing changes. Otherwise a fresh song with that metadata and file name is appended and selected, UNRATED and never played, and one Added event is emitted; the playing song and the listeners stay |
| Controllers.MusicLibraryController.SelectSong | src/domain/facade/MusicLibraryController.java:67-70 | only an index inside the library selects; any other index changes nothing |
| Controllers.MusicLibraryController.GetSelectedSong | src/domain/facade/MusicLibraryController.java:77-81 | empty exactly when nothing is selected; otherwise the selected song |
| Controllers.MusicLibraryController.RemoveSelectedSong | src/domain/facade/MusicLibraryController.java:86-88 | with a selection, the selected song is removed, nothing is selected and one Removed event is emitted; without one nothing changes; the playing song and the listeners stay |
| Controllers.MusicLibraryController.Play | src/domain/facade/MusicLibraryController.java:98-101 | plays only with a selected song; otherwise the player hears nothing; the songs, the library's events and listeners and the player's listeners are kept |
| Controllers.MusicLibraryController.Stop | src/domain/facade/MusicLibraryController.java:107-110 | stops only while a song plays through the library; the player's listeners are kept |
| Controllers.MusicLibraryController.IncRateSelected | src/domain/facade/MusicLibraryController.java:117-120 | only with a selected song: its rating goes up, its play count and the selection stay, and one Rated event is emitted; otherwise nothing is emitted; the playing song and the listeners stay |
| Controllers.MusicLibraryController.DecRateSelected | src/domain/facade/MusicLibraryController.java:127-130 | only with a selected song: its rating goes down, its play count and the selection stay, and one Rated event is emitted; otherwise nothing is emitted; the playing song and the listeners stay |
| Controllers.PlaylistListController.constructor | src/domain/facade/PlaylistListController.java:30-33 | the controller drives the given playlist list and library |
| Controllers.PlaylistListController.SomePlaylistSelected | src/domain/facade/PlaylistListController.java:62-64 | some playlist is selected |
| Controllers.PlaylistListController.GetSelectedPlaylist | src/domain/facade/PlaylistListController.java:73-75 | the selected playlist |
| Controllers.PlaylistListController.SomeSongSelected | src/domain/facade/PlaylistListController.java:138-140 | a playlist is selected, and it has a selected song |
| Controllers.PlaylistListController.NumberOfSongs | src/domain/facade/PlaylistListController.java:104-106 | the number of songs of the selected playlist |
| Controllers.PlaylistListController.CreatePlaylist | src/domain/facade/PlaylistListController.java:42-44 | a new empty manual playlist with that name is appended, selected and registered with the library and the player; the earlier playlists, the player's log, the library's events, songs and playing song are kept |
| Controllers.PlaylistListController.SelectPlaylist | src/domain/facade/PlaylistListController.java:52-55 | only an index inside the list selects; any other index changes nothing |
| Controllers.PlaylistListController.RemovePlaylist | src/domain/facade/PlaylistListController.java:83-85 | with a selection, the selected playlist is removed and unregistered from the library and the player, and nothing is selected; without one nothing changes; the library, its events and the player's log stay |
| Controllers.PlaylistListController.AddSong | src/domain/facade/PlaylistListController.java:115-118 | with a library selection, that song is offered to the selected playlist (turned down by a smart one or when an equal song is there); without one, nothing changes |
| Controllers.PlaylistListController.SelectSong | src/domain/facade/PlaylistListController.java:127-130 | only an index inside the selected playlist selects |
| Controllers.PlaylistListController.RemoveSelectedSong | src/domain/facade/PlaylistListController.java:147-149 | the selected playlist's `remove` |
| Controllers.PlaylistListController.NextSong | src/domain/facade/PlaylistListController.java:156-158 | the selected playlist's selection steps forward; its songs and playing song stay |
| Controllers.PlaylistListController.PreviousSong | src/domain/facade/PlaylistListController.java:165-167 | the selected playlist's selection steps back; its songs and playing song stay |
| Controllers.PlaylistListController.Play | src/domain/facade/PlaylistListController.java:176-179 | with a selected song, the selected playlist plays it and keeps its songs and selection; otherwise the player hears nothing and the selected playlist is unchanged |
| Controllers.PlaylistListController.Stop | src/domain/facade/PlaylistListController.java:185-187 | one stop command for each playlist that plays a song; the player's listeners are kept |

## Left out

- Audio output, the player's internals and its thread. The player is a ghost log of the commands it receives plus a list of listeners. Its notifications are explicit `PropertyChange` calls, so the re-entrant callback a real stop triggers is not modelled.
- PlaylistLists.PlaylistList.Stop: states the stop commands sent, not the source's `!isPlaying()`. That follows only once the player calls back with STOPED, which is a separate `PropertyChange` step here.
- Library.MusicLibrary.Stop: states the stop command, not `!isPlaying()`, for the same reason.
- The observer base class (`AbsSubject`, listener interfaces, event delivery). Emitted events are a ghost sequence. Delivery is the explicit `Playlist.ProcessEvent(e, lib)`, where `lib` is the library's song sequence after the change; this replaces the playlist's reference to its library (`getLibrary`).
- The event classes' extra field naming the emitting library: there is one library.
- Regular expressions. `Finder` is a parameter that says whether a pattern occurs in a text.
- File access and the mp3agic tag library. `Disk` maps a readable path to its decoded tags; an absent path stands for a file that throws while being read. The printed stack trace and the controller's log message are left out.
- Traits and interfaces (`QListWithSelection`, `Playlist`, `IMetaInfoFactory`, `ISong`, `RegExpMatchable`). Their contracts sit on the one implementing class. The playlist subclasses become a `Kind` tag and the factories a datatype.
- Iterators, `toString`, `getName`, `getSongs`, `getFilename` and the other plain getters. Iteration is over the sequence fields.
- The application wiring class `LEITunes` and the player factory singleton. The shared player is a constructor argument.
- Songs.Song.HashCode: the record's own hash of the metadata is unspecified in Java, so `MetaHash` is one plausible hash. The rating enters the hash through its ordinal, in place of the enum constant's identity hash. The proved property is only that equal songs hash equally.
- Songs.Song.IncTimesPlayed: the play count is a `nat`, so the 32-bit wrap of `playCount` past 2^31 - 1 (Song.java:66-68) is not modelled; `WithState` likewise takes any `nat`.
- Song(Rate), the test-only constructor that uses empty metadata, is covered by `WithState`.
- MetaInfoLoading.ToLower: lowers ASCII letters only; Java's locale-aware `toLowerCase` also maps other letters.
- MetaInfoLoading.CanLoad: requires that the '.'-split has a last piece. Java throws an index error on a path made only of dots (`DotsOnlyHaveNoLastPiece`). `MetaInfoLoading.MetaInfoLoader.Load` and `Controllers.MusicLibraryController.AddSong` carry the same requires, since Java's `load` and `addSong` throw through `canLoad` on such a path.
- Playlists.Playlist.Select: requires a position of the playlist, as the list interface demands (QListWithSelection.java:19). The Java field would accept any int.
- Playlists.Playlist.MoveUpSelected: for a manual playlist it requires a selected song and 0 <= i < size. Outside these, Java's `getSelected()` or `List.add(i, …)` throws IndexOutOfBoundsException (AbsPlaylist.java:91-94); the exception is not modelled.
- Playlists.Playlist.Play: requires a selected song. Without one, `AbsPlaylist.play` (AbsPlaylist.java:124-129) reads the file name of a null song and throws; the only caller, `PlaylistList.play`, is guarded by the controller.
- PlaylistLists.PlaylistList.Play: requires that the selected playlist has a selected song. Its doc (PlaylistList.java:106-110) promises that it "does nothing" otherwise, but the code throws through the playlist's `getSelected()`. The only caller, PlaylistListController.java:176-178, checks `someSongSelected()` first, so the no-op case is never reached.
- MostLikedRules.RemoveFirstUnrated: the code removes only the first unrated member, although its doc comment (MostLikedSongsPlaylist.java:49) speaks of removing the UNRATED songs. The code is followed.
- Playlists.Playlist.RemoveAtIndex and PlaylistStates.RemoveAtIndex: these model the intended removal. The as-written behaviour of smart playlists is kept beside them (Findings). Built on them, these members also follow the intended removal, not the code as written: Playlists.Playlist.RemoveAutomatic, Playlists.Playlist.Rerate, Playlists.Playlist.ReactMostLiked, Playlists.Playlist.ProcessMostLiked, Playlists.Playlist.ProcessMostRecent, MostLikedRules.Rerate, MostLikedRules.MostLikedReact, MostLikedRules.MostLikedStep and MostRecentRules.MostRecentStep.
- MostLikedRules.Refill: the refill stops at five songs. The as-written refill is kept beside it (Findings). Built on it, these members also follow the capped refill, not the code as written: Playlists.Playlist.RefillPlaylist, Playlists.Playlist.ReactMostLiked, Playlists.Playlist.ProcessMostLiked, MostLikedRules.MostLikedReact and MostLikedRules.MostLikedStep.
- SelectionLists.SelectionList.FromSeq: the Java constructor that takes a list (ArrayQListWithSelection.java:30, AbsQListWithSelection.java:36) keeps the caller's list object, so later changes through either reference are shared. The model copies the elements into a value, so that aliasing is not captured; no modelled code keeps using the list it passed in.

## Findings

| source | as written | input that shows it | evidently intended | confidence | as-written member | corrected member |
|---|---|---|---|---|---|---|
| src/domain/playlists/AbsPlaylist.java:185-187, src/domain/playlists/SmartPlaylist.java:63-66 | `removeAtIndex` removes the selected position through `remove()`, which a smart playlist overrides to return false, so nothing is removed | the library adds s, and the Most Recently Added playlist selects it; the library then removes s; s stays in the playlist. In Most Liked, five VERY_GOOD members and a non-member re-rated from VERY_BAD to UNRATED: `addAutomatic` appends and selects it, both `removeLowestRate` and `removeUnrated` aim at that selected position and are lost, and the playlist keeps six songs, one unrated | the position is removed (the `removeAutomatic` doc at SmartPlaylist.java:47 promises a smaller size) | not executed | PlaylistStates.SmartRemoveAtIndexAsWritten, MostRecentRules.SelectedRemovalLostAsWritten, MostLikedRules.RerateAsWritten, MostLikedRules.UnratedSurvivesAsWritten | PlaylistStates.RemoveAtIndex, MostLikedRules.Rerate, MostLikedRules.RerateKeepsRated |
| src/domain/playlists/MostLikedSongsPlaylist.java:66-74 | the refill calls `addAutomatic` for each of the top five songs, whatever the playlist's size | members a, b, c, d (VERY_GOOD) and x; library [y, a, b, c, d, x]; x re-rated from GOOD to OK, equal to y's rating; y is appended and the playlist holds 6 songs | `size() <= AMOUNT_OF_SONGS` as the doc at line 66 says | not executed | MostLikedRules.RefillAsWritten, MostLikedRules.RefillOverflowsAsWritten | MostLikedRules.Refill, MostLikedRules.MostLikedWithinCapacity |

=== FILE: controllers.dfy ===
/** The facade controllers (domain.facade.MusicLibraryController and
    PlaylistListController): range and selection guards in front of the library,
    the playlist list and the selected playlist. */
module Controllers {
  import opened Options
  import opened Rates
  import opened MetaInfos
  import opened Songs
  import opened LibraryEvents
  import opened Players
  import opened SelectionLists
  import opened Library
  import opened PlaylistStates
  import opened Playlists
  import opened PlaylistLists
  import opened MetaInfoLoading

  class MusicLibraryController {
    const library: MusicLibrary
    const metaInfoLoader: MetaInfoLoader

    constructor (library: MusicLibrary)
      ensures this.library == library && metaInfoLoader.factories == [MP3MetaInfoFactory]
    {
      this.library := library;
      metaInfoLoader := new MetaInfoLoader();
    }

    function NumberOfSongs(): (n: nat)
      reads this, library, library.songList
      ensures n == |library.Songs()|
    {
      library.Size()
    }

    /** addSong(filename): nothing changes when no metadata can be loaded;
        otherwise a new unrated, never played song with that metadata and file
        name is appended to the library. */
    method AddSong(filename: string, disk: Disk)
      requires library.Valid() && HasLastPiece(filename)
      modifies library, library.songList
      ensures library.Valid() && library.playingSong == old(library.playingSong)
      ensures library.listeners == old(library.listeners)
      ensures var meta := Dispatch(metaInfoLoader.factories, filename, disk);
        (meta.None? ==>
          library.Songs() == old(library.Songs()) && library.emitted == old(library.emitted) &&
          library.songList.selectedIndex == old(library.songList.selectedIndex)) &&
        (meta.Some? ==>
          |library.Songs()| == old(|library.Songs()|) + 1 &&
          library.Songs()[..old(|library.Songs()|)] == old(library.Songs()) &&
          var s := library.Songs()[old(|library.Songs()|)];
          fresh(s) && s.meta == meta.value && s.filename == filename && s.rate == UNRATED && s.playCount == 0 &&
          library.songList.selectedIndex == old(|library.Songs()|) &&
          library.emitted == old(library.emitted) + [Added(s)])
    {
      var meta := metaInfoLoader.Load(filename, disk);
      if meta == None {
        return;
      }
      var song := new Song(meta.value, filename);
      library.Add(song);
    }

    /** selectSong(i): only an index within the library selects. */
    method SelectSong(i: int)
      requires library.Valid()
      modifies library.songList
      ensures library.Valid() && library.Songs() == old(library.Songs())
      ensures 0 <= i < old(NumberOfSongs()) ==> library.songList.selectedIndex == i
      ensures !(0 <= i < old(NumberOfSongs())) ==> library.songList.selectedIndex == old(library.songList.selectedIndex)
    {
      if i >= 0 && i < NumberOfSongs() {
        library.Select(i);
      }
    }

    /** getSelectedSong: empty exactly when nothing is selected. */
    function GetSelectedSong(): (r: Option<Song>)
      reads this, library, library.songList
      requires library.Valid()
      ensures r.None? <==> !library.SomeSelected()
      ensures r.Some? ==> r.value == library.Songs()[library.songList.selectedIndex]
    {
      if library.SomeSelected() then Some(library.GetSelected()) else None
    }

    method RemoveSelectedSong()
      requires library.Valid()
      modifies library, library.songList
      ensures library.Valid() && !library.SomeSelected()
      ensures old(library.SomeSelected()) ==>
        library.Songs() == RemoveAt(old(library.Songs()), old(library.songList.selectedIndex)) &&
        library.emitted == old(library.emitted) + [Removed(old(library.GetSelected()))]
      ensures !old(library.SomeSelected()) ==> library.Songs() == old(library.Songs()) && library.emitted == old(library.emitted)
      ensures library.playingSong == old(library.playingSong) && library.listeners == old(library.listeners)
    {
      library.Remove();
    }

    /** play(): only with a selected song. */
    method Play()
      requires library.Valid()
      modifies library, library.player
      ensures library.Valid() && library.Songs() == old(library.Songs())
      ensures old(library.SomeSelected()) ==>
        library.playingSong == old(library.GetSelected()) &&
        library.player.log == old(library.player.log) + [Command.Stop, Command.Load(library.playingSong.filename), Command.Play]
      ensures !old(library.SomeSelected()) ==>
        library.playingSong == old(library.playingSong) && library.player.log == old(library.player.log)
      ensures library.emitted == old(library.emitted) && library.listeners == old(library.listeners)
      ensures library.player.listeners == old(library.player.listeners)
    {
      if library.SomeSelected() {
        library.Play();
      }
    }

    /** stop(): only while a song plays through the library. */
    method Stop()
      modifies library.player
      ensures old(library.IsPlaying()) ==> library.player.log == old(library.player.log) + [Command.Stop]
      ensures !old(library.IsPlaying()) ==> library.player.log == old(library.player.log)
      ensures library.player.listeners == old(library.player.listeners)
    {
      if library.IsPlaying() {
        library.Stop();
      }
    }

    /** incRateSelected(): only with a selected song. */
    method IncRateSelected()
      requires library.Valid()
      modifies library, if library.SomeSelected() then {library.GetSelected()} else {}
      ensures library.Valid() && library.Songs() == old(library.Songs())
      ensures old(library.SomeSelected()) ==>
        var s := old(library.GetSelected());
        s.rate == Inc(old(s.rate)) && s.playCount == old(s.playCount) &&
        library.songList.selectedIndex == old(library.songList.selectedIndex) &&
        library.emitted == old(library.emitted) + [Rated(s, old(s.rate), s.rate)]
      ensures !old(library.SomeSelected()) ==> library.emitted == old(library.emitted)
      ensures library.playingSong == old(library.playingSong) && library.listeners == old(library.listeners)
    {
      if library.SomeSelected() {
        library.IncRateSelected();
      }
    }

    /** decRateSelected(): only with a selected song. */
    method DecRateSelected()
      requires library.Valid()
      modifies library, if library.SomeSelected() then {library.GetSelected()} else {}
      ensures library.Valid() && library.Songs() == old(library.Songs())
      ensures old(library.SomeSelected()) ==>
        var s := old(library.GetSelected());
        s.rate == Dec(old(s.rate)) && s.playCount == old(s.playCount) &&
        library.songList.selectedIndex == old(library.songList.selectedIndex) &&
        library.emitted == old(library.emitted) + [Rated(s, old(s.rate), s.rate)]
      ensures !old(library.SomeSelected()) ==> library.emitted == old(library.emitted)
      ensures library.playingSong == old(library.playingSong) && library.listeners == old(library.listeners)
    {
      if library.SomeSelected() {
        library.DecRateSelected();
      }
    }
  }

  class PlaylistListController {
    const playlists: PlaylistList
    const library: MusicLibrary

    ghost predicate Valid()
      reads this, playlists, playlists.playlists, playlists.playlists.elems, playlists.library, library, library.songList
    {
      playlists.Valid() && library.Valid() && playlists.library == library
    }

    constructor (playlists: PlaylistList, library: MusicLibrary)
      requires playlists.Valid() && library.Valid() && playlists.library == library
      ensures Valid() && this.playlists == playlists && this.library == library
    {
      this.playlists := playlists;
      this.library := library;
    }

    function SomePlaylistSelected(): (b: bool)
      reads this, playlists, playlists.playlists
      ensures b <==> playlists.playlists.selectedIndex != -1
    {
      playlists.SomeSelected()
    }

    function GetSelectedPlaylist(): (p: Playlist)
      reads this, playlists, playlists.playlists, playlists.playlists.elems, playlists.library, library, library.songList
      requires Valid() && SomePlaylistSelected()
      ensures p == playlists.playlists.elems[playlists.playlists.selectedIndex] && p.Valid()
    {
      playlists.GetSelected()
    }

    /** someSongSelected: a playlist is selected and it has a selected song. */
    function SomeSongSelected(): (b: bool)
      reads this, playlists, playlists.playlists, playlists.playlists.elems, playlists.library, library, library.songList
      requires Valid()
      ensures b <==> playlists.playlists.selectedIndex != -1 &&
                     playlists.playlists.elems[playlists.playlists.selectedIndex].indexSelected != -1
    {
      SomePlaylistSelected() && GetSelectedPlaylist().SomeSelected()
    }

    function NumberOfSongs(): (n: nat)
      reads this, playlists, playlists.playlists, playlists.playlists.elems, playlists.library, library, library.songList
      requires Valid() && SomePlaylistSelected()
      ensures n == |playlists.playlists.elems[playlists.playlists.selectedIndex].songs|
    {
      GetSelectedPlaylist().Size()
    }

    /** createPlaylist(name): a new empty manual playlist with that name is
        appended, selected and registered. */
    method CreatePlaylist(name: string)
      requires Valid()
      modifies playlists.playlists, library, playlists.player
      ensures Valid() && |playlists.playlists.elems| == old(|playlists.playlists.elems|) + 1
      ensures playlists.playlists.elems[..old(|playlists.playlists.elems|)] == old(playlists.playlists.elems)
      ensures SomePlaylistSelected() && playlists.playlists.selectedIndex == |playlists.playlists.elems| - 1
      ensures var p := GetSelectedPlaylist();
        fresh(p) && p.kind == Kind.Manual && p.name == name && p.songs == [] && !p.SomeSelected() &&
        library.listeners == old(library.listeners) + [p] &&
        playlists.player.listeners == old(playlists.player.listeners) + [p]
      ensures playlists.player.log == old(playlists.player.log) && library.emitted == old(library.emitted)
      ensures library.Songs() == old(library.Songs()) && library.playingSong == old(library.playingSong)
    {
      var p := new Playlist.Manual(name, playlists.player);
      playlists.Add(p);
    }

    /** selectPlaylist(i): only an index within the list selects. */
    method SelectPlaylist(i: int)
      requires Valid()
      modifies playlists.playlists
      ensures Valid() && playlists.playlists.elems == old(playlists.playlists.elems)
      ensures 0 <= i < old(|playlists.playlists.elems|) ==> playlists.playlists.selectedIndex == i
      ensures !(0 <= i < old(|playlists.playlists.elems|)) ==>
        playlists.playlists.selectedIndex == old(playlists.playlists.selectedIndex)
    {
      if i >= 0 && i < playlists.Size() {
        playlists.Select(i);
      }
    }

    method RemovePlaylist()
      requires Valid()
      modifies playlists.playlists, library, playlists.player
      ensures Valid() && !SomePlaylistSelected()
      ensures old(SomePlaylistSelected()) ==>
        var p := old(GetSelectedPlaylist());
        playlists.playlists.elems == RemoveAt(old(playlists.playlists.elems), old(playlists.playlists.selectedIndex)) &&
        library.listeners == Without(old(library.listeners), p) &&
        playlists.player.listeners == Without(old(playlists.player.listeners), p)
      ensures !old(SomePlaylistSelected()) ==>
        playlists.playlists.elems == old(playlists.playlists.elems) &&
        library.listeners == old(library.listeners) && playlists.player.listeners == old(playlists.player.listeners)
      ensures playlists.player.log == old(playlists.player.log) && library.emitted == old(library.emitted)
      ensures library.Songs() == old(library.Songs()) && library.playingSong == old(library.playingSong)
    {
      playlists.Remove();
    }

    /** addSong(): without a library selection nothing changes; otherwise the
        library's selected song is offered to the selected playlist, which a
        smart playlist, or a manual one holding an equal song, turns down. */
    method AddSong()
      requires Valid() && SomePlaylistSelected()
      modifies GetSelectedPlaylist()
      ensures Valid() && playlists.playlists.elems == old(playlists.playlists.elems)
      ensures var p := GetSelectedPlaylist();
        p == old(GetSelectedPlaylist()) && p.playingSong == old(p.playingSong) &&
        (!library.SomeSelected() || p.IsSmart() ==> p.State() == old(p.State())) &&
        (library.SomeSelected() && !p.IsSmart() ==> p.State() == old(PlaylistStates.AddSong(p.State(), library.GetSelected())))
    {
      var p := GetSelectedPlaylist();
      if library.SomeSelected() {
        var _ := p.Add(library.GetSelected());
      }
      assert forall i :: 0 <= i < |playlists.playlists.elems| ==>
        playlists.playlists.elems[i] == p || unchanged(playlists.playlists.elems[i]);
    }

    /** selectSong(i): only an index within the selected playlist selects. */
    method SelectSong(i: int)
      requires Valid() && SomePlaylistSelected()
      modifies GetSelectedPlaylist()
      ensures Valid() && playlists.playlists.elems == old(playlists.playlists.elems)
      ensures var p := GetSelectedPlaylist();
        p == old(GetSelectedPlaylist()) && p.songs == old(p.songs) && p.playingSong == old(p.playingSong) &&
        (0 <= i < |p.songs| ==> p.indexSelected == i) &&
        (!(0 <= i < |p.songs|) ==> p.indexSelected == old(p.indexSelected))
    {
      var p := GetSelectedPlaylist();
      if i >= 0 && i < NumberOfSongs() {
        p.Select(i);
      }
      assert forall k :: 0 <= k < |playlists.playlists.elems| ==>
        playlists.playlists.elems[k] == p || unchanged(playlists.playlists.elems[k]);
    }

    /** removeSelectedSong(): the selected playlist's remove(). */
    method RemoveSelectedSong()
      requires Valid() && SomePlaylistSelected()
      modifies GetSelectedPlaylist()
      ensures Valid() && playlists.playlists.elems == old(playlists.playlists.elems)
      ensures var p := GetSelectedPlaylist();
        p == old(GetSelectedPlaylist()) && p.playingSong == old(p.playingSong) &&
        (p.IsSmart() || !old(p.SomeSelected()) ==> p.State() == old(p.State())) &&
        (!p.IsSmart() && old(p.SomeSelected()) ==>
          p.songs == RemoveAt(old(p.songs), old(p.indexSelected)) && !p.SomeSelected())
    {
      var p := GetSelectedPlaylist();
      var _ := p.Remove();
      assert forall k :: 0 <= k < |playlists.playlists.elems| ==>
        playlists.playlists.elems[k] == p || unchanged(playlists.playlists.elems[k]);
    }

    method NextSong()
      requires Valid() && SomePlaylistSelected()
      modifies GetSelectedPlaylist()
      ensures Valid() && playlists.playlists.elems == old(playlists.playlists.elems)
      ensures var p := GetSelectedPlaylist();
        p == old(GetSelectedPlaylist()) && p.songs == old(p.songs) && p.playingSong == old(p.playingSong) &&
        p.indexSelected == NextIndex(old(p.indexSelected), |p.songs|)
    {
      var p := GetSelectedPlaylist();
      p.Next();
      assert forall k :: 0 <= k < |playlists.playlists.elems| ==>
        playlists.playlists.elems[k] == p || unchanged(playlists.playlists.elems[k]);
    }

    method PreviousSong()
      requires Valid() && SomePlaylistSelected()
      modifies GetSelectedPlaylist()
      ensures Valid() && playlists.playlists.elems == old(playlists.playlists.elems)
      ensures var p := GetSelectedPlaylist();
        p == old(GetSelectedPlaylist()) && p.songs == old(p.songs) && p.playingSong == old(p.playingSong) &&
        p.indexSelected == PreviousIndex(old(p.indexSelected))
    {
      var p := GetSelectedPlaylist();
      p.Previous();
      assert forall k :: 0 <= k < |playlists.playlists.elems| ==>
        playlists.playlists.elems[k] == p || unchanged(playlists.playlists.elems[k]);
    }

    /** play(): only when a song of the selected playlist is selected. */
    method Play()
      requires Valid()
      modifies if SomePlaylistSelected() then {GetSelectedPlaylist()} else {}, playlists.player
      ensures Valid() && playlists.playlists.elems == old(playlists.playlists.elems)
      ensures SomePlaylistSelected() == old(SomePlaylistSelected())
      ensures old(SomeSongSelected()) ==>
        var p := GetSelectedPlaylist();
        p == old(GetSelectedPlaylist()) && p.State() == old(p.State()) &&
        p.playingSong == old(p.GetSelected()) &&
        playlists.player.log == old(playlists.player.log) + [Command.Stop, Command.Load(old(p.GetSelected()).filename), Command.Play]
      ensures !old(SomeSongSelected()) ==>
        playlists.player.log == old(playlists.player.log) &&
        (SomePlaylistSelected() ==>
          var p := GetSelectedPlaylist();
          p == old(GetSelectedPlaylist()) && p.State() == old(p.State()) && p.playingSong == old(p.playingSong))
      ensures playlists.player.listeners == old(playlists.player.listeners)
    {
      if SomeSongSelected() {
        playlists.Play();
      }
    }

    /** stop(): the playlist list's stop(). */
    method Stop()
      requires Valid()
      modifies playlists.player
      ensures playlists.player.log == old(playlists.player.log + Stops(PlayingCount(playlists.playlists.elems)))
      ensures playlists.player.listeners == old(playlists.player.listeners)
    {
      playlists.Stop();
    }
  }
}

=== FILE: events.dfy ===
/** The events a music library emits (SongAddedLibraryEvent,
    SongRemovedLibraryEvent, SongRatedLibraryEvent), as one datatype. The emitting
    library, which every event also carries, is left out: there is one library. */
module LibraryEvents {
  import opened Rates
  import opened Songs

  datatype SongLibraryEvent =
    | Added(song: Song)
    | Removed(song: Song)
    | Rated(song: Song, oldRate: Rate, newRate: Rate)
}

=== FILE: metainfo.dfy ===
/** The immutable song metadata record of domain.core.SongMetaInfo and its
    pattern test. */
module MetaInfos {

  datatype SongMetaInfo = SongMetaInfo(title: string, genre: string, artists: seq<string>, album: string)

  /** A regular-expression search: Finder(pattern, text) holds when the pattern
      occurs somewhere in text (java.util.regex Matcher.find). The engine itself is
      foreign, so it is a parameter of everything that searches. */
  type Finder = (string, string) -> bool

  /** The artists stream's anyMatch, walked in list order. */
  function AnyArtistMatches(artists: seq<string>, pattern: string, find: Finder): (b: bool)
    ensures b <==> exists i :: 0 <= i < |artists| && find(pattern, artists[i])
  {
    if artists == [] then false
    else find(pattern, artists[0]) || AnyArtistMatches(artists[1..], pattern, find)
  }

  /** SongMetaInfo.matches: the pattern is found in the title, the genre, the album
      or one of the artists. */
  function Matches(m: SongMetaInfo, pattern: string, find: Finder): bool
  {
    find(pattern, m.title) || find(pattern, m.genre) || find(pattern, m.album)
    || AnyArtistMatches(m.artists, pattern, find)
  }

  /** matches holds exactly when some field of the record contains the pattern. */
  lemma MatchesIff(m: SongMetaInfo, pattern: string, find: Finder)
    ensures Matches(m, pattern, find) <==>
      (find(pattern, m.title) || find(pattern, m.genre) || find(pattern, m.album)
       || exists i :: 0 <= i < |m.artists| && find(pattern, m.artists[i]))
  {
  }

  /** One artist that contains the pattern is enough, whatever the other fields say. */
  lemma OneArtistSuffices(m: SongMetaInfo, pattern: string, find: Finder, i: nat)
    requires i < |m.artists| && find(pattern, m.artists[i])
    ensures Matches(m, pattern, find)
  {
  }

  /** When no field contains the pattern the record does not match. */
  lemma NoFieldNoMatch(m: SongMetaInfo, pattern: string, find: Finder)
    requires !find(pattern, m.title) && !find(pattern, m.genre) && !find(pattern, m.album)
    requires forall a :: a in m.artists ==> !find(pattern, a)
    ensures !Matches(m, pattern, find)
  {
  }
}

=== FILE: metainfo_loading.dfy ===
/** The metadata loading service (servicos.MetaInfoLoader, MP3MetaInfoFactory):
    the extension test, the field defaulting and artist splitting of an MP3 tag,
    and the first-match dispatch over the installed factories. Reading a file is
    outside the model: the files on disk are a map from path to what the tag
    library would decode, and a path missing from it stands for a file that
    cannot be read or decoded. */
module MetaInfoLoading {
  import opened Options
  import opened MetaInfos

  // ---------------------------------------------------------------- strings

  /** The pieces of s between the occurrences of sep, empty ones included: one
      more piece than there are separators. */
  function Pieces(s: string, sep: char): (r: seq<string>)
    ensures |r| >= 1
    decreases |s|
  {
    if s == [] then [""]
    else
      var r := Pieces(s[..|s| - 1], sep);
      if s[|s| - 1] == sep then r + [""]
      else r[..|r| - 1] + [r[|r| - 1] + [s[|s| - 1]]]
  }

  /** The pieces joined back with the separator between them. */
  function Join(ps: seq<string>, sep: char): string
    requires |ps| >= 1
  {
    if |ps| == 1 then ps[0] else Join(ps[..|ps| - 1], sep) + [sep] + ps[|ps| - 1]
  }

  /** Splitting is undone by joining, and no piece holds the separator. */
  lemma {:induction false} PiecesJoin(s: string, sep: char)
    ensures Join(Pieces(s, sep), sep) == s
    ensures forall i :: 0 <= i < |Pieces(s, sep)| ==> sep !in Pieces(s, sep)[i]
    decreases |s|
  {
    if s != [] {
      var init := s[..|s| - 1];
      var c := s[|s| - 1];
      var r := Pieces(init, sep);
      PiecesJoin(init, sep);
      if c != sep {
        var r' := r[..|r| - 1] + [r[|r| - 1] + [c]];
        if |r| == 1 {
          assert Join(r', sep) == r[0] + [c] == Join(r, sep) + [c];
        } else {
          assert r'[..|r'| - 1] == r[..|r| - 1];
          assert Join(r', sep) == Join(r[..|r| - 1], sep) + [sep] + r[|r| - 1] + [c];
        }
        assert s == init + [c];
      } else {
        assert (r + [""])[..|r|] == r;
        assert s == init + [c];
      }
    }
  }

  /** Appending a separator and a separator-free word appends one piece. */
  lemma {:induction false} PiecesSnoc(q: string, sep: char, e: string)
    requires sep !in e
    ensures Pieces(q + [sep] + e, sep) == Pieces(q, sep) + [e]
    decreases |e|
  {
    if e == [] {
      assert q + [sep] + e == q + [sep];
      assert (q + [sep])[..|q + [sep]| - 1] == q;
    } else {
      var e' := e[..|e| - 1];
      PiecesSnoc(q, sep, e');
      assert (q + [sep] + e)[..|q + [sep] + e| - 1] == q + [sep] + e';
      assert e' + [e[|e| - 1]] == e;
    }
  }

  /** The separator repeated n times. */
  function Repeat(c: char, n: nat): (r: string)
    ensures |r| == n && forall i :: 0 <= i < n ==> r[i] == c
  {
    if n == 0 then [] else Repeat(c, n - 1) + [c]
  }

  /** A string made only of separators splits into empty pieces only. */
  lemma {:induction false} PiecesOfSeparators(sep: char, n: nat)
    ensures |Pieces(Repeat(sep, n), sep)| == n + 1
    ensures forall i :: 0 <= i < |Pieces(Repeat(sep, n), sep)| ==> Pieces(Repeat(sep, n), sep)[i] == ""
  {
    if n > 0 {
      PiecesOfSeparators(sep, n - 1);
      assert Repeat(sep, n)[..n - 1] == Repeat(sep, n - 1);
    }
  }

  /** ps without its trailing empty strings. */
  function DropTrailingEmpty(ps: seq<string>): (r: seq<string>)
    ensures |r| <= |ps| && r == ps[..|r|]
    ensures r == [] || r[|r| - 1] != ""
    ensures forall i :: |r| <= i < |ps| ==> ps[i] == ""
  {
    if ps == [] then []
    else if ps[|ps| - 1] == "" then DropTrailingEmpty(ps[..|ps| - 1])
    else ps
  }

  /** String.split with a one-character literal separator: without a separator
      in s the result is s alone; otherwise the pieces, trailing empty ones
      dropped. */
  function JavaSplit(s: string, sep: char): seq<string>
  {
    if sep !in s then [s] else DropTrailingEmpty(Pieces(s, sep))
  }

  /** A string of separators only splits into nothing. */
  lemma OnlySeparatorsSplitToNothing(sep: char, n: nat)
    requires n > 0
    ensures JavaSplit(Repeat(sep, n), sep) == []
  {
    PiecesOfSeparators(sep, n);
    assert Repeat(sep, n)[0] == sep;
  }

  /** A trailing separator after a non-empty string changes nothing. */
  lemma SplitIgnoresTrailingSeparator(s: string, sep: char)
    requires s != []
    ensures JavaSplit(s + [sep], sep) == JavaSplit(s, sep)
  {
    var ps := Pieces(s, sep);
    assert Pieces(s + [sep], sep) == ps + [""] by {
      assert (s + [sep])[..|s|] == s;
    }
    assert sep in s + [sep];
    assert DropTrailingEmpty(ps + [""]) == DropTrailingEmpty(ps) by {
      assert (ps + [""])[..|ps|] == ps;
    }
    if sep !in s {
      PiecesWithoutSeparator(s, sep);
    }
  }

  /** Without a separator, the whole string is the one piece. */
  lemma {:induction false} PiecesWithoutSeparator(s: string, sep: char)
    requires sep !in s
    ensures Pieces(s, sep) == [s]
    decreases |s|
  {
    if s != [] {
      var init := s[..|s| - 1];
      assert sep !in init by {
        assert forall k :: 0 <= k < |init| ==> init[k] == s[k];
      }
      PiecesWithoutSeparator(init, sep);
      assert init + [s[|s| - 1]] == s;
    }
  }

  /** A separator followed by a non-empty, separator-free word: the word is the
      last piece. */
  lemma SplitLastPiece(q: string, sep: char, e: string)
    requires e != [] && sep !in e
    ensures var r := JavaSplit(q + [sep] + e, sep); |r| > 0 && r[|r| - 1] == e
  {
    PiecesSnoc(q, sep, e);
    assert (q + [sep] + e)[|q|] == sep;
  }

  /** Java's toLowerCase on the ASCII letters. */
  function ToLowerChar(c: char): char
  {
    if 'A' <= c <= 'Z' then (c as int + 32) as char else c
  }

  function ToLower(s: string): (r: string)
    ensures |r| == |s| && forall i :: 0 <= i < |s| ==> r[i] == ToLowerChar(s[i])
  {
    if s == [] then [] else [ToLowerChar(s[0])] + ToLower(s[1..])
  }

  /** The lowered string is "mp3" exactly for the four spellings of mp3 in any
      letter case. */
  lemma LowerIsMp3(s: string)
    ensures ToLower(s) == "mp3" <==>
      |s| == 3 && (s[0] == 'm' || s[0] == 'M') && (s[1] == 'p' || s[1] == 'P') && s[2] == '3'
  {
    if ToLower(s) == "mp3" {
      assert ToLower(s)[0] == 'm' && ToLower(s)[1] == 'p' && ToLower(s)[2] == '3';
    }
  }

  /** Java's trim: leading and trailing characters up to U+0020 removed. */
  predicate IsTrimmed(c: char)
  {
    c <= ' '
  }

  function TrimLeft(s: string): (r: string)
    ensures |r| <= |s| && r == s[|s| - |r|..]
    ensures forall k :: 0 <= k < |s| - |r| ==> IsTrimmed(s[k])
    ensures r != [] ==> !IsTrimmed(r[0])
  {
    if s != [] && IsTrimmed(s[0]) then TrimLeft(s[1..]) else s
  }

  function TrimRight(s: string): (r: string)
    ensures |r| <= |s| && r == s[..|r|]
    ensures forall k :: |r| <= k < |s| ==> IsTrimmed(s[k])
    ensures r != [] ==> !IsTrimmed(r[|r| - 1])
  {
    if s != [] && IsTrimmed(s[|s| - 1]) then TrimRight(s[..|s| - 1]) else s
  }

  /** String.trim: TrimLeft, then TrimRight. */
  function Trim(s: string): (r: string)
    ensures |r| <= |s|
    ensures r == [] || (!IsTrimmed(r[0]) && !IsTrimmed(r[|r| - 1]))
  {
    TrimRight(TrimLeft(s))
  }

  /** The trimmed string is the slice of s at some offset i, between a run of
      removable characters at each end. */
  lemma TrimSlice(s: string) returns (i: nat)
    ensures i + |Trim(s)| <= |s| && Trim(s) == s[i..i + |Trim(s)|]
    ensures forall k :: 0 <= k < i ==> IsTrimmed(s[k])
    ensures forall k :: i + |Trim(s)| <= k < |s| ==> IsTrimmed(s[k])
  {
    var l := TrimLeft(s);
    i := |s| - |l|;
    MiddleSlice(s, i, l, TrimRight(l));
  }

  /** A prefix of the suffix of s at i is the slice of s at i, and what the
      prefix leaves of the suffix is what the slice leaves of s. */
  lemma MiddleSlice(s: string, i: nat, l: string, r: string)
    requires i <= |s| && l == s[i..] && |r| <= |l| && r == l[..|r|]
    requires forall k :: |r| <= k < |l| ==> IsTrimmed(l[k])
    ensures i + |r| <= |s| && r == s[i..i + |r|]
    ensures forall k :: i + |r| <= k < |s| ==> IsTrimmed(s[k])
  {
    forall k | i + |r| <= k < |s|
      ensures IsTrimmed(s[k])
    {
      assert s[k] == l[k - i];
    }
  }

  /** A string that neither starts nor ends with a removable character is its
      own trim. */
  lemma TrimKeeps(s: string)
    requires s == [] || (!IsTrimmed(s[0]) && !IsTrimmed(s[|s| - 1]))
    ensures Trim(s) == s
  {
    assert TrimLeft(s) == s;
    assert TrimRight(s) == s;
  }

  /** Trimming twice is trimming once. */
  lemma TrimIdempotent(s: string)
    ensures Trim(Trim(s)) == Trim(s)
  {
    TrimKeeps(Trim(s));
  }

  // ------------------------------------------------------------- extension

  /** The '.'-split of the path has a last piece; a path made only of dots has
      none, and the extension test then fails in Java with an index error. */
  predicate HasLastPiece(path: string)
  {
    |JavaSplit(path, '.')| > 0
  }

  /** MP3MetaInfoFactory.canLoad: the last '.'-piece, lowered, is "mp3". */
  function CanLoad(path: string): (b: bool)
    requires HasLastPiece(path)
  {
    var parts := JavaSplit(path, '.');
    ToLower(parts[|parts| - 1]) == "mp3"
  }

  /** A path ending in a dot and a dot-free extension is accepted exactly when
      the extension is mp3 in any letter case. */
  lemma CanLoadExtension(q: string, ext: string)
    requires ext != [] && '.' !in ext
    ensures HasLastPiece(q + "." + ext)
    ensures CanLoad(q + "." + ext) <==> ToLower(ext) == "mp3"
  {
    SplitLastPiece(q, '.', ext);
  }

  /** A path without a dot is compared whole. */
  lemma CanLoadWithoutDot(path: string)
    requires '.' !in path
    ensures HasLastPiece(path) && (CanLoad(path) <==> ToLower(path) == "mp3")
  {
  }

  /** Trailing dots are ignored: "song.mp3." is accepted like "song.mp3". */
  lemma CanLoadIgnoresTrailingDot(path: string)
    requires path != [] && HasLastPiece(path)
    ensures HasLastPiece(path + ".") && CanLoad(path + ".") == CanLoad(path)
  {
    SplitIgnoresTrailingSeparator(path, '.');
  }

  /** Paths made only of dots have no last piece. */
  lemma DotsOnlyHaveNoLastPiece(n: nat)
    requires n > 0
    ensures !HasLastPiece(Repeat('.', n))
  {
    OnlySeparatorsSplitToNothing('.', n);
  }

  lemma AcceptsLowerCaseMp3()
    ensures HasLastPiece("song.mp3") && CanLoad("song.mp3")
  {
    assert "song" + "." + "mp3" == "song.mp3";
    CanLoadExtension("song", "mp3");
  }

  lemma AcceptsUpperCaseMp3()
    ensures HasLastPiece("x.MP3") && CanLoad("x.MP3")
  {
    assert "x" + "." + "MP3" == "x.MP3";
    CanLoadExtension("x", "MP3");
    LowerIsMp3("MP3");
  }

  lemma RejectsWav()
    ensures HasLastPiece("song.wav") && !CanLoad("song.wav")
  {
    assert "song" + "." + "wav" == "song.wav";
    CanLoadExtension("song", "wav");
    LowerIsMp3("wav");
  }

  // ------------------------------------------------------------- MP3 tags

  /** What the tag library reports for one tag; a null getter is None. */
  datatype Tag = Tag(title: Option<string>, genreDescription: Option<string>,
                     artist: Option<string>, album: Option<string>)

  /** A decoded MP3 file: its ID3v2 and ID3v1 tags, when present. */
  datatype Mp3File = Mp3File(id3v2: Option<Tag>, id3v1: Option<Tag>)

  /** The files the tag library can read. */
  type Disk = map<string, Mp3File>

  const UnknownName: string := "unknown"

  function OrUnknown(field: Option<string>): (s: string)
    ensures field.None? ==> s == UnknownName
    ensures field.Some? ==> s == field.value
  {
    if field.Some? then field.value else UnknownName
  }

  /** The tag load reads: ID3v2 when present, otherwise ID3v1. */
  function ChosenTag(f: Mp3File): Option<Tag>
  {
    if f.id3v2.Some? then f.id3v2 else f.id3v1
  }

  /** Every piece trimmed, in order. */
  function TrimAll(ps: seq<string>): (r: seq<string>)
    ensures |r| == |ps| && forall i :: 0 <= i < |ps| ==> r[i] == Trim(ps[i])
  {
    seq(|ps|, i requires 0 <= i < |ps| => Trim(ps[i]))
  }

  function MetaFromTag(t: Tag): SongMetaInfo
  {
    SongMetaInfo(OrUnknown(t.title), OrUnknown(t.genreDescription),
                 TrimAll(JavaSplit(OrUnknown(t.artist), ';')), OrUnknown(t.album))
  }

  /** What MP3MetaInfoFactory.load returns for a path: nothing for an unreadable
      file or one without a tag. */
  function Mp3Meta(path: string, disk: Disk): Option<SongMetaInfo>
  {
    if path !in disk then None
    else
      match ChosenTag(disk[path])
      case None => None
      case Some(t) => Some(MetaFromTag(t))
  }

  /** The ID3v2 tag wins over the ID3v1 tag; a file without a tag, or one that
      cannot be read, gives nothing. */
  lemma Mp3MetaSources(path: string, disk: Disk)
    ensures path !in disk ==> Mp3Meta(path, disk) == None
    ensures path in disk && disk[path].id3v2.Some? ==> Mp3Meta(path, disk) == Some(MetaFromTag(disk[path].id3v2.value))
    ensures path in disk && disk[path].id3v2.None? && disk[path].id3v1.Some? ==>
      Mp3Meta(path, disk) == Some(MetaFromTag(disk[path].id3v1.value))
    ensures path in disk && disk[path].id3v2.None? && disk[path].id3v1.None? ==> Mp3Meta(path, disk) == None
  {
  }

  /** A missing title, genre or album becomes "unknown"; a missing artist gives
      the single artist "unknown"; every artist is a trimmed ';'-piece of the
      artist field, in order. */
  lemma MetaFromTagFields(t: Tag)
    ensures var m := MetaFromTag(t);
      (t.title.None? ==> m.title == UnknownName) &&
      (t.genreDescription.None? ==> m.genre == UnknownName) &&
      (t.album.None? ==> m.album == UnknownName) &&
      (t.artist.None? ==> m.artists == [UnknownName]) &&
      |m.artists| == |JavaSplit(OrUnknown(t.artist), ';')| &&
      (forall i :: 0 <= i < |m.artists| ==> m.artists[i] == Trim(JavaSplit(OrUnknown(t.artist), ';')[i]))
  {
    if t.artist.None? {
      UnknownArtistIsItself();
      assert TrimAll([UnknownName]) == [UnknownName];
    }
  }

  /** The placeholder holds no separator and nothing to trim. */
  lemma UnknownArtistIsItself()
    ensures JavaSplit(UnknownName, ';') == [UnknownName]
    ensures Trim(UnknownName) == UnknownName
  {
    assert ';' !in UnknownName;
    assert UnknownName[0] == 'u' && UnknownName[|UnknownName| - 1] == 'n';
    TrimKeeps(UnknownName);
  }

  /** The loop of MP3MetaInfoFactory.load that trims the artist pieces in place
      in an array. */
  method TrimPieces(pieces: seq<string>) returns (artists: seq<string>)
    ensures artists == TrimAll(pieces)
  {
    var artistsSplited := new string[|pieces|](i requires 0 <= i < |pieces| => pieces[i]);
    for i := 0 to artistsSplited.Length
      invariant forall k :: 0 <= k < i ==> artistsSplited[k] == Trim(pieces[k])
      invariant forall k :: i <= k < artistsSplited.Length ==> artistsSplited[k] == pieces[k]
    {
      artistsSplited[i] := Trim(artistsSplited[i]);
    }
    artists := artistsSplited[..];
  }

  /** MP3MetaInfoFactory.load. */
  method Mp3Load(path: string, disk: Disk) returns (r: Option<SongMetaInfo>)
    ensures r == Mp3Meta(path, disk)
  {
    if path !in disk {
      return None;
    }
    var mp3 := disk[path];
    var tag: Option<Tag> := None;
    if mp3.id3v2.Some? {
      tag := mp3.id3v2;
    } else if mp3.id3v1.Some? {
      tag := mp3.id3v1;
    }
    if tag.Some? {
      var t := tag.value;
      var title := if t.title.Some? then t.title.value else UnknownName;
      var genre := if t.genreDescription.Some? then t.genreDescription.value else UnknownName;
      var artist := if t.artist.Some? then t.artist.value else UnknownName;
      var artists := TrimPieces(JavaSplit(artist, ';'));
      var album := if t.album.Some? then t.album.value else UnknownName;
      return Some(SongMetaInfo(title, genre, artists, album));
    }
    return None;
  }

  // ------------------------------------------------------------- dispatch

  /** The implementations of IMetaInfoFactory; the repository has one. */
  datatype MetaInfoFactory = MP3MetaInfoFactory

  function FactoryCanLoad(f: MetaInfoFactory, path: string): bool
    requires HasLastPiece(path)
  {
    match f
    case MP3MetaInfoFactory => CanLoad(path)
  }

  function FactoryMeta(f: MetaInfoFactory, path: string, disk: Disk): Option<SongMetaInfo>
  {
    match f
    case MP3MetaInfoFactory => Mp3Meta(path, disk)
  }

  method FactoryLoad(f: MetaInfoFactory, path: string, disk: Disk) returns (r: Option<SongMetaInfo>)
    ensures r == FactoryMeta(f, path, disk)
  {
    match f
    case MP3MetaInfoFactory => r := Mp3Load(path, disk);
  }

  /** The position of the first factory that can load the path, or |fs|. */
  function FirstLoader(fs: seq<MetaInfoFactory>, path: string): (k: nat)
    requires HasLastPiece(path)
    ensures k <= |fs|
    ensures k < |fs| ==> FactoryCanLoad(fs[k], path)
    ensures forall i :: 0 <= i < k ==> !FactoryCanLoad(fs[i], path)
  {
    if fs == [] then 0
    else if FactoryCanLoad(fs[0], path) then 0
    else
      assert forall i :: 1 <= i < |fs| ==> fs[i] == fs[1..][i - 1];
      1 + FirstLoader(fs[1..], path)
  }

  /** What load returns: the first capable factory's result, even when that is
      nothing; nothing when no factory is capable. */
  function Dispatch(fs: seq<MetaInfoFactory>, path: string, disk: Disk): Option<SongMetaInfo>
    requires HasLastPiece(path)
  {
    var k := FirstLoader(fs, path);
    if k < |fs| then FactoryMeta(fs[k], path, disk) else None
  }

  /** With the MP3 factory alone, load gives nothing for any path whose extension
      is not mp3, and the MP3 result otherwise. */
  lemma Mp3OnlyDispatch(path: string, disk: Disk)
    requires HasLastPiece(path)
    ensures !CanLoad(path) ==> Dispatch([MP3MetaInfoFactory], path, disk) == None
    ensures CanLoad(path) ==> Dispatch([MP3MetaInfoFactory], path, disk) == Mp3Meta(path, disk)
  {
  }

  class MetaInfoLoader {
    const factories: seq<MetaInfoFactory>

    /** The loader installs the MP3 factory only. */
    constructor ()
      ensures factories == [MP3MetaInfoFactory]
    {
      factories := [MP3MetaInfoFactory];
    }

    /** load: the first factory that can load the path decides. */
    method Load(path: string, disk: Disk) returns (r: Option<SongMetaInfo>)
      requires HasLastPiece(path)
      ensures r == Dispatch(factories, path, disk)
      ensures factories == [MP3MetaInfoFactory] && !CanLoad(path) ==> r == None
    {
      for i := 0 to |factories|
        invariant forall k :: 0 <= k < i ==> !FactoryCanLoad(factories[k], path)
      {
        if FactoryCanLoad(factories[i], path) {
          assert FirstLoader(factories, path) == i;
          r := FactoryLoad(factories[i], path, disk);
          return;
        }
      }
      return None;
    }
  }
}

=== FILE: most_liked.dfy ===
/** The reactions of the "Most Liked" smart playlist
    (domain.playlists.MostLikedSongsPlaylist): it keeps the best rated songs of
    the library, at most Capacity of them, and never an unrated one. */
module MostLikedRules {
  import opened Rates
  import opened Songs
  import opened LibraryEvents
  import opened SelectionLists
  import opened Seqs
  import opened PlaylistStates

  predicate NoUnrated(ss: seq<Song>)
    reads ss
  {
    forall i :: 0 <= i < |ss| ==> ss[i].rate != UNRATED
  }

  /** The scan of removeLowestRate over the first n members: a candidate is
      replaced only by a strictly lower rated one. */
  function LowestIn(ss: seq<Song>, n: nat): (k: nat)
    reads ss
    requires 0 < n <= |ss|
    ensures k < n
  {
    if n == 1 then 0
    else
      var k := LowestIn(ss, n - 1);
      if Below(ss[n - 1].rate, ss[k].rate) then n - 1 else k
  }

  /** The scan finds the first member whose rating is the lowest among the first n. */
  lemma {:induction false} LowestInSpec(ss: seq<Song>, n: nat)
    requires 0 < n <= |ss|
    ensures forall i :: 0 <= i < n ==> Ordinal(ss[LowestIn(ss, n)].rate) <= Ordinal(ss[i].rate)
    ensures forall i :: 0 <= i < LowestIn(ss, n) ==> Ordinal(ss[LowestIn(ss, n)].rate) < Ordinal(ss[i].rate)
  {
    if n > 1 {
      LowestInSpec(ss, n - 1);
    }
  }

  /** The position removeLowestRate removes. */
  function LowestRateIndex(ss: seq<Song>): (k: nat)
    reads ss
    requires |ss| > 0
    ensures k < |ss|
  {
    LowestIn(ss, |ss|)
  }

  /** The scan of removeUnrated: the position of the first unrated member, or |ss|
      when there is none. */
  function FirstUnratedIndex(ss: seq<Song>): (k: nat)
    reads ss
    ensures k <= |ss|
    ensures k < |ss| ==> ss[k].rate == UNRATED
    ensures forall i :: 0 <= i < k ==> ss[i].rate != UNRATED
  {
    if ss == [] then 0
    else if ss[0].rate == UNRATED then 0
    else
      assert forall i :: 1 <= i < |ss| ==> ss[i] == ss[1..][i - 1];
      1 + FirstUnratedIndex(ss[1..])
  }

  /** The songs of the library with rating r, in library order. */
  function WithRate(lib: seq<Song>, r: Rate): (w: seq<Song>)
    reads lib
    ensures forall i :: 0 <= i < |w| ==> w[i].rate == r
  {
    if lib == [] then []
    else (if lib[0].rate == r then [lib[0]] else []) + WithRate(lib[1..], r)
  }

  /** Every song the filter keeps is a library song. */
  lemma {:induction false} WithRateMembers(lib: seq<Song>, r: Rate)
    ensures forall i :: 0 <= i < |WithRate(lib, r)| ==> WithRate(lib, r)[i] in lib
  {
    if lib != [] {
      WithRateMembers(lib[1..], r);
      var rest := WithRate(lib[1..], r);
      assert forall i :: 0 <= i < |rest| ==> rest[i] in lib by {
        assert forall j :: 0 <= j < |lib| - 1 ==> lib[1..][j] == lib[j + 1];
      }
    }
  }

  /** The songs of one rating keep library order: a stable selection. */
  lemma {:induction false} WithRateKeepsOrder(lib: seq<Song>, r: Rate)
    ensures IsSubsequence(WithRate(lib, r), lib)
  {
    if lib != [] {
      WithRateKeepsOrder(lib[1..], r);
      var rest := WithRate(lib[1..], r);
      if lib[0].rate == r {
        assert ([lib[0]] + rest)[1..] == rest;
      } else {
        assert WithRate(lib, r) == rest;
        if rest != [] {
          assert IsSubsequence(rest, lib[1..]);
        }
      }
    }
  }

  /** The buckets of the library for the ratings rs, one after the other. */
  function Buckets(lib: seq<Song>, rs: seq<Rate>): (b: seq<Song>)
    reads lib
    ensures forall i :: 0 <= i < |b| ==> b[i] in lib
  {
    if rs == [] then [] else WithRateMembers(lib, rs[0]); WithRate(lib, rs[0]) + Buckets(lib, rs[1..])
  }

  /** The rated values from best to worst. */
  const RatedDescending: seq<Rate> := [VERY_GOOD, GOOD, OK, BAD, VERY_BAD]

  /** refill's stream: the rated songs of the library sorted by rating, best
      first; a stable sort, so equally rated songs keep library order. */
  function Ranked(lib: seq<Song>): (r: seq<Song>)
    reads lib
    ensures forall i :: 0 <= i < |r| ==> r[i] in lib
  {
    Buckets(lib, RatedDescending)
  }

  /** refill's limit(AMOUNT_OF_SONGS): the first Capacity ranked songs. */
  function TopRated(lib: seq<Song>): (t: seq<Song>)
    reads lib
    ensures |t| <= Capacity
    ensures forall i :: 0 <= i < |t| ==> t[i] in lib
  {
    var r := Ranked(lib);
    if |r| <= Capacity then r else r[..Capacity]
  }

  predicate StrictlyDescending(rs: seq<Rate>)
  {
    forall i, j :: 0 <= i < j < |rs| ==> Ordinal(rs[j]) < Ordinal(rs[i])
  }

  predicate SortedByRateDescending(ss: seq<Song>)
    reads ss
  {
    forall i, j :: 0 <= i < j < |ss| ==> Ordinal(ss[j].rate) <= Ordinal(ss[i].rate)
  }

  lemma {:induction false} BucketsRates(lib: seq<Song>, rs: seq<Rate>)
    ensures forall i :: 0 <= i < |Buckets(lib, rs)| ==> Buckets(lib, rs)[i].rate in rs
  {
    if rs != [] {
      BucketsRates(lib, rs[1..]);
      var w := WithRate(lib, rs[0]);
      var b := Buckets(lib, rs);
      forall i | 0 <= i < |b| ensures b[i].rate in rs {
        if i >= |w| {
          assert b[i] == Buckets(lib, rs[1..])[i - |w|];
          assert b[i].rate in rs[1..];
        }
      }
    }
  }

  lemma {:induction false} BucketsSorted(lib: seq<Song>, rs: seq<Rate>)
    requires StrictlyDescending(rs)
    ensures SortedByRateDescending(Buckets(lib, rs))
  {
    if rs != [] {
      var tail := rs[1..];
      assert StrictlyDescending(tail) by {
        forall i, j | 0 <= i < j < |tail| ensures Ordinal(tail[j]) < Ordinal(tail[i]) {
          assert tail[i] == rs[i + 1] && tail[j] == rs[j + 1];
        }
      }
      BucketsSorted(lib, tail);
      BucketsRates(lib, tail);
      var w := WithRate(lib, rs[0]);
      var b := Buckets(lib, rs);
      var rest := Buckets(lib, tail);
      forall i, j | 0 <= i < j < |b| ensures Ordinal(b[j].rate) <= Ordinal(b[i].rate) {
        if j < |w| {
          assert b[i] == w[i] && b[j] == w[j];
        } else if i < |w| {
          assert b[i] == w[i] && b[j] == rest[j - |w|];
          var m :| 0 <= m < |tail| && tail[m] == b[j].rate;
          assert rs[m + 1] == tail[m];
        } else {
          assert b[i] == rest[i - |w|] && b[j] == rest[j - |w|];
        }
      }
    }
  }

  /** How often x occurs among the songs of rating r: as often as in the library
      when x has rating r, never otherwise. */
  lemma {:induction false} WithRateCount(lib: seq<Song>, r: Rate, x: Song)
    ensures multiset(WithRate(lib, r))[x] == if x.rate == r then multiset(lib)[x] else 0
  {
    if lib != [] {
      WithRateCount(lib[1..], r, x);
      assert lib == [lib[0]] + lib[1..];
    }
  }

  lemma {:induction false} BucketsCount(lib: seq<Song>, rs: seq<Rate>, x: Song)
    requires StrictlyDescending(rs)
    ensures multiset(Buckets(lib, rs))[x] == if x.rate in rs then multiset(lib)[x] else 0
  {
    if rs != [] {
      var tail := rs[1..];
      assert StrictlyDescending(tail) by {
        forall i, j | 0 <= i < j < |tail| ensures Ordinal(tail[j]) < Ordinal(tail[i]) {
          assert tail[i] == rs[i + 1] && tail[j] == rs[j + 1];
        }
      }
      BucketsCount(lib, tail, x);
      WithRateCount(lib, rs[0], x);
      if x.rate == rs[0] {
        assert x.rate !in tail by {
          forall m | 0 <= m < |tail| ensures tail[m] != x.rate {
            assert tail[m] == rs[m + 1];
          }
        }
      }
    }
  }

  lemma RatedDescendingIsStrict()
    ensures StrictlyDescending(RatedDescending)
    ensures forall r: Rate :: r in RatedDescending <==> r != UNRATED
  {
  }

  /** refill's ranking is sorted from best to worst rating, holds no unrated song,
      and holds every rated library song exactly as often as the library does:
      it is a permutation of the rated songs of the library. */
  lemma RankedSpec(lib: seq<Song>)
    ensures SortedByRateDescending(Ranked(lib))
    ensures NoUnrated(Ranked(lib))
    ensures forall x: Song :: multiset(Ranked(lib))[x] == if x.rate != UNRATED then multiset(lib)[x] else 0
  {
    RatedDescendingIsStrict();
    BucketsSorted(lib, RatedDescending);
    BucketsRates(lib, RatedDescending);
    forall x: Song ensures multiset(Ranked(lib))[x] == if x.rate != UNRATED then multiset(lib)[x] else 0 {
      BucketsCount(lib, RatedDescending, x);
    }
  }

  /** The top of the ranking: at most Capacity rated songs of the library, best
      first, every one a library song. */
  lemma TopRatedSpec(lib: seq<Song>)
    ensures SortedByRateDescending(TopRated(lib))
    ensures NoUnrated(TopRated(lib))
    ensures forall i :: 0 <= i < |TopRated(lib)| ==> TopRated(lib)[i] in lib
    ensures |TopRated(lib)| == if |Ranked(lib)| <= Capacity then |Ranked(lib)| else Capacity
  {
    RankedSpec(lib);
  }

  /** refill as written: addAutomatic for every song of the top list, whatever
      the size of the playlist. */
  function RefillAsWritten(st: PlaylistState, xs: seq<Song>): PlaylistState
    reads st.songs, xs
    decreases |xs|
  {
    if xs == [] then st else RefillAsWritten(AddSong(st, xs[0]), xs[1..])
  }

  /** refill, corrected: the same candidates in the same order, taken only while
      the playlist holds fewer than Capacity songs. */
  function Refill(st: PlaylistState, xs: seq<Song>): PlaylistState
    reads st.songs, xs
    decreases |xs|
  {
    if xs == [] || |st.songs| >= Capacity then st else Refill(AddSong(st, xs[0]), xs[1..])
  }

  /** Refill keeps the members it finds, in place, and only appends; the
      playlist never grows past Capacity and its selection stays valid. */
  lemma {:induction false} RefillSpec(st: PlaylistState, xs: seq<Song>)
    ensures var r := Refill(st, xs);
      |st.songs| <= |r.songs| &&
      r.songs[..|st.songs|] == st.songs &&
      (|st.songs| <= Capacity ==> |r.songs| <= Capacity) &&
      (st.Valid() ==> r.Valid())
    decreases |xs|
  {
    if xs != [] && |st.songs| < Capacity {
      var a := AddSong(st, xs[0]);
      AddSongSpec(st, xs[0]);
      RefillSpec(a, xs[1..]);
      var r := Refill(a, xs[1..]);
      assert a.songs[..|st.songs|] == st.songs;
      assert r.songs[..|a.songs|] == a.songs;
      assert r.songs[..|st.songs|] == a.songs[..|st.songs|];
    }
  }

  /** Every song refill appends is a candidate not equal to any member it found:
      refill never adds a duplicate. */
  lemma {:induction false} RefillAppendsCandidates(st: PlaylistState, xs: seq<Song>)
    ensures var r := Refill(st, xs);
      forall i :: |st.songs| <= i < |r.songs| ==> r.songs[i] in xs && !Contains(st.songs, r.songs[i])
    decreases |xs|
  {
    if xs != [] && |st.songs| < Capacity {
      var a := AddSong(st, xs[0]);
      var r := Refill(a, xs[1..]);
      AddSongSpec(st, xs[0]);
      RefillSpec(a, xs[1..]);
      RefillAppendsCandidates(a, xs[1..]);
      forall i | |st.songs| <= i < |r.songs|
        ensures r.songs[i] in xs && !Contains(st.songs, r.songs[i])
      {
        if i < |a.songs| {
          assert r.songs[..|a.songs|] == a.songs;
          assert r.songs[i] == a.songs[i] == xs[0];
        } else {
          assert r.songs[i] in xs[1..];
          assert !Contains(a.songs, r.songs[i]);
          assert a.songs[..|st.songs|] == st.songs;
        }
      }
    }
  }

  /** A member stays a member when songs are only appended behind it. */
  lemma ContainsExtended(ss: seq<Song>, ts: seq<Song>, x: Song)
    requires |ss| <= |ts| && ts[..|ss|] == ss && Contains(ss, x)
    ensures Contains(ts, x)
  {
    var i :| 0 <= i < |ss| && SameSong(ss[i], x);
    assert ts[i] == ss[i];
  }

  /** Refill does take the candidates: unless the playlist has filled up, every
      candidate (or a song equal to it) is a member afterwards. */
  lemma {:induction false} RefillTakesCandidates(st: PlaylistState, xs: seq<Song>)
    ensures var r := Refill(st, xs);
      |r.songs| >= Capacity || forall i :: 0 <= i < |xs| ==> Contains(r.songs, xs[i])
    decreases |xs|
  {
    if xs != [] && |st.songs| < Capacity {
      var a := AddSong(st, xs[0]);
      var r := Refill(a, xs[1..]);
      AddSongSpec(st, xs[0]);
      RefillSpec(a, xs[1..]);
      RefillTakesCandidates(a, xs[1..]);
      if |r.songs| < Capacity {
        forall i | 0 <= i < |xs| ensures Contains(r.songs, xs[i]) {
          if i == 0 {
            ContainsExtended(a.songs, r.songs, xs[0]);
          } else {
            assert xs[i] == xs[1..][i - 1];
          }
        }
      }
    }
  }

  /** As written, the refill keeps its members in place and ends up holding
      every candidate, however large that makes the playlist. */
  lemma {:induction false} RefillAsWrittenTakesCandidates(st: PlaylistState, xs: seq<Song>)
    ensures var r := RefillAsWritten(st, xs);
      |st.songs| <= |r.songs| && r.songs[..|st.songs|] == st.songs &&
      forall i :: 0 <= i < |xs| ==> Contains(r.songs, xs[i])
    decreases |xs|
  {
    if xs != [] {
      var a := AddSong(st, xs[0]);
      var r := RefillAsWritten(a, xs[1..]);
      AddSongSpec(st, xs[0]);
      RefillAsWrittenTakesCandidates(a, xs[1..]);
      assert a.songs[..|st.songs|] == st.songs;
      assert r.songs[..|st.songs|] == a.songs[..|st.songs|];
      forall i | 0 <= i < |xs| ensures Contains(r.songs, xs[i]) {
        if i == 0 {
          ContainsExtended(a.songs, r.songs, xs[0]);
        } else {
          assert xs[i] == xs[1..][i - 1];
        }
      }
    }
  }

  /** Refill brings in no duplicate object, no song equal to a member and no
      unrated song. */
  lemma {:induction false} RefillKeepsMembersApart(st: PlaylistState, xs: seq<Song>)
    ensures DistinctRefs(st.songs) ==> DistinctRefs(Refill(st, xs).songs)
    ensures NoEqualMembers(st.songs) ==> NoEqualMembers(Refill(st, xs).songs)
    ensures NoUnrated(st.songs) && NoUnrated(xs) ==> NoUnrated(Refill(st, xs).songs)
    decreases |xs|
  {
    if xs != [] && |st.songs| < Capacity {
      var a := AddSong(st, xs[0]);
      AddSongSpec(st, xs[0]);
      RefillKeepsMembersApart(a, xs[1..]);
      if NoUnrated(st.songs) && NoUnrated(xs) {
        assert NoUnrated(a.songs);
        assert NoUnrated(xs[1..]);
      }
    }
  }

  /** removeUnrated: removes the first unrated member, if there is one. */
  function RemoveFirstUnrated(st: PlaylistState): (r: PlaylistState)
    reads st.songs
    ensures forall i :: 0 <= i < |r.songs| ==> r.songs[i] in st.songs
  {
    var k := FirstUnratedIndex(st.songs);
    if k < |st.songs| then RemoveAtIndex(st, k) else st
  }

  /** The part of processEvent(Rated(s, old, new)) before the refill:
      addAutomatic(s), removeLowestRate when the playlist now holds more than
      Capacity songs, and removeUnrated when the new rating is UNRATED. */
  function Rerate(st: PlaylistState, e: SongLibraryEvent): (r: PlaylistState)
    reads st.songs, e.song
    requires e.Rated?
    ensures forall i :: 0 <= i < |r.songs| ==> r.songs[i] in st.songs || r.songs[i] == e.song
  {
    var b := TrimToCapacity(AddSong(st, e.song));
    if e.newRate == UNRATED then RemoveFirstUnrated(b) else b
  }

  /** removeLowestRate, applied when the playlist holds more than Capacity songs. */
  function TrimToCapacity(a: PlaylistState): (r: PlaylistState)
    reads a.songs
    ensures forall i :: 0 <= i < |r.songs| ==> r.songs[i] in a.songs
  {
    if |a.songs| > Capacity then RemoveAtIndex(a, LowestRateIndex(a.songs)) else a
  }

  /** The rating reaction, when e is a Rated event. */
  function MostLikedPre(base: PlaylistState, e: SongLibraryEvent): (r: PlaylistState)
    reads base.songs, e.song
    ensures forall i :: 0 <= i < |r.songs| ==> r.songs[i] in base.songs || r.songs[i] == e.song
  {
    if e.Rated? then Rerate(base, e) else base
  }

  /** Whether processEvent refills after the base removal: always on Rated; on
      Removed only when the playlist holds fewer than Capacity songs and the
      library holds more songs than the playlist. */
  predicate RefillsAfter(base: PlaylistState, e: SongLibraryEvent, lib: seq<Song>)
  {
    e.Rated? || (e.Removed? && |base.songs| < Capacity && |lib| > |base.songs|)
  }

  /** processEvent with the refill as written (no size check). Its removals are
      the corrected ones, so this isolates the refill's overflow; the removals as
      written are RerateAsWritten. lib is the library after the change that
      raised e. */
  function MostLikedStepAsWritten(st: PlaylistState, e: SongLibraryEvent, lib: seq<Song>): PlaylistState
    reads st.songs, e.song, lib
  {
    var base := RemovedStep(st, e);
    var pre := MostLikedPre(base, e);
    if RefillsAfter(base, e, lib) then RefillAsWritten(pre, TopRated(lib)) else pre
  }

  /** The rating reaction with the removals as written: addAutomatic selects the
      song it appends, and removeLowestRate and removeUnrated remove through
      removeAtIndex, which loses a removal of the selected position. */
  function RerateAsWritten(st: PlaylistState, e: SongLibraryEvent): PlaylistState
    reads st.songs, e.song
    requires e.Rated?
  {
    var a := AddSong(st, e.song);
    var b := if |a.songs| > Capacity then SmartRemoveAtIndexAsWritten(a, LowestRateIndex(a.songs)) else a;
    var k := FirstUnratedIndex(b.songs);
    if e.newRate == UNRATED && k < |b.songs| then SmartRemoveAtIndexAsWritten(b, k) else b
  }

  /** processEvent after the base removal, with the corrected refill. */
  function MostLikedReact(base: PlaylistState, e: SongLibraryEvent, lib: seq<Song>): PlaylistState
    reads base.songs, e.song, lib
  {
    var pre := MostLikedPre(base, e);
    if RefillsAfter(base, e, lib) then Refill(pre, TopRated(lib)) else pre
  }

  /** The reaction reads only the songs of the playlist, the event's song and
      the library, so a step that changes none of them leaves it as it was. The
      three arguments of MostLikedReact travel as one tuple. */
  twostate lemma MostLikedReactFramed(args: (PlaylistState, SongLibraryEvent, seq<Song>))
    requires unchanged(args.0.songs, args.1.song, args.2)
    ensures MostLikedReact(args.0, args.1, args.2) == old(MostLikedReact(args.0, args.1, args.2))
  {
  }

  /** The refill from the library likewise depends only on the playlist's songs
      and the library's. */
  twostate lemma RefillFramed(args: (PlaylistState, seq<Song>))
    requires unchanged(args.0.songs, args.1)
    ensures Refill(args.0, TopRated(args.1)) == old(Refill(args.0, TopRated(args.1)))
  {
  }

  /** processEvent with the corrected refill. */
  function MostLikedStep(st: PlaylistState, e: SongLibraryEvent, lib: seq<Song>): PlaylistState
    reads st.songs, e.song, lib
  {
    MostLikedReact(RemovedStep(st, e), e, lib)
  }

  /** With the corrected refill, every event keeps the playlist within Capacity. */
  lemma MostLikedWithinCapacity(st: PlaylistState, e: SongLibraryEvent, lib: seq<Song>)
    requires |st.songs| <= Capacity
    ensures |MostLikedStep(st, e, lib).songs| <= Capacity
  {
    var base := RemovedStep(st, e);
    var pre := MostLikedPre(base, e);
    RefillSpec(pre, TopRated(lib));
  }

  lemma RemoveAtKeepsRated(ss: seq<Song>, k: nat)
    requires k < |ss| && NoUnrated(ss)
    ensures NoUnrated(RemoveAt(ss, k))
  {
  }

  /** Every member other than x is rated. */
  predicate RatedExcept(ss: seq<Song>, x: Song)
    reads ss
  {
    forall i :: 0 <= i < |ss| && ss[i] != x ==> ss[i].rate != UNRATED
  }

  /** Removing the one occurrence of the only unrated member leaves none. */
  lemma RemoveOnlyUnrated(ss: seq<Song>, x: Song, k: nat)
    requires DistinctRefs(ss) && k < |ss| && ss[k] == x && RatedExcept(ss, x)
    ensures NoUnrated(RemoveAt(ss, k))
  {
    var r := RemoveAt(ss, k);
    forall i | 0 <= i < |r| ensures r[i].rate != UNRATED {
      var j := if i < k then i else i + 1;
      assert r[i] == ss[j] && j != k;
    }
  }

  /** Adding an unrated song x to a playlist where only x may be unrated leaves x
      a member exactly once (by object) and every other member rated. */
  lemma AddUnrated(st: PlaylistState, x: Song)
    requires DistinctRefs(st.songs) && RatedExcept(st.songs, x) && x.rate == UNRATED
    ensures var a := AddSong(st, x);
      DistinctRefs(a.songs) && RatedExcept(a.songs, x) && x in a.songs
  {
    var a := AddSong(st, x);
    AddSongSpec(st, x);
    forall i | 0 <= i < |a.songs| && a.songs[i] != x ensures a.songs[i].rate != UNRATED {
      if i < |st.songs| {
        assert a.songs[i] == st.songs[i];
      }
    }
  }

  /** removeLowestRate then removeUnrated take out the only unrated member. */
  lemma TrimThenRemoveUnrated(a: PlaylistState, x: Song)
    requires DistinctRefs(a.songs) && RatedExcept(a.songs, x) && x in a.songs && x.rate == UNRATED
    ensures NoUnrated(RemoveFirstUnrated(TrimToCapacity(a)).songs)
    ensures DistinctRefs(RemoveFirstUnrated(TrimToCapacity(a)).songs)
  {
    var u :| 0 <= u < |a.songs| && a.songs[u] == x;
    var b := TrimToCapacity(a);
    if |a.songs| > Capacity {
      var k := LowestRateIndex(a.songs);
      assert a.songs[k] == x by {
        LowestInSpec(a.songs, |a.songs|);
        assert Ordinal(a.songs[k].rate) <= Ordinal(a.songs[u].rate) == 0;
      }
      assert b.songs == RemoveAt(a.songs, k);
      RemoveOnlyUnrated(a.songs, x, k);
      RemoveAtIndexKeepsDistinct(a, k);
      assert FirstUnratedIndex(b.songs) == |b.songs|;
    } else {
      var k := FirstUnratedIndex(a.songs);
      assert k <= u;
      RemoveOnlyUnrated(a.songs, x, k);
      RemoveAtIndexKeepsDistinct(a, k);
    }
  }

  /** The rating reaction leaves no unrated member when only the rated song
      could be unrated, and keeps members distinct objects. */
  lemma RerateKeepsRated(st: PlaylistState, e: SongLibraryEvent)
    requires e.Rated? && DistinctRefs(st.songs) && RatedExcept(st.songs, e.song)
    requires e.song.rate == e.newRate
    ensures NoUnrated(Rerate(st, e).songs) && DistinctRefs(Rerate(st, e).songs)
  {
    var a := AddSong(st, e.song);
    if e.song.rate != UNRATED {
      AddSongSpec(st, e.song);
      assert NoUnrated(a.songs);
      if |a.songs| > Capacity {
        RemoveAtIndexKeepsDistinct(a, LowestRateIndex(a.songs));
      }
    } else {
      AddUnrated(st, e.song);
      TrimThenRemoveUnrated(a, e.song);
    }
  }

  /** No unrated member before an event, none after it: the only member whose
      rating can change is the rated song, which the library has already
      updated to the event's new rating. Members also stay distinct objects. */
  lemma MostLikedKeepsRated(st: PlaylistState, e: SongLibraryEvent, lib: seq<Song>)
    requires DistinctRefs(st.songs) && RatedExcept(st.songs, e.song)
    requires e.Rated? ==> e.song.rate == e.newRate
    requires !e.Rated? ==> NoUnrated(st.songs)
    ensures NoUnrated(MostLikedStep(st, e, lib).songs)
    ensures DistinctRefs(MostLikedStep(st, e, lib).songs)
  {
    var base := RemovedStep(st, e);
    var pre := MostLikedPre(base, e);
    if e.Rated? {
      RerateKeepsRated(st, e);
    } else if e.Removed? && IndexOf(st.songs, e.song) != -1 {
      RemoveAtIndexKeepsDistinct(st, IndexOf(st.songs, e.song));
      RemoveAtKeepsRated(st.songs, IndexOf(st.songs, e.song));
    }
    TopRatedSpec(lib);
    RefillKeepsMembersApart(pre, TopRated(lib));
  }

  lemma WithRateCons(s: Song, tail: seq<Song>, r: Rate)
    ensures WithRate([s] + tail, r) == (if s.rate == r then [s] else []) + WithRate(tail, r)
  {
    assert ([s] + tail)[1..] == tail;
  }

  /** Filtering by rating distributes over concatenation. */
  lemma {:induction false} WithRateAppend(p: seq<Song>, q: seq<Song>, r: Rate)
    ensures WithRate(p + q, r) == WithRate(p, r) + WithRate(q, r)
  {
    if p == [] {
      assert p + q == q;
    } else {
      var t, head := p[1..], if p[0].rate == r then [p[0]] else [];
      calc {
        WithRate(p + q, r);
      == { assert p + q == [p[0]] + (t + q) by { assert p == [p[0]] + t; }
           WithRateCons(p[0], t + q, r); }
        head + WithRate(t + q, r);
      == { WithRateAppend(t, q, r); }
        head + (WithRate(t, r) + WithRate(q, r));
      ==
        (head + WithRate(t, r)) + WithRate(q, r);
      == { assert p == [p[0]] + t; WithRateCons(p[0], t, r); }
        WithRate(p, r) + WithRate(q, r);
      }
    }
  }

  /** A run of songs all rated r passes the filter whole. */
  lemma {:induction false} WithRateAll(ss: seq<Song>, r: Rate)
    requires forall s :: s in ss ==> s.rate == r
    ensures WithRate(ss, r) == ss
  {
    if ss != [] {
      WithRateAll(ss[1..], r);
      assert ss == [ss[0]] + ss[1..];
    }
  }

  /** A run of songs none of which is rated r passes nothing. */
  lemma {:induction false} WithRateNone(ss: seq<Song>, r: Rate)
    requires forall s :: s in ss ==> s.rate != r
    ensures WithRate(ss, r) == []
  {
    if ss != [] {
      WithRateNone(ss[1..], r);
    }
  }

  /** The rating buckets of the library [y, a, b, c, d, x] when a..d are
      VERY_GOOD and x, y are OK. */
  lemma WithRateExample(y: Song, a: Song, b: Song, c: Song, d: Song, x: Song, r: Rate)
    requires a.rate == VERY_GOOD && b.rate == VERY_GOOD && c.rate == VERY_GOOD && d.rate == VERY_GOOD
    requires x.rate == OK && y.rate == OK
    ensures WithRate([y, a, b, c, d, x], r) == if r == VERY_GOOD then [a, b, c, d] else if r == OK then [y, x] else []
  {
    var mid := [a, b, c, d];
    assert [y, a, b, c, d, x] == [y] + mid + [x];
    WithRateAppend([y] + mid, [x], r);
    WithRateAppend([y], mid, r);
    if r == VERY_GOOD {
      WithRateNone([y], r);
      WithRateAll(mid, r);
      WithRateNone([x], r);
    } else if r == OK {
      WithRateAll([y], r);
      WithRateNone(mid, r);
      WithRateAll([x], r);
    } else {
      WithRateNone([y], r);
      WithRateNone(mid, r);
      WithRateNone([x], r);
    }
  }

  /** Below VERY_GOOD, that library ranks y before x. */
  lemma LowerBucketsExample(y: Song, a: Song, b: Song, c: Song, d: Song, x: Song)
    requires a.rate == VERY_GOOD && b.rate == VERY_GOOD && c.rate == VERY_GOOD && d.rate == VERY_GOOD
    requires x.rate == OK && y.rate == OK
    ensures Buckets([y, a, b, c, d, x], RatedDescending[1..]) == [y, x]
  {
    var lib := [y, a, b, c, d, x];
    assert RatedDescending[1..] == [GOOD, OK, BAD, VERY_BAD];
    assert Buckets(lib, [VERY_BAD]) == [] by {
      WithRateExample(y, a, b, c, d, x, VERY_BAD);
    }
    assert Buckets(lib, [BAD, VERY_BAD]) == [] by {
      WithRateExample(y, a, b, c, d, x, BAD);
    }
    assert Buckets(lib, [OK, BAD, VERY_BAD]) == [y, x] by {
      WithRateExample(y, a, b, c, d, x, OK);
    }
    assert Buckets(lib, [GOOD, OK, BAD, VERY_BAD]) == [y, x] by {
      WithRateExample(y, a, b, c, d, x, GOOD);
    }
  }

  /** The ranking of that library: a..d, then y before x. */
  lemma TopRatedExample(y: Song, a: Song, b: Song, c: Song, d: Song, x: Song)
    requires a.rate == VERY_GOOD && b.rate == VERY_GOOD && c.rate == VERY_GOOD && d.rate == VERY_GOOD
    requires x.rate == OK && y.rate == OK
    ensures TopRated([y, a, b, c, d, x]) == [a, b, c, d, y]
  {
    WithRateExample(y, a, b, c, d, x, VERY_GOOD);
    LowerBucketsExample(y, a, b, c, d, x);
    assert Ranked([y, a, b, c, d, x]) == [a, b, c, d] + [y, x];
  }

  /** Refill as written over [a, b, c, d, y] on the members [a, b, c, d, x]
      appends y. */
  lemma RefillAsWrittenExample(st: PlaylistState, y: Song, a: Song, b: Song, c: Song, d: Song, x: Song)
    requires st.songs == [a, b, c, d, x] && !Contains(st.songs, y)
    ensures RefillAsWritten(st, [a, b, c, d, y]).songs == st.songs + [y]
  {
    assert Contains(st.songs, a) by { assert SameSong(st.songs[0], a); }
    assert Contains(st.songs, b) by { assert SameSong(st.songs[1], b); }
    assert Contains(st.songs, c) by { assert SameSong(st.songs[2], c); }
    assert Contains(st.songs, d) by { assert SameSong(st.songs[3], d); }
    assert [a, b, c, d, y][1..] == [b, c, d, y];
    assert [b, c, d, y][1..] == [c, d, y];
    assert [c, d, y][1..] == [d, y];
    assert [d, y][1..] == [y];
    assert RefillAsWritten(st, [a, b, c, d, y]) == RefillAsWritten(st, [b, c, d, y]);
    assert RefillAsWritten(st, [b, c, d, y]) == RefillAsWritten(st, [c, d, y]);
    assert RefillAsWritten(st, [c, d, y]) == RefillAsWritten(st, [d, y]);
    assert RefillAsWritten(st, [d, y]) == RefillAsWritten(st, [y]);
    assert [y][1..] == [];
    assert RefillAsWritten(st, [y]) == AddSong(st, y);
  }

  /** A song decremented from GOOD to OK now ties with an OK library song that
      comes earlier in the library and is not a member. The ranking puts that
      song fifth, and refill as written admits it as a sixth member; the
      corrected refill leaves the playlist at Capacity. */
  lemma RefillOverflowsAsWritten(y: Song, a: Song, b: Song, c: Song, d: Song, x: Song)
    requires a.rate == VERY_GOOD && b.rate == VERY_GOOD && c.rate == VERY_GOOD && d.rate == VERY_GOOD
    requires x.rate == OK && y.rate == OK && y.filename != x.filename
    ensures |MostLikedStepAsWritten(PlaylistState([a, b, c, d, x], 4), Rated(x, GOOD, OK), [y, a, b, c, d, x]).songs| == 6
    ensures |MostLikedStep(PlaylistState([a, b, c, d, x], 4), Rated(x, GOOD, OK), [y, a, b, c, d, x]).songs| == 5
  {
    var st := PlaylistState([a, b, c, d, x], 4);
    var e := Rated(x, GOOD, OK);
    TopRatedExample(y, a, b, c, d, x);
    assert Contains(st.songs, x) by { assert SameSong(st.songs[4], x); }
    assert Rerate(st, e) == st;
    assert !Contains(st.songs, y);
    RefillAsWrittenExample(st, y, a, b, c, d, x);
  }

  /** Appending an unrated song to a full playlist of VERY_GOOD songs: it is
      appended and selected, and it is both the lowest rated and the first
      unrated member. */
  lemma UnratedJoinsFull(ms: seq<Song>, x: Song)
    requires |ms| == Capacity && forall i :: 0 <= i < |ms| ==> ms[i].rate == VERY_GOOD
    requires x.rate == UNRATED
    ensures AddSong(PlaylistState(ms, 0), x) == PlaylistState(ms + [x], Capacity)
    ensures LowestRateIndex(ms + [x]) == Capacity
    ensures FirstUnratedIndex(ms + [x]) == Capacity
  {
    assert !Contains(ms, x);
    var a := ms + [x];
    var k := LowestRateIndex(a);
    LowestInSpec(a, |a|);
    assert Ordinal(a[k].rate) <= Ordinal(a[Capacity].rate) == 0;
  }

  /** A full playlist of VERY_GOOD songs, and a song outside it re-rated down to
      UNRATED: as written, addAutomatic appends and selects it, and both the trim
      and removeUnrated then aim at that selected position and are lost, so the
      playlist keeps six songs, one of them unrated. With the removal as intended
      the song leaves at once. */
  lemma UnratedSurvivesAsWritten(ms: seq<Song>, x: Song)
    requires |ms| == Capacity && forall i :: 0 <= i < |ms| ==> ms[i].rate == VERY_GOOD
    requires x.rate == UNRATED
    ensures RerateAsWritten(PlaylistState(ms, 0), Rated(x, VERY_BAD, UNRATED)).songs == ms + [x]
    ensures Rerate(PlaylistState(ms, 0), Rated(x, VERY_BAD, UNRATED)).songs == ms
  {
    UnratedJoinsFull(ms, x);
    var a := PlaylistState(ms + [x], Capacity);
    assert RemoveAtIndex(a, Capacity).songs == ms;
    assert FirstUnratedIndex(ms) == |ms|;
  }
}

=== FILE: most_recent.dfy ===
/** The reactions of the "Most Recently Added" smart playlist
    (domain.playlists.MostRecentlyAddedSongsPlaylist): it keeps the last
    Capacity songs added to the library, in the order they were added. */
module MostRecentRules {
  import opened Songs
  import opened LibraryEvents
  import opened SelectionLists
  import opened Seqs
  import opened PlaylistStates

  /** The backfill loop: addAutomatic of the library songs from position i - 1
      down to 0, stopping as soon as one of them is added. */
  function Backfill(st: PlaylistState, lib: seq<Song>, i: nat): (r: PlaylistState)
    reads st.songs, lib
    requires i <= |lib|
    ensures forall k :: 0 <= k < |r.songs| ==> r.songs[k] in st.songs || r.songs[k] in lib
    decreases i
  {
    if i == 0 then st
    else
      var a := AddSong(st, lib[i - 1]);
      if |a.songs| != |st.songs| then a else Backfill(st, lib, i - 1)
  }

  /** The latest of the first i library positions whose song is not a member,
      or -1 when all of them are. */
  function LastNonMember(ss: seq<Song>, lib: seq<Song>, i: nat): (j: int)
    reads ss, lib
    requires i <= |lib|
    ensures -1 <= j < i
    ensures j != -1 ==> !Contains(ss, lib[j])
    ensures forall m :: j < m < i ==> Contains(ss, lib[m])
  {
    if i == 0 then -1
    else if !Contains(ss, lib[i - 1]) then i - 1
    else LastNonMember(ss, lib, i - 1)
  }

  /** The backfill adds exactly the latest library song that is not a member, and
      nothing when every song is one: at most one song, never a duplicate. */
  lemma {:induction false} BackfillAddsLastNonMember(st: PlaylistState, lib: seq<Song>, i: nat)
    requires i <= |lib|
    ensures var j := LastNonMember(st.songs, lib, i);
      Backfill(st, lib, i) == if j == -1 then st else AddSong(st, lib[j])
    ensures var j := LastNonMember(st.songs, lib, i);
      j != -1 ==> Backfill(st, lib, i).songs == st.songs + [lib[j]]
    decreases i
  {
    if i > 0 {
      AddSongSpec(st, lib[i - 1]);
      BackfillAddsLastNonMember(st, lib, i - 1);
      var j := LastNonMember(st.songs, lib, i);
      if j != -1 {
        AddSongSpec(st, lib[j]);
      }
    }
  }

  /** After addAutomatic of a new song, removeAutomatic(0) when over Capacity. */
  function KeepNewest(a: PlaylistState): (r: PlaylistState)
    reads a.songs
    ensures forall k :: 0 <= k < |r.songs| ==> r.songs[k] in a.songs
  {
    if |a.songs| > Capacity then RemoveAtIndex(a, 0) else a
  }

  /** processEvent after the base removal: on Added(s) the song is added and
      the oldest member dropped when over Capacity; on Removed, one backfill when
      the playlist holds fewer than Capacity songs and the library holds more
      songs than the playlist. lib is the library after the change that raised e. */
  function MostRecentReact(base: PlaylistState, e: SongLibraryEvent, lib: seq<Song>): (r: PlaylistState)
    reads base.songs, e.song, lib
    ensures forall k :: 0 <= k < |r.songs| ==> r.songs[k] in base.songs || r.songs[k] == e.song || r.songs[k] in lib
  {
    var added := if e.Added? then KeepNewest(AddSong(base, e.song)) else base;
    if e.Removed? && |added.songs| < Capacity && |lib| > |added.songs| then Backfill(added, lib, |lib|)
    else added
  }

  /** The reaction reads only the songs of the playlist, the event's song and
      the library, so a step that changes none of them leaves it as it was. The
      three arguments of MostRecentReact travel as one tuple. */
  twostate lemma MostRecentReactFramed(args: (PlaylistState, SongLibraryEvent, seq<Song>))
    requires unchanged(args.0.songs, args.1.song, args.2)
    ensures MostRecentReact(args.0, args.1, args.2) == old(MostRecentReact(args.0, args.1, args.2))
  {
  }

  /** Likewise for the backfill from the library. */
  twostate lemma BackfillFramed(args: (PlaylistState, seq<Song>))
    requires unchanged(args.0.songs, args.1)
    ensures Backfill(args.0, args.1, |args.1|) == old(Backfill(args.0, args.1, |args.1|))
  {
  }

  /** processEvent: the base removal, then the reaction. */
  function MostRecentStep(st: PlaylistState, e: SongLibraryEvent, lib: seq<Song>): (r: PlaylistState)
    reads st.songs, e.song, lib
    ensures forall k :: 0 <= k < |r.songs| ==> r.songs[k] in st.songs || r.songs[k] == e.song || r.songs[k] in lib
  {
    MostRecentReact(RemovedStep(st, e), e, lib)
  }

  /** Every event keeps the playlist within Capacity. */
  lemma MostRecentWithinCapacity(st: PlaylistState, e: SongLibraryEvent, lib: seq<Song>)
    requires |st.songs| <= Capacity
    ensures |MostRecentStep(st, e, lib).songs| <= Capacity
  {
    var base := RemovedStep(st, e);
    if e.Removed? && |base.songs| < Capacity && |lib| > |base.songs| {
      BackfillAddsLastNonMember(base, lib, |lib|);
    }
  }

  /** A song added to the library that no member equals becomes the last member
      and stays selected, even when the oldest member is dropped. */
  lemma AddedSongIsNewestAndSelected(st: PlaylistState, s: Song, lib: seq<Song>)
    requires |st.songs| <= Capacity && !Contains(st.songs, s)
    ensures var r := MostRecentStep(st, Added(s), lib);
      r.Valid() && r.sel == |r.songs| - 1 && r.songs[r.sel] == s &&
      r.songs == if |st.songs| == Capacity then st.songs[1..] + [s] else st.songs + [s]
  {
    AddSongSpec(st, s);
    var a := AddSong(st, s);
    if |a.songs| > Capacity {
      assert RemoveAt(a.songs, 0) == st.songs[1..] + [s];
    }
  }

  /** The playlist after the library received the songs adds, one Added event
      each, starting empty. */
  function AfterAdds(adds: seq<Song>): (r: PlaylistState)
    reads adds
    ensures forall k :: 0 <= k < |r.songs| ==> r.songs[k] in adds
  {
    if adds == [] then PlaylistState([], -1)
    else
      var prev := AfterAdds(adds[..|adds| - 1]);
      assert forall k :: 0 <= k < |prev.songs| ==> prev.songs[k] in adds;
      MostRecentStep(prev, Added(adds[|adds| - 1]), adds)
  }

  /** A song equal to none of the earlier ones is not equal to a member of
      their window. */
  lemma NewSongNotInWindow(p: seq<Song>, s: Song)
    requires NoEqualMembers(p + [s])
    ensures !Contains(LastN(p, Capacity), s)
  {
    var w := LastN(p, Capacity);
    forall k | 0 <= k < |w| ensures !SameSong(w[k], s) {
      var m := |p| - |w| + k;
      assert w[k] == (p + [s])[m] && s == (p + [s])[|p|];
    }
  }

  /** After songs no two of which are equal are added to an empty library, the
      playlist holds the last Capacity of them in the order they were added, and
      the newest is selected. */
  lemma {:induction false} MostRecentWindow(adds: seq<Song>)
    requires NoEqualMembers(adds)
    ensures AfterAdds(adds).songs == LastN(adds, Capacity)
    ensures adds != [] ==> AfterAdds(adds).sel == |AfterAdds(adds).songs| - 1
  {
    if adds != [] {
      var n := |adds|;
      var p := adds[..n - 1];
      var s := adds[n - 1];
      assert adds == p + [s];
      assert NoEqualMembers(p);
      MostRecentWindow(p);
      var prev := AfterAdds(p);
      NewSongNotInWindow(p, s);
      AddedSongIsNewestAndSelected(prev, s, adds);
      LastNSnoc(p, s, Capacity);
    }
  }

  /** A song that the library adds and then removes stays in the playlist as
      written: it is selected when it arrives, and the removal of the selected
      position is lost. With the removal as intended it leaves. */
  lemma SelectedRemovalLostAsWritten(s: Song)
    ensures MostRecentStep(PlaylistState([], -1), Added(s), [s]) == PlaylistState([s], 0)
    ensures SmartRemovedStepAsWritten(PlaylistState([s], 0), Removed(s)).songs == [s]
    ensures MostRecentStep(PlaylistState([s], 0), Removed(s), []).songs == []
  {
    assert SameSong(s, s);
    assert IndexOf([s], s) == 0;
  }
}

=== FILE: music_library.dfy ===
/** domain.core.MusicLibrary: the song collection. It is a selection list of songs
    that emits one event per mutation and tracks the song played through it.
    Emission is modelled as appending to the ghost sequence `emitted`; listener
    registration as the ghost sequence `listeners` (the observer base class is not
    part of this model). */
module Library {
  import opened Rates
  import opened MetaInfos
  import opened Songs
  import opened LibraryEvents
  import opened Players
  import opened SelectionLists
  import opened Seqs

  /** getMatches: the songs that match the pattern, in library order. */
  function MatchingSongs(ss: seq<Song>, pattern: string, find: Finder): (r: seq<Song>)
    ensures IsSubsequence(r, ss)
    ensures forall i :: 0 <= i < |r| ==> r[i].Matches(pattern, find)
    ensures forall i :: 0 <= i < |ss| && ss[i].Matches(pattern, find) ==> ss[i] in r
  {
    if ss == [] then []
    else
      var rest := MatchingSongs(ss[1..], pattern, find);
      if ss[0].Matches(pattern, find) then
        assert ([ss[0]] + rest)[1..] == rest;
        [ss[0]] + rest
      else
        rest
  }

  /** getMatches keeps every copy: a matching song occurs in the result exactly
      as often as in the library, and a song that does not match not at all. */
  lemma {:induction false} MatchingSongsCount(ss: seq<Song>, pattern: string, find: Finder)
    ensures forall x: Song ::
              multiset(MatchingSongs(ss, pattern, find))[x] ==
              if x.Matches(pattern, find) then multiset(ss)[x] else 0
  {
    if ss != [] {
      var rest := MatchingSongs(ss[1..], pattern, find);
      MatchingSongsCount(ss[1..], pattern, find);
      assert ss == [ss[0]] + ss[1..];
      assert multiset(ss) == multiset([ss[0]]) + multiset(ss[1..]);
      if ss[0].Matches(pattern, find) {
        assert multiset(MatchingSongs(ss, pattern, find)) == multiset([ss[0]]) + multiset(rest);
      } else {
        assert MatchingSongs(ss, pattern, find) == rest;
      }
    }
  }

  class MusicLibrary {
    const songList: SelectionList<Song>
    const player: Player
    var playingSong: Song?
    ghost var emitted: seq<SongLibraryEvent>
    ghost var listeners: seq<object>

    ghost predicate Valid()
      reads this, songList
    {
      songList.Valid()
    }

    /** A new library is empty and registers itself with the player. */
    constructor (p: Player)
      modifies p
      ensures Valid() && fresh(songList) && player == p
      ensures Songs() == [] && !SomeSelected() && !IsPlaying()
      ensures emitted == [] && listeners == []
      ensures p.listeners == old(p.listeners) + [this] && p.log == old(p.log)
    {
      songList := new SelectionList<Song>();
      player := p;
      playingSong := null;
      emitted := [];
      listeners := [];
      new;
      p.AddListener(this);
    }

    function Songs(): seq<Song>
      reads this, songList
    {
      songList.elems
    }

    function Size(): nat
      reads this, songList
    {
      songList.Size()
    }

    function Get(i: nat): Song
      requires i < Size()
      reads this, songList
    {
      songList.Get(i)
    }

    function SomeSelected(): bool
      reads this, songList
    {
      songList.SomeSelected()
    }

    function GetIndexSelected(): int
      requires Valid()
      reads this, songList
    {
      songList.GetIndexSelected()
    }

    function GetSelected(): Song
      requires Valid() && SomeSelected()
      reads this, songList
    {
      songList.GetSelected()
    }

    /** isPlaying: a song started through this library is still playing. */
    function IsPlaying(): bool
      reads this
    {
      playingSong != null
    }

    /** play(): stops the player, then loads and plays the selected song, which is
        recorded as playing through this library. */
    method Play()
      requires Valid() && SomeSelected()
      modifies this, player
      ensures Valid() && Songs() == old(Songs()) && songList.selectedIndex == old(songList.selectedIndex)
      ensures playingSong == old(GetSelected()) && IsPlaying()
      ensures player.log == old(player.log) + [Command.Stop, Command.Load(playingSong.filename), Command.Play]
      ensures player.listeners == old(player.listeners)
      ensures emitted == old(emitted) && listeners == old(listeners)
    {
      player.Stop();
      playingSong := songList.GetSelected();
      player.Load(playingSong.filename);
      player.Play();
    }

    /** stop(): only forwards to the player; the library stops counting the song as
        playing when the player reports STOPED. */
    method Stop()
      modifies player
      ensures player.log == old(player.log) + [Command.Stop]
      ensures player.listeners == old(player.listeners)
    {
      player.Stop();
    }

    /** incRateSelected: the selected song's rating goes one up (saturating) and a
        Rated event with the old and new rating is emitted, also when they are equal. */
    method IncRateSelected()
      requires Valid() && SomeSelected()
      modifies this, GetSelected()
      ensures Valid() && Songs() == old(Songs()) && songList.selectedIndex == old(songList.selectedIndex)
      ensures var s := GetSelected();
        s.rate == Inc(old(s.rate)) && s.playCount == old(s.playCount) &&
        emitted == old(emitted) + [Rated(s, old(s.rate), s.rate)]
      ensures playingSong == old(playingSong) && listeners == old(listeners)
    {
      var selected := songList.GetSelected();
      var oldRate := selected.rate;
      selected.IncRating();
      var newRate := selected.rate;
      emitted := emitted + [Rated(selected, oldRate, newRate)];
    }

    /** decRateSelected: as incRateSelected, one down, saturating at UNRATED. */
    method DecRateSelected()
      requires Valid() && SomeSelected()
      modifies this, GetSelected()
      ensures Valid() && Songs() == old(Songs()) && songList.selectedIndex == old(songList.selectedIndex)
      ensures var s := GetSelected();
        s.rate == Dec(old(s.rate)) && s.playCount == old(s.playCount) &&
        emitted == old(emitted) + [Rated(s, old(s.rate), s.rate)]
      ensures playingSong == old(playingSong) && listeners == old(listeners)
    {
      var selected := songList.GetSelected();
      var oldRate := selected.rate;
      selected.DecRating();
      var newRate := selected.rate;
      emitted := emitted + [Rated(selected, oldRate, newRate)];
    }

    /** getMatches: exactly the library's songs that match, in library order. */
    function GetMatches(pattern: string, find: Finder): seq<Song>
      reads this, songList
    {
      MatchingSongs(Songs(), pattern, find)
    }

    method Select(i: int)
      requires Valid() && 0 <= i < Size()
      modifies songList
      ensures Valid() && Songs() == old(Songs()) && SomeSelected() && GetIndexSelected() == i
    {
      songList.Select(i);
    }

    /** add(s): appends s, selects it, and emits exactly one Added(s). */
    method Add(s: Song)
      requires Valid()
      modifies this, songList
      ensures Valid() && Songs() == old(Songs()) + [s]
      ensures SomeSelected() && GetIndexSelected() == Size() - 1
      ensures emitted == old(emitted) + [Added(s)]
      ensures playingSong == old(playingSong) && listeners == old(listeners)
    {
      songList.Add(s);
      emitted := emitted + [Added(s)];
    }

    method Next()
      requires Valid()
      modifies songList
      ensures Valid() && Songs() == old(Songs())
      ensures songList.selectedIndex == NextIndex(old(songList.selectedIndex), Size())
    {
      songList.Next();
    }

    method Previous()
      requires Valid()
      modifies songList
      ensures Valid() && Songs() == old(Songs())
      ensures songList.selectedIndex == PreviousIndex(old(songList.selectedIndex))
    {
      songList.Previous();
    }

    /** remove(): with a selection, deletes the selected song, clears the selection
        and then emits Removed(that song); without one, changes and emits nothing. */
    method Remove()
      requires Valid()
      modifies this, songList
      ensures Valid() && !SomeSelected()
      ensures old(SomeSelected()) ==>
        Songs() == RemoveAt(old(Songs()), old(GetIndexSelected())) &&
        emitted == old(emitted) + [Removed(old(GetSelected()))]
      ensures !old(SomeSelected()) ==> Songs() == old(Songs()) && emitted == old(emitted)
      ensures playingSong == old(playingSong) && listeners == old(listeners)
    {
      if songList.SomeSelected() {
        var removed := songList.GetSelected();
        songList.Remove();
        emitted := emitted + [Removed(removed)];
      }
    }

    /** The player's state changed. While a song plays through this library, ENDED
        counts one more play of it and STOPED does not; both end "playing through
        me". Other notifications, or none playing, change nothing. */
    method PropertyChange(n: PlayerNotice)
      requires Valid()
      modifies this, playingSong
      ensures Valid() && Songs() == old(Songs()) && songList.selectedIndex == old(songList.selectedIndex)
      ensures emitted == old(emitted) && listeners == old(listeners)
      ensures var p := old(playingSong);
        if n.propertyName == PlayingStateProperty && p != null && n.newState == ENDED then
          p.playCount == old(p.playCount) + 1 && p.rate == old(p.rate) && playingSong == null
        else if n.propertyName == PlayingStateProperty && p != null && n.newState == STOPED then
          playingSong == null && p.playCount == old(p.playCount)
        else
          playingSong == p && (p != null ==> p.playCount == old(p.playCount))
      ensures old(playingSong) != null ==> old(playingSong).rate == old(playingSong.rate)
    {
      if n.propertyName == PlayingStateProperty && IsPlaying() {
        if n.newState == STOPED {
          playingSong := null;
        } else if n.newState == ENDED {
          playingSong.IncTimesPlayed();
          playingSong := null;
        }
      }
    }

    method RegisterListener(l: object)
      modifies this
      ensures listeners == old(listeners) + [l]
      ensures emitted == old(emitted) && playingSong == old(playingSong)
    {
      listeners := listeners + [l];
    }

    method UnregisterListener(l: object)
      modifies this
      ensures listeners == Without(old(listeners), l)
      ensures emitted == old(emitted) && playingSong == old(playingSong)
    {
      listeners := Without(listeners, l);
    }
  }

  /** The library scenario: select a song, play it, and let the player report that
      it ended: the song's play count grows by exactly one and the library is no
      longer playing. */
  method PlayToEndScenario(p: Player, info: SongMetaInfo)
    modifies p
  {
    var lib := new MusicLibrary(p);
    var a := new Song(info, "a.mp3");
    lib.Add(a);
    lib.Select(0);
    lib.Play();
    assert lib.IsPlaying() && lib.playingSong == a;
    lib.PropertyChange(PlayerNotice(PlayingStateProperty, ENDED));
    assert a.playCount == 1 && !lib.IsPlaying();
  }
}

=== FILE: options.dfy ===
/** An optional value: the model's stand-in for a Java reference that may be null
    or for java.util.Optional. */
module Options {
  datatype Option<+T> = None | Some(value: T)
}

=== FILE: player.dfy ===
/** The playback device that the library and the playlists share. Audio output is
    outside the model: a Player only records, as ghost state, the commands it was
    given and the objects registered to hear its state changes. Its state-change
    notifications are delivered by explicit calls to the listeners' PropertyChange
    methods. */
module Players {
  import opened Seqs

  /** Player.PlayingState; OTHER stands for every further state, which the core
      ignores. STOPED is spelled as in the source. */
  datatype PlayingState = PLAYING | STOPED | ENDED | OTHER

  /** A java.beans property-change notification from the player. */
  datatype PlayerNotice = PlayerNotice(propertyName: string, newState: PlayingState)

  const PlayingStateProperty: string := "playingState"

  datatype Command = Load(path: string) | Play | Stop

  /** s with every occurrence of x taken out, other elements kept in order. */
  function Without<T(==)>(s: seq<T>, x: T): (r: seq<T>)
    ensures x !in r
    ensures forall i :: 0 <= i < |r| ==> r[i] in s && r[i] != x
    ensures forall i :: 0 <= i < |s| && s[i] != x ==> s[i] in r
    ensures |r| <= |s|
    ensures IsSubsequence(r, s)
  {
    if s == [] then []
    else if s[0] == x then Without(s[1..], x)
    else
      var rest := Without(s[1..], x);
      assert ([s[0]] + rest)[1..] == rest;
      [s[0]] + rest
  }

  class Player {
    ghost var log: seq<Command>
    ghost var listeners: seq<object>

    constructor ()
      ensures log == [] && listeners == []
    {
      log := [];
      listeners := [];
    }

    method Load(path: string)
      modifies this
      ensures log == old(log) + [Command.Load(path)] && listeners == old(listeners)
    {
      log := log + [Command.Load(path)];
    }

    method Play()
      modifies this
      ensures log == old(log) + [Command.Play] && listeners == old(listeners)
    {
      log := log + [Command.Play];
    }

    method Stop()
      modifies this
      ensures log == old(log) + [Command.Stop] && listeners == old(listeners)
    {
      log := log + [Command.Stop];
    }

    method AddListener(l: object)
      modifies this
      ensures listeners == old(listeners) + [l] && log == old(log)
    {
      listeners := listeners + [l];
    }

    method RemoveListener(l: object)
      modifies this
      ensures listeners == Without(old(listeners), l) && log == old(log)
    {
      listeners := Without(listeners, l);
    }
  }
}

=== FILE: playlist.dfy ===
/** A playlist (domain.playlists.AbsPlaylist and its subclasses ManualPlaylist,
    SmartPlaylist, MostLikedSongsPlaylist and MostRecentlyAddedSongsPlaylist):
    one class whose kind decides the overridden behaviour. */
module Playlists {
  import opened Rates
  import opened Songs
  import opened LibraryEvents
  import opened Players
  import opened SelectionLists
  import opened Seqs
  import opened PlaylistStates
  import opened MostLikedRules
  import opened MostRecentRules

  datatype Kind = Manual | MostLiked | MostRecentlyAdded

  /** The reaction of a playlist of the given kind to a library event; lib is the
      library after the change that raised the event. */
  function Step(kind: Kind, st: PlaylistState, e: SongLibraryEvent, lib: seq<Song>): PlaylistState
    reads st.songs, e.song, lib
  {
    match kind
    case Manual => RemovedStep(st, e)
    case MostLiked => MostLikedStep(st, e, lib)
    case MostRecentlyAdded => MostRecentStep(st, e, lib)
  }

  class Playlist {
    const kind: Kind
    const name: string
    const player: Player
    var songs: seq<Song>
    var indexSelected: int
    var playingSong: Song?

    function State(): PlaylistState
      reads this
    {
      PlaylistState(songs, indexSelected)
    }

    ghost predicate Valid()
      reads this
    {
      State().Valid()
    }

    predicate IsSmart()
    {
      kind != Kind.Manual
    }

    /** new ManualPlaylist(name, library). */
    constructor Manual(name: string, player: Player)
      ensures kind == Kind.Manual && this.name == name && this.player == player
      ensures songs == [] && indexSelected == -1 && playingSong == null && Valid()
    {
      kind := Kind.Manual;
      this.name := name;
      this.player := player;
      songs := [];
      indexSelected := -1;
      playingSong := null;
    }

    /** new MostLikedSongsPlaylist(library). */
    constructor MostLikedSongs(player: Player)
      ensures kind == Kind.MostLiked && name == "Most Liked" && this.player == player
      ensures songs == [] && indexSelected == -1 && playingSong == null && Valid()
    {
      kind := Kind.MostLiked;
      name := "Most Liked";
      this.player := player;
      songs := [];
      indexSelected := -1;
      playingSong := null;
    }

    /** new MostRecentlyAddedSongsPlaylist(library). */
    constructor MostRecentlyAddedSongs(player: Player)
      ensures kind == Kind.MostRecentlyAdded && name == "Most Recently Added" && this.player == player
      ensures songs == [] && indexSelected == -1 && playingSong == null && Valid()
    {
      kind := Kind.MostRecentlyAdded;
      name := "Most Recently Added";
      this.player := player;
      songs := [];
      indexSelected := -1;
      playingSong := null;
    }

    function Size(): (n: nat)
      reads this
      ensures n == |State().songs|
    {
      |songs|
    }

    function SomeSelected(): (b: bool)
      reads this
      ensures b <==> State().sel != -1
    {
      indexSelected != -1
    }

    function GetIndexSelected(): (i: int)
      reads this
      requires Valid()
      ensures -1 <= i < Size() && (i == -1 <==> !SomeSelected())
    {
      indexSelected
    }

    function GetSelected(): (s: Song)
      reads this
      requires Valid() && SomeSelected()
      ensures s in songs && s == songs[GetIndexSelected()]
    {
      songs[indexSelected]
    }

    function IsPlaying(): (b: bool)
      reads this
      ensures b <==> playingSong != null
    {
      playingSong != null
    }

    /** AbsPlaylist.add: rejects a song equal to a member, otherwise appends and
        selects it. */
    method AddBase(s: Song) returns (added: bool)
      requires Valid()
      modifies this
      ensures Valid() && State() == old(AddSong(State(), s))
      ensures added <==> !Contains(old(songs), s)
      ensures playingSong == old(playingSong)
    {
      if Contains(songs, s) {
        return false;
      }
      songs := songs + [s];
      indexSelected := |songs| - 1;
      return true;
    }

    /** add: the base add for a manual playlist; a smart playlist rejects it. */
    method Add(s: Song) returns (added: bool)
      requires Valid()
      modifies this
      ensures Valid() && playingSong == old(playingSong)
      ensures IsSmart() ==> !added && State() == old(State())
      ensures !IsSmart() ==> State() == old(AddSong(State(), s)) && (added <==> !Contains(old(songs), s))
    {
      if IsSmart() {
        return false;
      }
      added := AddBase(s);
    }

    /** SmartPlaylist.addAutomatic: the base add, bypassing the rejection. */
    method AddAutomatic(s: Song)
      requires Valid() && IsSmart()
      modifies this
      ensures Valid() && State() == old(AddSong(State(), s)) && playingSong == old(playingSong)
      ensures |songs| >= old(|songs|)
    {
      var _ := AddBase(s);
    }

    /** AbsPlaylist.remove: removes the selected song and clears the selection. */
    method RemoveBase() returns (removed: bool)
      requires Valid()
      modifies this
      ensures Valid() && playingSong == old(playingSong)
      ensures removed <==> old(indexSelected) != -1
      ensures removed ==> songs == RemoveAt(old(songs), old(indexSelected)) && indexSelected == -1
      ensures !removed ==> State() == old(State())
    {
      if indexSelected != -1 {
        songs := RemoveAt(songs, indexSelected);
        indexSelected := -1;
        return true;
      }
      return false;
    }

    /** remove: the base remove for a manual playlist; a smart playlist rejects it. */
    method Remove() returns (removed: bool)
      requires Valid()
      modifies this
      ensures Valid() && playingSong == old(playingSong)
      ensures IsSmart() ==> !removed && State() == old(State())
      ensures !IsSmart() ==> (removed <==> old(indexSelected) != -1)
      ensures !IsSmart() && removed ==> songs == RemoveAt(old(songs), old(indexSelected)) && indexSelected == -1
      ensures !IsSmart() && !removed ==> State() == old(State())
    {
      if IsSmart() {
        return false;
      }
      removed := RemoveBase();
    }

    /** select(i). */
    method Select(i: int)
      requires Valid() && 0 <= i < |songs|
      modifies this
      ensures Valid() && songs == old(songs) && indexSelected == i && playingSong == old(playingSong)
    {
      indexSelected := i;
    }

    /** moveUpSelected(i): the selected song moves to position i and is selected
        there, the other members keeping their order; a smart playlist rejects it. */
    method MoveUpSelected(i: int) returns (moved: bool)
      requires Valid()
      requires !IsSmart() ==> indexSelected != -1 && 0 <= i < |songs|
      modifies this
      ensures Valid() && playingSong == old(playingSong)
      ensures IsSmart() ==> !moved && State() == old(State())
      ensures !IsSmart() ==> moved && indexSelected == i && songs[i] == old(songs[indexSelected])
      ensures !IsSmart() ==> songs == InsertAt(RemoveAt(old(songs), old(indexSelected)), i, old(songs[indexSelected]))
      ensures multiset(songs) == multiset(old(songs))
    {
      if IsSmart() {
        return false;
      }
      var elemSelected := GetSelected();
      ghost var before := songs;
      var _ := RemoveBase();
      assert multiset(songs) + multiset{elemSelected} == multiset(before);
      songs := InsertAt(songs, i, elemSelected);
      Select(i);
      return true;
    }

    /** next(): one position on; past the last position there is no selection. */
    method Next()
      requires Valid()
      modifies this
      ensures Valid() && songs == old(songs) && playingSong == old(playingSong)
      ensures indexSelected == NextIndex(old(indexSelected), |songs|)
    {
      indexSelected := if indexSelected + 1 >= |songs| then -1 else indexSelected + 1;
    }

    /** previous(): one position back; before the first there is no selection. */
    method Previous()
      requires Valid()
      modifies this
      ensures Valid() && songs == old(songs) && playingSong == old(playingSong)
      ensures indexSelected == PreviousIndex(old(indexSelected))
    {
      indexSelected := if indexSelected - 1 < 0 then -1 else indexSelected - 1;
    }

    /** removeAtIndex(k), with the removal of the selected position done as
        AbsPlaylist.remove does it, for every kind of playlist. */
    method RemoveAtIndex(k: int)
      requires Valid() && 0 <= k < |songs|
      modifies this
      ensures Valid() && State() == PlaylistStates.RemoveAtIndex(old(State()), k)
      ensures playingSong == old(playingSong)
    {
      if indexSelected != -1 && indexSelected == k {
        var _ := RemoveBase();
      } else {
        var selectedIndex := indexSelected;
        songs := RemoveAt(songs, k);
        if indexSelected != -1 && k < selectedIndex {
          indexSelected := selectedIndex - 1;
        }
      }
    }

    /** SmartPlaylist.removeAutomatic(k): removeAtIndex(k); the playlist shrinks
        by one. */
    method RemoveAutomatic(k: int)
      requires Valid() && IsSmart() && 0 <= k < |songs|
      modifies this
      ensures Valid() && State() == PlaylistStates.RemoveAtIndex(old(State()), k)
      ensures |songs| == old(|songs|) - 1 && playingSong == old(playingSong)
    {
      RemoveAtIndex(k);
    }

    /** play(): stops the player, records the selected song as playing through
        this playlist, then loads and plays it. */
    method Play()
      requires Valid() && SomeSelected()
      modifies this, player
      ensures Valid() && State() == old(State())
      ensures playingSong == old(GetSelected()) && IsPlaying()
      ensures player.log == old(player.log) + [Command.Stop, Command.Load(playingSong.filename), Command.Play]
      ensures player.listeners == old(player.listeners)
    {
      player.Stop();
      playingSong := GetSelected();
      player.Load(playingSong.filename);
      player.Play();
    }

    /** stop(): only forwards to the player. */
    method Stop()
      modifies player
      ensures player.log == old(player.log) + [Command.Stop]
      ensures player.listeners == old(player.listeners)
    {
      player.Stop();
    }

    /** searchPlayingSong(): after the playing song ended, the song after its
        first equal member is selected and played; when there is none, nothing
        plays any more. */
    method SearchPlayingSong()
      requires Valid() && playingSong != null
      modifies this, player
      ensures Valid() && songs == old(songs) && player.listeners == old(player.listeners)
      ensures var k := old(IndexOf(songs, playingSong));
        (k == -1 ==> indexSelected == old(indexSelected) && playingSong == null && player.log == old(player.log)) &&
        (k != -1 && k + 1 < |songs| ==>
          indexSelected == k + 1 && playingSong == songs[k + 1] &&
          player.log == old(player.log) + [Command.Stop, Command.Load(songs[k + 1].filename), Command.Play]) &&
        (k != -1 && k + 1 >= |songs| ==> indexSelected == -1 && playingSong == null && player.log == old(player.log))
    {
      var index := IndexOf(songs, playingSong);
      if index != -1 {
        Select(index);
      }
      if indexSelected != -1 && SameSong(songs[indexSelected], playingSong) {
        Next();
        if indexSelected != -1 {
          Play();
          return;
        }
      }
      playingSong := null;
    }

    /** propertyChange: while a song plays through this playlist, STOPED forgets
        it and ENDED counts one more play of it and moves on to the next song. */
    method PropertyChange(n: PlayerNotice)
      requires Valid()
      modifies this, player, playingSong
      ensures Valid() && songs == old(songs) && player.listeners == old(player.listeners)
      ensures n.propertyName != PlayingStateProperty || old(playingSong) == null || (n.newState != STOPED && n.newState != ENDED) ==>
        indexSelected == old(indexSelected) && playingSong == old(playingSong) && player.log == old(player.log) &&
        (old(playingSong) != null ==> old(playingSong).playCount == old(playingSong.playCount))
      ensures n.propertyName == PlayingStateProperty && old(playingSong) != null && n.newState == STOPED ==>
        indexSelected == old(indexSelected) && playingSong == null && player.log == old(player.log) &&
        old(playingSong).playCount == old(playingSong.playCount)
      ensures n.propertyName == PlayingStateProperty && old(playingSong) != null && n.newState == ENDED ==>
        var p := old(playingSong);
        var k := IndexOf(songs, p);
        p.playCount == old(p.playCount) + 1 && p.rate == old(p.rate) &&
        (k == -1 ==> indexSelected == old(indexSelected) && playingSong == null && player.log == old(player.log)) &&
        (k != -1 && k + 1 < |songs| ==>
          indexSelected == k + 1 && playingSong == songs[k + 1] &&
          player.log == old(player.log) + [Command.Stop, Command.Load(songs[k + 1].filename), Command.Play]) &&
        (k != -1 && k + 1 >= |songs| ==> indexSelected == -1 && playingSong == null && player.log == old(player.log))
      ensures old(playingSong) != null ==> old(playingSong).rate == old(playingSong.rate)
    {
      if n.propertyName == PlayingStateProperty && playingSong != null {
        if n.newState == STOPED {
          playingSong := null;
        } else if n.newState == ENDED {
          playingSong.IncTimesPlayed();
          ghost var k := IndexOf(songs, playingSong);
          SearchPlayingSong();
          assert IndexOf(songs, old(playingSong)) == k;
        }
      }
    }

    /** AbsPlaylist.processEvent: on Removed(s), removeAtIndex at the first member
        equal to s. */
    method RemoveMatching(e: SongLibraryEvent)
      requires Valid()
      modifies this
      ensures Valid() && State() == old(RemovedStep(State(), e)) && playingSong == old(playingSong)
    {
      if e.Removed? {
        var index := IndexOf(songs, e.song);
        if index != -1 {
          RemoveAtIndex(index);
        }
      }
    }

    /** MostLikedSongsPlaylist.removeLowestRate: scans for the first member of
        lowest rating and removes it. */
    method RemoveLowestRate()
      requires Valid() && IsSmart() && |songs| > 0
      modifies this
      ensures Valid() && State() == old(PlaylistStates.RemoveAtIndex(State(), LowestRateIndex(songs)))
      ensures |songs| == old(|songs|) - 1 && playingSong == old(playingSong)
    {
      var removeIndex := -1;
      var smallest: Song? := null;
      var index := 0;
      while index < |songs|
        invariant 0 <= index <= |songs|
        invariant index == 0 <==> smallest == null
        invariant index > 0 ==> removeIndex == LowestIn(songs, index) && smallest == songs[removeIndex]
      {
        var playlistSong := songs[index];
        if smallest == null {
          removeIndex := index;
          smallest := playlistSong;
        } else if Below(playlistSong.rate, smallest.rate) {
          smallest := playlistSong;
          removeIndex := index;
        }
        index := index + 1;
      }
      RemoveAutomatic(removeIndex);
    }

    /** MostLikedSongsPlaylist.removeUnrated: removes the first unrated member,
        if any. */
    method RemoveUnrated()
      requires Valid() && IsSmart()
      modifies this
      ensures Valid() && State() == old(RemoveFirstUnrated(State())) && playingSong == old(playingSong)
    {
      var index := 0;
      while index < |songs|
        invariant 0 <= index <= |songs|
        invariant forall i :: 0 <= i < index ==> songs[i].rate != UNRATED
      {
        if songs[index].rate == UNRATED {
          break;
        }
        index := index + 1;
      }
      assert index == FirstUnratedIndex(songs);
      if index < |songs| {
        RemoveAutomatic(index);
      }
    }

    /** MostLikedSongsPlaylist.refillPlaylist: addAutomatic of the library's
        highest-rated songs, best first, while the playlist has room. */
    method RefillPlaylist(lib: seq<Song>)
      requires Valid() && IsSmart()
      modifies this
      ensures Valid() && State() == old(Refill(State(), TopRated(lib))) && playingSong == old(playingSong)
    {
      var top := TopRated(lib);
      ghost var st := State();
      ghost var target := Refill(st, top);
      var i := 0;
      while i < |top| && |songs| < Capacity
        invariant 0 <= i <= |top| && Valid() && playingSong == old(playingSong)
        invariant State() == st && old(allocated(st)) && old(Refill(st, top[i..])) == target
      {
        ghost var a := old(AddSong(st, top[i]));
        assert top[i..][0] == top[i] && top[i..][1..] == top[i + 1..];
        assert old(Refill(st, top[i..])) == old(Refill(a, top[i + 1..]));
        assert AddSong(State(), top[i]) == a;
        AddAutomatic(top[i]);
        st := a;
        i := i + 1;
      }
    }

    /** The backfill of MostRecentlyAddedSongsPlaylist.processEvent: addAutomatic
        of the library songs from the newest down, until one is added. */
    method BackfillFromLibrary(lib: seq<Song>)
      requires Valid() && IsSmart()
      modifies this
      ensures Valid() && State() == old(Backfill(State(), lib, |lib|)) && playingSong == old(playingSong)
    {
      ghost var st0 := State();
      ghost var target := Backfill(st0, lib, |lib|);
      var originalSize := |songs|;
      var i := |lib| - 1;
      while i >= 0 && |songs| == originalSize
        invariant -1 <= i < |lib| && Valid() && playingSong == old(playingSong)
        invariant |songs| == originalSize ==> State() == st0 && old(Backfill(st0, lib, i + 1)) == target
        invariant |songs| != originalSize ==> State() == target
      {
        ghost var a := old(AddSong(st0, lib[i]));
        assert old(Backfill(st0, lib, i + 1)) == if |a.songs| != |st0.songs| then a else old(Backfill(st0, lib, i));
        assert AddSong(State(), lib[i]) == a;
        AddAutomatic(lib[i]);
        i := i - 1;
      }
    }

    /** The first half of the rating reaction of
        MostLikedSongsPlaylist.processEvent: add the song, then drop the lowest
        rated member when over Capacity. */
    method AddRated(x: Song)
      requires Valid() && IsSmart()
      modifies this
      ensures Valid() && State() == old(TrimToCapacity(AddSong(State(), x))) && playingSong == old(playingSong)
    {
      ghost var a := AddSong(State(), x);
      ghost var t := TrimToCapacity(a);
      AddAutomatic(x);
      if |songs| > Capacity {
        assert t == PlaylistStates.RemoveAtIndex(a, LowestRateIndex(songs));
        RemoveLowestRate();
      }
    }

    /** The rating reaction of MostLikedSongsPlaylist.processEvent before the
        refill: AddRated, then drop the first unrated member when the new rating
        is UNRATED. */
    method Rerate(e: SongLibraryEvent)
      requires Valid() && IsSmart() && e.Rated?
      modifies this
      ensures Valid() && State() == old(MostLikedRules.Rerate(State(), e)) && playingSong == old(playingSong)
    {
      ghost var b := TrimToCapacity(AddSong(State(), e.song));
      ghost var c := RemoveFirstUnrated(b);
      assert MostLikedRules.Rerate(State(), e) == if e.newRate == UNRATED then c else b;
      AddRated(e.song);
      assert State() == b;
      if e.newRate == UNRATED {
        assert RemoveFirstUnrated(b) == c;
        RemoveUnrated();
      }
    }

    /** MostLikedSongsPlaylist.processEvent after the base removal. */
    method ReactMostLiked(e: SongLibraryEvent, lib: seq<Song>)
      requires Valid() && kind == Kind.MostLiked
      modifies this
      ensures Valid() && State() == old(MostLikedReact(State(), e, lib)) && playingSong == old(playingSong)
    {
      if e.Rated? {
        Rerate(e);
        RefillFramed((State(), lib));
        RefillPlaylist(lib);
      } else if e.Removed? && |songs| < Capacity && |lib| > |songs| {
        RefillPlaylist(lib);
      }
    }

    /** MostRecentlyAddedSongsPlaylist.processEvent after the base removal. */
    method ReactMostRecent(e: SongLibraryEvent, lib: seq<Song>)
      requires Valid() && kind == Kind.MostRecentlyAdded
      modifies this
      ensures Valid() && State() == old(MostRecentReact(State(), e, lib)) && playingSong == old(playingSong)
    {
      if e.Added? {
        AddAutomatic(e.song);
        if |songs| > Capacity {
          RemoveAutomatic(0);
        }
      }
      if e.Removed? && |songs| < Capacity && |lib| > |songs| {
        BackfillFramed((State(), lib));
        BackfillFromLibrary(lib);
      }
    }

    /** MostLikedSongsPlaylist.processEvent: the base removal, then the rating
        reaction and the refill. */
    method ProcessMostLiked(e: SongLibraryEvent, lib: seq<Song>)
      requires Valid() && kind == Kind.MostLiked
      modifies this
      ensures Valid() && State() == old(MostLikedStep(State(), e, lib)) && playingSong == old(playingSong)
    {
      RemoveMatching(e);
      MostLikedReactFramed((State(), e, lib));
      ReactMostLiked(e, lib);
    }

    /** MostRecentlyAddedSongsPlaylist.processEvent. */
    method ProcessMostRecent(e: SongLibraryEvent, lib: seq<Song>)
      requires Valid() && kind == Kind.MostRecentlyAdded
      modifies this
      ensures Valid() && State() == old(MostRecentStep(State(), e, lib)) && playingSong == old(playingSong)
    {
      RemoveMatching(e);
      MostRecentReactFramed((State(), e, lib));
      ReactMostRecent(e, lib);
    }

    /** processEvent of each kind of playlist; lib is the library after the
        change that raised e. */
    method ProcessEvent(e: SongLibraryEvent, lib: seq<Song>)
      requires Valid()
      modifies this
      ensures Valid() && State() == old(Step(kind, State(), e, lib)) && playingSong == old(playingSong)
    {
      match kind
      case Manual => RemoveMatching(e);
      case MostLiked => ProcessMostLiked(e, lib);
      case MostRecentlyAdded => ProcessMostRecent(e, lib);
    }
  }
}

=== FILE: playlist_list.dfy ===
/** domain.playlists.PlaylistList: a selection list of playlists. Every playlist
    in it is registered as a listener of the library and of the player; the
    player is the process-wide one, here the library's. */
module PlaylistLists {
  import opened Songs
  import opened Players
  import opened SelectionLists
  import opened Library
  import opened Playlists

  /** The number of playlists in ps that play a song. */
  function PlayingCount(ps: seq<Playlist>): (n: nat)
    reads ps
    ensures n <= |ps|
    ensures n == 0 <==> forall i :: 0 <= i < |ps| ==> !ps[i].IsPlaying()
  {
    if ps == [] then 0
    else PlayingCount(ps[..|ps| - 1]) + (if ps[|ps| - 1].IsPlaying() then 1 else 0)
  }

  /** n stop commands. */
  function Stops(n: nat): (r: seq<Command>)
    ensures |r| == n && forall i :: 0 <= i < n ==> r[i] == Command.Stop
  {
    if n == 0 then [] else Stops(n - 1) + [Command.Stop]
  }

  class PlaylistList {
    const playlists: SelectionList<Playlist>
    const library: MusicLibrary
    const player: Player

    ghost predicate Valid()
      reads this, playlists, playlists.elems, library
    {
      playlists.Valid() && library.player == player &&
      forall i :: 0 <= i < |playlists.elems| ==> playlists.elems[i].Valid() && playlists.elems[i].player == player
    }

    function Size(): (n: nat)
      reads this, playlists
      ensures n == |playlists.elems|
    {
      playlists.Size()
    }

    function SomeSelected(): (b: bool)
      reads this, playlists
      ensures b <==> playlists.selectedIndex != -1
    {
      playlists.SomeSelected()
    }

    function GetIndexSelected(): (i: int)
      reads this, playlists, playlists.elems, library
      requires Valid()
      ensures -1 <= i < Size() && (i == -1 <==> !SomeSelected())
    {
      playlists.GetIndexSelected()
    }

    function GetSelected(): (p: Playlist)
      reads this, playlists, playlists.elems, library
      requires Valid() && SomeSelected()
      ensures p == playlists.elems[GetIndexSelected()] && p.Valid() && p.player == player
    {
      playlists.GetSelected()
    }

    /** The Most Liked and Most Recently Added playlists, in that order, both
        registered, the second one selected. */
    constructor (library: MusicLibrary)
      requires library.Valid()
      modifies library, library.player
      ensures Valid() && this.library == library && player == library.player
      ensures |playlists.elems| == 2 && playlists.selectedIndex == 1
      ensures playlists.elems[0].kind == Kind.MostLiked && playlists.elems[0].songs == []
      ensures playlists.elems[1].kind == Kind.MostRecentlyAdded && playlists.elems[1].songs == []
      ensures library.listeners == old(library.listeners) + playlists.elems
      ensures player.listeners == old(library.player.listeners) + playlists.elems
      ensures player.log == old(library.player.log) && library.emitted == old(library.emitted)
      ensures library.Songs() == old(library.Songs()) && library.playingSong == old(library.playingSong)
    {
      playlists := new SelectionList<Playlist>();
      this.library := library;
      player := library.player;
      new;
      var liked := new Playlist.MostLikedSongs(library.player);
      var recent := new Playlist.MostRecentlyAddedSongs(library.player);
      ghost var listening := library.listeners;
      ghost var hearing := player.listeners;
      Add(liked);
      Add(recent);
      assert playlists.elems == [liked, recent];
      assert library.listeners == listening + [liked] + [recent] == listening + [liked, recent];
      assert player.listeners == hearing + [liked] + [recent] == hearing + [liked, recent];
    }

    /** add(p): appended and selected, registered with the library and the player. */
    method Add(p: Playlist)
      requires Valid() && p.Valid() && p.player == player
      modifies playlists, library, player
      ensures Valid() && playlists.elems == old(playlists.elems) + [p]
      ensures playlists.selectedIndex == |playlists.elems| - 1
      ensures library.listeners == old(library.listeners) + [p]
      ensures player.listeners == old(player.listeners) + [p]
      ensures player.log == old(player.log) && library.emitted == old(library.emitted)
      ensures library.Songs() == old(library.Songs()) && library.playingSong == old(library.playingSong)
    {
      playlists.Add(p);
      library.RegisterListener(p);
      player.AddListener(p);
    }

    /** remove(): with a selection, the selected playlist is unregistered from the
        library and the player and removed; without one nothing changes. */
    method Remove()
      requires Valid()
      modifies playlists, library, player
      ensures Valid() && !SomeSelected()
      ensures old(SomeSelected()) ==>
        playlists.elems == RemoveAt(old(playlists.elems), old(playlists.selectedIndex)) &&
        library.listeners == Without(old(library.listeners), old(GetSelected())) &&
        player.listeners == Without(old(player.listeners), old(GetSelected()))
      ensures !old(SomeSelected()) ==>
        playlists.elems == old(playlists.elems) &&
        library.listeners == old(library.listeners) && player.listeners == old(player.listeners)
      ensures player.log == old(player.log) && library.emitted == old(library.emitted)
      ensures library.Songs() == old(library.Songs()) && library.playingSong == old(library.playingSong)
    {
      if SomeSelected() {
        library.UnregisterListener(GetSelected());
        player.RemoveListener(GetSelected());
        ghost var before := playlists.elems;
        playlists.Remove();
        assert forall i :: 0 <= i < |playlists.elems| ==> playlists.elems[i] in before;
      }
    }

    method Select(i: int)
      requires Valid() && 0 <= i < Size()
      modifies playlists
      ensures Valid() && playlists.elems == old(playlists.elems) && GetIndexSelected() == i
    {
      playlists.Select(i);
    }

    method Next()
      requires Valid()
      modifies playlists
      ensures Valid() && playlists.elems == old(playlists.elems)
      ensures playlists.selectedIndex == NextIndex(old(playlists.selectedIndex), Size())
    {
      playlists.Next();
    }

    method Previous()
      requires Valid()
      modifies playlists
      ensures Valid() && playlists.elems == old(playlists.elems)
      ensures playlists.selectedIndex == PreviousIndex(old(playlists.selectedIndex))
    {
      playlists.Previous();
    }

    /** play(): the selected playlist plays its selected song. */
    method Play()
      requires Valid() && SomeSelected() && GetSelected().SomeSelected()
      modifies GetSelected(), player
      ensures Valid() && playlists.elems == old(playlists.elems)
      ensures GetSelected() == old(GetSelected()) && GetSelected().State() == old(GetSelected().State())
      ensures GetSelected().playingSong == old(GetSelected().GetSelected())
      ensures player.log == old(player.log) + [Command.Stop, Command.Load(old(GetSelected().GetSelected()).filename), Command.Play]
      ensures player.listeners == old(player.listeners)
    {
      var p := GetSelected();
      p.Play();
      assert forall i :: 0 <= i < |playlists.elems| ==> playlists.elems[i] == p || unchanged(playlists.elems[i]);
    }

    /** isPlaying(): a search for a member that plays a song. */
    method IsPlaying() returns (b: bool)
      requires Valid()
      ensures b <==> exists i :: 0 <= i < |playlists.elems| && playlists.elems[i].IsPlaying()
      ensures b <==> PlayingCount(playlists.elems) > 0
    {
      var ps := playlists.elems;
      var k := 0;
      while k < |ps|
        invariant 0 <= k <= |ps|
        invariant forall i :: 0 <= i < k ==> !ps[i].IsPlaying()
      {
        if ps[k].IsPlaying() {
          return true;
        }
        k := k + 1;
      }
      return false;
    }

    /** stop(): one stop command for every member that plays a song, and none for
        the others. */
    method Stop()
      requires Valid()
      modifies player
      ensures player.log == old(player.log + Stops(PlayingCount(playlists.elems)))
      ensures player.listeners == old(player.listeners)
    {
      var ps := playlists.elems;
      ghost var n := 0;
      var k := 0;
      while k < |ps|
        invariant 0 <= k <= |ps|
        invariant n == old(PlayingCount(ps[..k]))
        invariant player.log == old(player.log) + Stops(n)
        invariant player.listeners == old(player.listeners)
      {
        assert ps[..k + 1][..k] == ps[..k];
        assert ps[k].IsPlaying() == old(ps[k].IsPlaying());
        if ps[k].IsPlaying() {
          ps[k].Stop();
          n := n + 1;
        }
        k := k + 1;
      }
      assert ps[..k] == ps;
    }
  }
}

=== FILE: playlist_state.dfy ===
/** The membership and selection rules shared by every playlist
    (domain.playlists.AbsPlaylist), stated on the value of a playlist: its songs
    and its selected index. The songs are shared objects, so the rules read them:
    membership is decided by Song.equals (SameSong). */
module PlaylistStates {
  import opened Rates
  import opened Songs
  import opened LibraryEvents
  import opened SelectionLists

  /** AMOUNT_OF_SONGS of both smart playlists. */
  const Capacity: nat := 5

  datatype PlaylistState = PlaylistState(songs: seq<Song>, sel: int) {
    predicate Valid()
    {
      ValidSelection(sel, |songs|)
    }
  }

  /** List.contains: some member equals x. */
  predicate Contains(ss: seq<Song>, x: Song)
    reads ss, x
  {
    exists i :: 0 <= i < |ss| && SameSong(ss[i], x)
  }

  /** No song object occurs twice. */
  predicate DistinctRefs(ss: seq<Song>)
  {
    forall i, j :: 0 <= i < j < |ss| ==> ss[i] != ss[j]
  }

  /** No two members are equal songs. */
  predicate NoEqualMembers(ss: seq<Song>)
    reads ss
  {
    forall i, j :: 0 <= i < j < |ss| ==> !SameSong(ss[i], ss[j])
  }

  /** List.indexOf: the first position whose song equals x, or -1. */
  function IndexOf(ss: seq<Song>, x: Song): (k: int)
    reads ss, x
    ensures -1 <= k < |ss|
    ensures k == -1 <==> !Contains(ss, x)
    ensures k != -1 ==> SameSong(ss[k], x) && forall i :: 0 <= i < k ==> !SameSong(ss[i], x)
  {
    if ss == [] then -1
    else if SameSong(ss[0], x) then 0
    else
      var k := IndexOf(ss[1..], x);
      assert forall i :: 1 <= i < |ss| ==> ss[i] == ss[1..][i - 1];
      if k == -1 then -1 else k + 1
  }

  /** AbsPlaylist.add (and addAutomatic): rejected when an equal song is already a
      member; otherwise appended and selected. */
  function AddSong(st: PlaylistState, x: Song): (r: PlaylistState)
    reads st.songs, x
    ensures forall i :: 0 <= i < |r.songs| ==> r.songs[i] in st.songs || r.songs[i] == x
  {
    if Contains(st.songs, x) then st else PlaylistState(st.songs + [x], |st.songs|)
  }

  /** add never creates a duplicate: the song is a member afterwards; the list
      either is unchanged (exactly when an equal song was there) or grew by that
      one song at the end, which is then selected. Distinct objects stay distinct
      and the selection stays valid. */
  lemma AddSongSpec(st: PlaylistState, x: Song)
    ensures var r := AddSong(st, x);
      Contains(r.songs, x) &&
      (r == st <==> Contains(st.songs, x)) &&
      (r != st ==> r.songs == st.songs + [x] && r.sel == |r.songs| - 1) &&
      (DistinctRefs(st.songs) ==> DistinctRefs(r.songs)) &&
      (NoEqualMembers(st.songs) ==> NoEqualMembers(r.songs)) &&
      (st.Valid() ==> r.Valid())
  {
    var r := AddSong(st, x);
    if !Contains(st.songs, x) {
      assert SameSong(r.songs[|st.songs|], x);
      forall i | 0 <= i < |st.songs| ensures st.songs[i] != x && !SameSong(st.songs[i], x) {
      }
    }
  }

  /** AbsPlaylist.removeAtIndex(k): removes position k. Removing the selected song
      clears the selection; removing one before it shifts the index down so that
      the same song stays selected. */
  function RemoveAtIndex(st: PlaylistState, k: nat): (r: PlaylistState)
    requires k < |st.songs|
    ensures r.songs == RemoveAt(st.songs, k)
    ensures forall i :: 0 <= i < |r.songs| ==> r.songs[i] in st.songs
    ensures st.Valid() ==> r.Valid()
    ensures st.sel == k ==> r.sel == -1
    ensures st.sel == -1 ==> r.sel == -1
    ensures st.Valid() && st.sel != -1 && st.sel != k ==> r.sel != -1 && r.songs[r.sel] == st.songs[st.sel]
  {
    if st.sel != -1 && st.sel == k then PlaylistState(RemoveAt(st.songs, k), -1)
    else PlaylistState(RemoveAt(st.songs, k), if st.sel != -1 && k < st.sel then st.sel - 1 else st.sel)
  }

  /** Removing a position keeps objects distinct and members unequal. */
  lemma RemoveAtIndexKeepsDistinct(st: PlaylistState, k: nat)
    requires k < |st.songs|
    ensures DistinctRefs(st.songs) ==> DistinctRefs(RemoveAtIndex(st, k).songs)
    ensures NoEqualMembers(st.songs) ==> NoEqualMembers(RemoveAtIndex(st, k).songs)
  {
    var r := RemoveAtIndex(st, k).songs;
    assert forall i :: 0 <= i < |r| ==> r[i] == st.songs[if i < k then i else i + 1];
  }

  /** removeAtIndex as written, seen from a smart playlist: the selected position
      is removed through remove(), which SmartPlaylist overrides to do nothing, so
      that removal is lost; any other position is removed as in RemoveAtIndex. */
  function SmartRemoveAtIndexAsWritten(st: PlaylistState, k: nat): (r: PlaylistState)
    requires k < |st.songs|
    ensures st.sel == k ==> r == st
    ensures st.sel != k ==> r == RemoveAtIndex(st, k)
  {
    if st.sel != -1 && st.sel == k then st else RemoveAtIndex(st, k)
  }

  /** AbsPlaylist.processEvent: on Removed(s), removeAtIndex at the first member
      equal to s; no equal member, or any other event, changes nothing. */
  function RemovedStep(st: PlaylistState, e: SongLibraryEvent): (r: PlaylistState)
    reads st.songs, e.song
    ensures forall i :: 0 <= i < |r.songs| ==> r.songs[i] in st.songs
  {
    if e.Removed? then
      var k := IndexOf(st.songs, e.song);
      if k == -1 then st else RemoveAtIndex(st, k)
    else st
  }

  /** The library's add-then-remove round trip, seen from a playlist: when no two
      members are equal, a Removed(s) event leaves no member equal to s, removes
      exactly one song if one was there, and keeps the selection valid. */
  lemma {:induction false} RemovedSongIsGone(st: PlaylistState, s: Song)
    requires NoEqualMembers(st.songs)
    ensures var r := RemovedStep(st, Removed(s));
      !Contains(r.songs, s) &&
      |r.songs| == (if Contains(st.songs, s) then |st.songs| - 1 else |st.songs|) &&
      (st.Valid() ==> r.Valid())
  {
    var k := IndexOf(st.songs, s);
    if k != -1 {
      var r := RemovedStep(st, Removed(s));
      forall i | 0 <= i < |r.songs| ensures !SameSong(r.songs[i], s) {
        var j := if i < k then i else i + 1;
        assert r.songs[i] == st.songs[j];
        if SameSong(st.songs[j], s) {
          assert k < j;
          SameSongEquivalence(s, st.songs[j], st.songs[j]);
          SameSongEquivalence(st.songs[k], s, st.songs[j]);
        }
      }
    }
  }

  /** processEvent(Removed(s)) as written, seen from a smart playlist. */
  function SmartRemovedStepAsWritten(st: PlaylistState, e: SongLibraryEvent): (r: PlaylistState)
    reads st.songs, e.song
  {
    if e.Removed? then
      var k := IndexOf(st.songs, e.song);
      if k == -1 then st else SmartRemoveAtIndexAsWritten(st, k)
    else st
  }
}

=== FILE: rates.dfy ===
/** The song rating enumeration of domain.core.Rate: six values in ordinal order,
    with increment and decrement that saturate at the two ends. */
module Rates {

  datatype Rate = UNRATED | VERY_BAD | BAD | OK | GOOD | VERY_GOOD

  /** Number of values, Rate.values().length. */
  const RateCount: nat := 6

  /** The enum constant's ordinal: its position in the declaration. */
  function Ordinal(r: Rate): (n: nat)
    ensures n < RateCount
  {
    match r
    case UNRATED => 0
    case VERY_BAD => 1
    case BAD => 2
    case OK => 3
    case GOOD => 4
    case VERY_GOOD => 5
  }

  /** Rate.values()[n]. */
  function FromOrdinal(n: nat): (r: Rate)
    requires n < RateCount
    ensures Ordinal(r) == n
  {
    if n == 0 then UNRATED
    else if n == 1 then VERY_BAD
    else if n == 2 then BAD
    else if n == 3 then OK
    else if n == 4 then GOOD
    else VERY_GOOD
  }

  /** Distinct ratings have distinct ordinals, so an ordinal determines its rating. */
  lemma OrdinalInjective(a: Rate, b: Rate)
    ensures Ordinal(a) == Ordinal(b) <==> a == b
  {
  }

  /** r.compareTo(s) < 0: r comes strictly before s in the enumeration. */
  predicate Below(r: Rate, s: Rate)
  {
    Ordinal(r) < Ordinal(s)
  }

  function Min(a: int, b: int): int { if a <= b then a else b }
  function Max(a: int, b: int): int { if a >= b then a else b }

  /** Rate.inc(): the next rating up, or VERY_GOOD itself at the top. */
  function Inc(r: Rate): (up: Rate)
    ensures r == VERY_GOOD ==> up == VERY_GOOD
    ensures r != VERY_GOOD ==> Ordinal(up) == Ordinal(r) + 1
  {
    FromOrdinal(Min(Ordinal(r) + 1, RateCount - 1))
  }

  /** Rate.dec(): the next rating down, or UNRATED itself at the bottom. */
  function Dec(r: Rate): (down: Rate)
    ensures r == UNRATED ==> down == UNRATED
    ensures r != UNRATED ==> Ordinal(down) + 1 == Ordinal(r)
  {
    FromOrdinal(Max(Ordinal(r) - 1, 0))
  }

  /** Decrementing never raises a rating and incrementing never lowers it. */
  lemma IncDecMonotone(r: Rate)
    ensures Ordinal(Dec(r)) <= Ordinal(r) <= Ordinal(Inc(r))
  {
  }

  /** Away from the saturated end, Dec undoes Inc and Inc undoes Dec. */
  lemma IncDecInverse(r: Rate)
    ensures r != VERY_GOOD ==> Dec(Inc(r)) == r
    ensures r != UNRATED ==> Inc(Dec(r)) == r
  {
    OrdinalInjective(Dec(Inc(r)), r);
    OrdinalInjective(Inc(Dec(r)), r);
  }

  /** The expectations of the rating tests: OK.inc() is GOOD, VERY_GOOD.inc() is
      VERY_GOOD, UNRATED.dec() is UNRATED, OK.dec() is BAD. */
  lemma RateExamples()
    ensures Inc(OK) == GOOD && Inc(VERY_GOOD) == VERY_GOOD
    ensures Dec(UNRATED) == UNRATED && Dec(OK) == BAD
  {
  }
}

=== FILE: selection_list.dfy ===
/** util.adts: QListWithSelection, an ordered list with at most one selected
    position, and its ArrayList-backed implementation (AbsQListWithSelection,
    ArrayQListWithSelection). The interface's requires/ensures are the contracts of
    the methods below. */
module SelectionLists {

  /** The selection invariant: no selection (-1) or a position of the list. */
  predicate ValidSelection(i: int, n: nat)
  {
    i == -1 || 0 <= i < n
  }

  /** The index next() leaves: one further on, or -1 once past the last position. */
  function NextIndex(i: int, n: nat): (j: int)
    ensures ValidSelection(i, n) ==> ValidSelection(j, n)
    ensures j != -1 ==> j == i + 1
  {
    if i + 1 >= n then -1 else i + 1
  }

  /** The index previous() leaves: one back, or -1 before the first position. */
  function PreviousIndex(i: int): (j: int)
    ensures forall n: nat :: ValidSelection(i, n) ==> ValidSelection(j, n)
    ensures j != -1 ==> j == i - 1
  {
    if i - 1 < 0 then -1 else i - 1
  }

  /** next() from the last position, and previous() from the first, clear the
      selection instead of wrapping; elsewhere they move by one. */
  lemma NavigationAtTheEnds(i: int, n: nat)
    requires 0 <= i < n
    ensures NextIndex(i, n) == (if i == n - 1 then -1 else i + 1)
    ensures PreviousIndex(i) == (if i == 0 then -1 else i - 1)
  {
  }

  /** The implementation also accepts next() with nothing selected (the interface
      forbids the call): it then selects the first element, if there is one. */
  lemma NextFromNoSelection(n: nat)
    ensures NextIndex(-1, n) == (if n == 0 then -1 else 0)
    ensures PreviousIndex(-1) == -1
  {
  }

  /** List.remove(k): s without its element at k, the others kept in order. */
  function RemoveAt<T>(s: seq<T>, k: nat): (r: seq<T>)
    requires k < |s|
    ensures |r| == |s| - 1
    ensures forall j :: 0 <= j < k ==> r[j] == s[j]
    ensures forall j :: k <= j < |r| ==> r[j] == s[j + 1]
    ensures multiset(r) + multiset{s[k]} == multiset(s)
  {
    assert s == s[..k] + [s[k]] + s[k + 1..];
    s[..k] + s[k + 1..]
  }

  class SelectionList<T> {
    var elems: seq<T>
    var selectedIndex: int

    ghost predicate Valid()
      reads this
    {
      ValidSelection(selectedIndex, |elems|)
    }

    /** ArrayQListWithSelection(): an empty list with nothing selected. */
    constructor ()
      ensures Valid() && elems == [] && !SomeSelected()
    {
      elems := [];
      selectedIndex := -1;
    }

    /** ArrayQListWithSelection(initList): the given elements in the given order,
        nothing selected. */
    constructor FromSeq(init: seq<T>)
      ensures Valid() && elems == init && !SomeSelected()
    {
      elems := init;
      selectedIndex := -1;
    }

    function Size(): nat
      reads this
    {
      |elems|
    }

    function Get(i: nat): T
      requires i < |elems|
      reads this
    {
      elems[i]
    }

    function SomeSelected(): bool
      reads this
    {
      selectedIndex != -1
    }

    /** getIndexSelected: when something is selected it is a position of the list. */
    function GetIndexSelected(): (i: int)
      requires Valid()
      reads this
      ensures SomeSelected() ==> 0 <= i < Size()
      ensures !SomeSelected() ==> i == -1
    {
      selectedIndex
    }

    /** getSelected: requires a selection; the element at the selected index. */
    function GetSelected(): (e: T)
      requires Valid() && SomeSelected()
      reads this
    {
      elems[selectedIndex]
    }

    /** add(e): appended at the end and selected; earlier elements unchanged. */
    method Add(e: T)
      requires Valid()
      modifies this
      ensures Valid()
      ensures elems == old(elems) + [e]
      ensures SomeSelected() && GetIndexSelected() == Size() - 1 && GetSelected() == e
    {
      elems := elems + [e];
      selectedIndex := |elems| - 1;
    }

    /** select(i): requires a position; that position is selected. */
    method Select(i: int)
      requires Valid() && 0 <= i < Size()
      modifies this
      ensures Valid() && elems == old(elems)
      ensures SomeSelected() && GetIndexSelected() == i
    {
      selectedIndex := i;
    }

    method Next()
      requires Valid()
      modifies this
      ensures Valid() && elems == old(elems)
      ensures selectedIndex == NextIndex(old(selectedIndex), |elems|)
    {
      selectedIndex := if selectedIndex + 1 >= |elems| then -1 else selectedIndex + 1;
    }

    method Previous()
      requires Valid()
      modifies this
      ensures Valid() && elems == old(elems)
      ensures selectedIndex == PreviousIndex(old(selectedIndex))
    {
      selectedIndex := if selectedIndex - 1 < 0 then -1 else selectedIndex - 1;
    }

    /** remove(): deletes the selected element, if any, and leaves nothing selected. */
    method Remove()
      requires Valid()
      modifies this
      ensures Valid() && !SomeSelected() && Size() <= old(Size())
      ensures old(SomeSelected()) ==> elems == RemoveAt(old(elems), old(selectedIndex))
      ensures !old(SomeSelected()) ==> elems == old(elems)
    {
      if selectedIndex != -1 {
        elems := RemoveAt(elems, selectedIndex);
        selectedIndex := -1;
      }
    }
  }

  /** The list tests' scenario on [2, 3, 7, 10, 2, 45], as a client of the contracts. */
  method ListScenario()
  {
    var q := new SelectionList<int>.FromSeq([2, 3, 7, 10, 2, 45]);
    assert q.Size() == 6 && !q.SomeSelected() && q.Get(3) == 10;
    q.Select(4);
    q.Next();
    assert q.GetIndexSelected() == 5;
    q.Next();
    assert !q.SomeSelected();
    q.Select(1);
    q.Previous();
    assert q.GetIndexSelected() == 0 && q.GetSelected() == 2;
    q.Previous();
    assert !q.SomeSelected();
    q.Remove();
    assert q.Size() == 6;
    q.Select(0);
    q.Remove();
    assert q.Size() == 5 && !q.SomeSelected() && q.elems == [3, 7, 10, 2, 45];
    q.Add(2);
    assert q.Size() == 6 && q.GetSelected() == 2;
  }
}

=== FILE: seqs.dfy ===
/** Small facts about sequences used across the model. */
module Seqs {

  /** a can be obtained from b by deleting elements: a keeps b's order. */
  predicate IsSubsequence<T(==)>(a: seq<T>, b: seq<T>)
  {
    a == [] ||
    (b != [] && ((a[0] == b[0] && IsSubsequence(a[1..], b[1..])) || IsSubsequence(a, b[1..])))
  }

  /** The last n elements of s (all of s when it is shorter). */
  function LastN<T>(s: seq<T>, n: nat): (r: seq<T>)
    ensures |r| == if |s| <= n then |s| else n
    ensures forall i :: 0 <= i < |r| ==> r[i] == s[|s| - |r| + i]
  {
    if |s| <= n then s else s[|s| - n..]
  }

  /** Appending to s slides its window of the last n elements by one. */
  lemma LastNSnoc<T>(s: seq<T>, x: T, n: nat)
    requires n > 0
    ensures LastN(s + [x], n) == if |s| < n then s + [x] else LastN(s, n)[1..] + [x]
  {
    if |s| >= n {
      assert (s + [x])[|s| + 1 - n..] == s[|s| - n..][1..] + [x];
    }
  }

  /** s with x inserted at position i (List.add(i, x)). */
  function InsertAt<T>(s: seq<T>, i: nat, x: T): (r: seq<T>)
    requires i <= |s|
    ensures |r| == |s| + 1 && r[i] == x
    ensures forall j :: 0 <= j < i ==> r[j] == s[j]
    ensures forall j :: i < j < |r| ==> r[j] == s[j - 1]
    ensures multiset(r) == multiset(s) + multiset{x}
  {
    assert s == s[..i] + s[i..];
    s[..i] + [x] + s[i..]
  }
}

=== FILE: songs.dfy ===
/** domain.core.Song: immutable metadata and file name, a mutable rating and a
    mutable play counter. Songs are shared by the library and every playlist and
    are changed in place, so a Song is a class. */
module Songs {
  import opened Rates
  import opened MetaInfos

  /** The four fields that Song.equals and Song.hashCode look at. */
  datatype SongData = SongData(filename: string, rate: Rate, playCount: nat, meta: SongMetaInfo)

  class Song {
    const meta: SongMetaInfo
    const filename: string
    var playCount: nat
    var rate: Rate

    /** A new song has not been rated and has never been played. */
    constructor (info: SongMetaInfo, fileName: string)
      ensures meta == info && filename == fileName
      ensures rate == UNRATED && playCount == 0
    {
      meta := info;
      filename := fileName;
      playCount := 0;
      rate := UNRATED;
    }

    /** The package-private constructor that starts from a given rating and count. */
    constructor WithState(info: SongMetaInfo, fileName: string, r: Rate, count: nat)
      ensures meta == info && filename == fileName
      ensures rate == r && playCount == count
    {
      meta := info;
      filename := fileName;
      playCount := count;
      rate := r;
    }

    /** The value Song.equals compares. */
    function Data(): SongData
      reads this
    {
      SongData(filename, rate, playCount, meta)
    }

    method IncTimesPlayed()
      modifies this
      ensures playCount == old(playCount) + 1
      ensures rate == old(rate)
    {
      playCount := playCount + 1;
    }

    method IncRating()
      modifies this
      ensures rate == Inc(old(rate))
      ensures playCount == old(playCount)
    {
      rate := Inc(rate);
    }

    method DecRating()
      modifies this
      ensures rate == Dec(old(rate))
      ensures playCount == old(playCount)
    {
      rate := Dec(rate);
    }

    function Title(): string { meta.title }
    function Genre(): string { meta.genre }
    function Artists(): seq<string> { meta.artists }
    function Album(): string { meta.album }

    /** Song.matches delegates to the metadata. */
    function Matches(pattern: string, find: Finder): bool
    {
      MetaInfos.Matches(meta, pattern, find)
    }

    function HashCode(): int
      reads this
    {
      DataHash(Data())
    }
  }

  /** Song.equals: the same object, or equal file name, rating, play count and
      metadata. (Comparison with null or with another class is false; neither can
      be a Song here.) */
  predicate SameSong(a: Song, b: Song)
    reads a, b
  {
    a == b ||
    (a.filename == b.filename && a.rate == b.rate && a.playCount == b.playCount && a.meta == b.meta)
  }

  /** Two songs are equal exactly when their four compared fields are equal; so a
      different rating or play count breaks equality. */
  lemma SameSongIffSameData(a: Song, b: Song)
    ensures SameSong(a, b) <==> a.Data() == b.Data()
  {
  }

  /** Song.equals is an equivalence relation. */
  lemma SameSongEquivalence(a: Song, b: Song, c: Song)
    ensures SameSong(a, a)
    ensures SameSong(a, b) ==> SameSong(b, a)
    ensures SameSong(a, b) && SameSong(b, c) ==> SameSong(a, c)
  {
  }

  /** Java int arithmetic: reduce to the 32-bit two's-complement range. */
  function Wrap32(x: int): (r: int)
    ensures -0x8000_0000 <= r < 0x8000_0000
    ensures (r - x) % 0x1_0000_0000 == 0
  {
    var m := x % 0x1_0000_0000;
    if m >= 0x8000_0000 then m - 0x1_0000_0000 else m
  }

  /** String.hashCode: h = 31 * h + c over the characters, in int arithmetic. */
  function StringHash(s: string): int
  {
    if s == [] then 0 else Wrap32(31 * StringHash(s[..|s| - 1]) + s[|s| - 1] as int)
  }

  /** The 31-based combination that Objects.hash and List.hashCode use. */
  function Combine(h: int, x: int): int
  {
    Wrap32(31 * h + x)
  }

  function StringsHash(ss: seq<string>): int
  {
    if ss == [] then 1 else Combine(StringsHash(ss[..|ss| - 1]), StringHash(ss[|ss| - 1]))
  }

  /** A hash of the record's four components (the record's own hash scheme is
      unspecified in Java; this one combines the component hashes in order). */
  function MetaHash(m: SongMetaInfo): int
  {
    Combine(Combine(Combine(Combine(0, StringHash(m.title)), StringHash(m.genre)),
                    StringsHash(m.artists)), StringHash(m.album))
  }

  /** Objects.hash(filename, rate, playCount, metaInfo); the rating enters through
      its ordinal, standing for the enum constant's identity hash. */
  function DataHash(d: SongData): int
  {
    Combine(Combine(Combine(Combine(1, StringHash(d.filename)), Ordinal(d.rate)), d.playCount),
            MetaHash(d.meta))
  }

  /** Equal songs have equal hash codes. */
  lemma EqualSongsEqualHash(a: Song, b: Song)
    requires SameSong(a, b)
    ensures a.HashCode() == b.HashCode()
  {
  }
}
